=== FILE: README.md ===
# FRCRPI5 messaging fabric and its clients, in Dafny

This project models the robot-support processes of FRCRPI5 and proves properties of the model.

- **The messenger router** (`MessengerServer`) keeps a table from logical name to connection, learnt from the `sender` of every message. It forwards each message, unmodified, to the connection registered under its `target`.
- **The supervisor** (`ProgramManager`) does the following:
  - launches the programs of a manifest;
  - relays log records;
  - tracks heartbeats;
  - warns about stale senders;
  - prints a rate-limited "all OK" line;
  - stops its children on shutdown.
- **The module base class** (`BaseModule`) publishes log and heartbeat records, sends addressed envelopes and filters what it receives.
- **The peripherals:**
  - the LED controller (`SET MODE`, `SET COLOR`, state requests and subscriptions);
  - the ultrasonic resender (serial lines of eight distances, packed into a UDP datagram, and state replies);
  - the camera process: mode switching over UDP, status requests, the shared mode life cycle, the event bus to the display, and the QR mode's per-frame result.
- **The display:**
  - back-stack navigation and the action dispatcher;
  - the menu and confirmation screens;
  - the AprilTag, QR, ball and sonar screens;
  - the log viewer;
  - the console logger;
  - the AprilTag image generator.

Python values after `json.loads` are the `Json` datatype. `Truthy` is Python's truthiness. `Lookup` and `GetOr` are `dict.get`. `KeyOf` decides which values can be dictionary keys.

Python dictionaries keep insertion order. This matters for the supervisor's `processes` and heartbeat maps and for the AprilTag screen's seen tags, so those maps are modelled as an insertion-ordered `Dict`.

Exceptions are outcomes in the model:
- `None` where the step raises;
- `Caught`, `ReaderCrash` or `HandlingError` notes where a loop catches the exception or ends;
- `Err` in `TagGen`.

Each iteration of a receive loop is one pure function from the state and the decoded frame to the new state and the messages sent.

Some behaviours of the code are easy to misread, and the model follows the code in each:
- **Startup.** The first malformed manifest entry raises out of `_start_programs`. So `run` ends before the relay, heartbeat and watchdog tasks start (`Supervisor.Boot`). Entries launched before it stay running.
- **Log relay and heartbeat tracker.** Neither catches errors in processing a record. A non-object record, a truthy non-string `message` or an unhashable `sender` ends that task.
- **Process state.** Processes have no STARTING or DEGRADED state. A child is running or exited, as `poll()` reports it.
- **Registration.** `BaseModule` has no `register`. A module is registered by the router when any message it sends carries its name as `sender`.

## Model

| member | source | states |
|---|---|---|
| Router.Step | DisplayManager/messenger_client.py:27-55 | A truthy, hashable sender is mapped to the arrival connection. No entry is removed and no other entry changes. The original frame is forwarded exactly when the target is truthy and registered, and only to that name's connection. An undecodable frame, a non-object or an unhashable sender changes nothing and sends nothing. |
| Router.NoTargetNeverForwarded | DisplayManager/messenger_client.py:42 | An absent, null or empty target is registration only: nothing is sent. |
| Router.UnknownTargetDropped | DisplayManager/messenger_client.py:42-51 | A message to an unregistered name is dropped. The table changes at most by the same message's sender registration. |
| Router.EchoToSender | DisplayManager/messenger_client.py:38-49 | Registration happens before routing, so a message addressed to its own sender returns on its arrival connection. |
| Router.RegistrationIdempotent | DisplayManager/messenger_client.py:38-40 | Processing the same registration twice leaves the table as processing it once. |
| Router.LastWriteWins | DisplayManager/messenger_client.py:38-39 | A later registration of a name overwrites the earlier connection. |
| Router.RunTable | DisplayManager/messenger_client.py:27-40 | After any run, a name is in the table iff it was there before or some input registered it. It maps to the connection of the last input that registered it. |
| Router.DeliveredOnlyToRegistered | DisplayManager/messenger_client.py:42-49 | Starting from an empty table, every delivery goes to the connection of an input whose sender is the delivered message's target. |
| Router.RunAppend | DisplayManager/messenger_client.py:27-55 | Two runs compose into one. Deliveries of earlier inputs precede those of later ones, so per-sender order is kept. |
| Router.Stop | DisplayManager/messenger_client.py:62-66 | Stopping ends the loop and keeps the table. |
| Router.Receive | DisplayManager/messenger_client.py:27-29 | A stopped server processes nothing. A running one performs exactly one step. |
| Router.NamedFrame | DisplayManager/messenger_client.py:35-43 | A frame whose sender is a non-empty string registers exactly that name. Its target key is its string target, if it has one. |
| Router.RegisterOnly | DisplayManager/messenger_client.py:35-42 | A registration without a target adds or overwrites one entry and sends nothing. |
| Router.ForwardKnown | DisplayManager/messenger_client.py:35-49 | A message from a name already registered on the arrival connection leaves the table unchanged. It is sent to the registered target's connection. |
| Router.AliceAndBob | DisplayManager/messenger_client.py:27-55 | Alice and bob register. Alice's message reaches bob's connection unmodified, and bob's reply reaches alice's connection. |
| Client.NewModule | ProgramManager/base_module.py:10-12 | A new module is running under its name. |
| Client.LogRecord | ProgramManager/base_module.py:30-37 | A log record has exactly timestamp, sender, message and level. The sender is the module's name and the level is lower-cased. A falsy message is sent as the empty string. |
| Client.HeartbeatRecord | ProgramManager/base_module.py:40-47 | A heartbeat with level `heartbeat` and the module's name is published iff the module runs. |
| Client.SendEnvelope | ProgramManager/base_module.py:50-58 | The envelope has exactly type `data`, the module as sender, and the given target, command and data. |
| Client.OnMessage | ProgramManager/base_module.py:61-65 | Only `data` messages for this module are handled, taken from the inbox. Nothing is handled after `stop`. A frame that does not decode, or decodes to a non-object, ends the loop. |
| Client.OnMessageIsFilter | ProgramManager/base_module.py:61-65 | For an inbox of objects, the handled messages are exactly the accepted ones, in arrival order. |
| Client.Stop | ProgramManager/base_module.py:68-74 | After `stop` the module is not running and keeps its name. |
| Client.StoppedIsSilent | ProgramManager/base_module.py:40-65 | A stopped module publishes no heartbeat and handles no message. |
| Supervisor.StartEntry | ProgramManager/program_manager.py:71-74 | A well-formed entry is launched and filed under its name with the next launch index. A malformed one aborts the loop. Its child is still launched when its path was usable. |
| Supervisor.StartPrograms | ProgramManager/program_manager.py:67-74 | At most one launch per entry. Every recorded process was launched and has not exited. |
| Supervisor.StartLaunchesAll | ProgramManager/program_manager.py:71-72 | A well-formed manifest launches every entry's path, in manifest order. |
| Supervisor.StartLastWins | ProgramManager/program_manager.py:73 | `processes` holds exactly the manifest's names. A repeated name keeps the last entry's launch. |
| Supervisor.StartKeyOrder | ProgramManager/program_manager.py:73 | The keys of `processes` come in the manifest order of their first occurrence. |
| Supervisor.StartStaysAborted | ProgramManager/program_manager.py:71-74 | Once an entry has raised, later entries change nothing. |
| Supervisor.StartAbortsAtFirstBad | ProgramManager/program_manager.py:71-74 | The entries before the first malformed one are launched and recorded. That entry is launched only when its path is usable. Nothing after it is launched. |
| Supervisor.Launch | ProgramManager/program_manager.py:67-71 | An unreadable manifest aborts. A list is looped over. An empty object or string launches nothing without error. Any other value aborts. |
| Supervisor.Boot | ProgramManager/program_manager.py:40-65 | The tasks start, with no heartbeat yet and no all-OK printed, iff startup did not raise. Otherwise the supervisor ends with its launched children left running. |
| Supervisor.LogLine | ProgramManager/program_manager.py:178-180 | The line is exactly `[ts] - [sender] : ` followed by the text: it starts with that head, ends with the text and is as long as the two together. |
| Supervisor.ReadLog | ProgramManager/program_manager.py:76-95 | The relay crashes exactly on a non-object, or on a truthy non-string message. It skips exactly falsy messages and messages that strip to nothing. A printed line is the unified `[ts] - [sender] : text` line, with the record's timestamp (the current time when absent), its sender (`?` when absent) and the stripped, non-blank text. |
| Supervisor.LogDefaults | ProgramManager/program_manager.py:87-88 | A record without sender is printed under `?`. A record without timestamp is printed with the current time. |
| Supervisor.WhitespaceMessageDropped | ProgramManager/program_manager.py:89-92 | A message of only (ASCII) whitespace is dropped. |
| Supervisor.ReadHeartbeat | ProgramManager/program_manager.py:99-111 | A truthy hashable sender gets the arrival time as its last heartbeat. A falsy sender changes nothing. The task ends exactly on a non-object or an unhashable sender. |
| Supervisor.Heartbeat | ProgramManager/program_manager.py:99-111 | Once the supervisor has stopped, the task reads nothing and the state is unchanged. While it runs, the task changes only the heartbeat map, and it crashes exactly when reading the record does. |
| Supervisor.OkLoopMeansHealthy | ProgramManager/program_manager.py:128-135 | The all-OK loop, with its early `break`, computes exactly "every process is running and was heard from within 15 s". |
| Supervisor.Watchdog | ProgramManager/program_manager.py:115-138 | The warnings are exactly the stale senders, in heartbeat-map order. The all-OK line appears iff the check is due and all processes are healthy. The check time is updated iff due. Nothing else changes. |
| Supervisor.WarnBoundary | ProgramManager/program_manager.py:122-124 | The threshold is strict: 15 s of silence gives no warning, 16 s does. |
| Supervisor.StaleRepeats | ProgramManager/program_manager.py:122-124 | A stale sender is warned about on every later tick. |
| Supervisor.SilentProcessBlocksOk | ProgramManager/program_manager.py:133-135 | A launched process that never sent a heartbeat is never warned about, and it blocks the all-OK line. |
| Supervisor.OkRateLimited | ProgramManager/program_manager.py:127-138 | No all-OK line follows within ten seconds of a check. |
| Supervisor.TwentySecondsSilent | ProgramManager/program_manager.py:115-138 | A sender silent for 20 s gets exactly one warning in that tick, and no all-OK line appears. |
| Supervisor.Exit | ProgramManager/program_manager.py:129-132 | Only the exiting child's record changes, and it now reports exited. |
| Supervisor.ExitBlocksOk | ProgramManager/program_manager.py:129-132 | An exited child prevents the all-OK line. |
| Supervisor.RequestStop | ProgramManager/program_manager.py:142-148 | The first request stops and cancels the tasks. A later request changes nothing. |
| Supervisor.RequestStopIdempotent | ProgramManager/program_manager.py:143-144 | Requesting stop twice is requesting it once. |
| Supervisor.HaltAll | ProgramManager/program_manager.py:159-167 | One outcome per child, in order. Exited children are left alone. Running ones are terminated, or killed when terminate or wait fails. |
| Supervisor.Shutdown | ProgramManager/program_manager.py:150-168 | Every running child is stopped and exited ones are untouched, one outcome per child in the order they were filed. `processes` ends empty and nothing else changes. |
| Logger.Line | LoggerManager/logger.py:7-9 | The line is exactly `[ts] [LEVEL] ` followed by the message, with the level upper-cased: it starts with that head, ends with the message and is as long as the two together. |
| Logger.Info | LoggerManager/logger.py:11 | The line holds `[INFO]`. |
| Logger.Warn | LoggerManager/logger.py:12 | The line holds `[WARN]`. |
| Logger.Error | LoggerManager/logger.py:13 | The line holds `[ERROR]`. |
| Logger.Debug | LoggerManager/logger.py:14 | The line holds `[DEBUG]`. |
| Logger.NameIrrelevant | LoggerManager/logger.py:4-9 | The logger's name never appears, so two loggers print the same lines. |
| Logger.LevelCaseInsensitive | LoggerManager/logger.py:9 | The level token does not depend on the (ASCII) case the caller used. |
| LogView.Tail | DisplayManager/Screens/base_log_screen.py:110 | `s[-n:]` is the last min(n, len) elements. |
| LogView.Colourise | DisplayManager/Screens/base_log_screen.py:113-125 | The coloured line is the line with every occurrence of `[ERROR]`, then of `[WARN]`, then of `[DEBUG]`, then of `[INFO]` replaced by its colour markup: the lower-case test never holds a replacement back, and no markup creates a token. So each exact token comes out in its colour markup, whichever other tokens share the line. Colouring adds no line break, and a line without an exact level token is unchanged. |
| LogView.DetectAll | DisplayManager/Screens/base_log_screen.py:114-122 | Each exact upper-case token passes its lower-case `in low` test. |
| LogView.Recolour | DisplayManager/Screens/base_log_screen.py:116-123 | One `if "[x]" in low: line = line.replace("[X]", …)` stage. Detection is on the lower-cased original line and replacement on the current line, so a lower-case token is detected but never replaced. The stage adds no line break. |
| LogView.ErrorDetected | DisplayManager/Screens/base_log_screen.py:114-116 | An exact `[ERROR]` token is found by the lower-case test. |
| LogView.InfoDetected | DisplayManager/Screens/base_log_screen.py:114-122 | An exact `[INFO]` token is found by the lower-case test. |
| LogView.ErrorColoured | DisplayManager/Screens/base_log_screen.py:116-117 | A line whose only level token is `[ERROR]` is shown with red markup. |
| LogView.InfoColoured | DisplayManager/Screens/base_log_screen.py:122-123 | A line whose only level token is `[INFO]` is shown with green markup. |
| LogView.LowerCaseTokenUnchanged | DisplayManager/Screens/base_log_screen.py:114-117 | Detection ignores case but replacement does not, so `[error]` is detected and left uncoloured. |
| LogView.ColouriseAll | DisplayManager/Screens/base_log_screen.py:112-125 | Every line is coloured, in order. |
| LogView.LoadText | DisplayManager/Screens/base_log_screen.py:102-130 | A failed read shows one red line holding the error. |
| LogView.LoadTextLines | DisplayManager/Screens/base_log_screen.py:107-127 | The shown text splits back into the coloured last min(500, lines) lines of the file, in file order. The file has one more line than it has newlines. |
| Led.Init | LedStipManager/led_strip_manager.py:43-47 | The controller starts in mode IDLE, colour white, with no subscribers. |
| Led.StateMsg | LedStipManager/led_strip_manager.py:140-149 | The state message is from LED_CONTROLLER to the target, holding mode and colour. |
| Led.Broadcast | LedStipManager/led_strip_manager.py:152-155 | One state message per subscriber, and no others. |
| Led.SerialWrite | LedStipManager/led_strip_manager.py:71-76 | The stripped line plus a newline is written iff the port is open. |
| Led.ParseColor | LedStipManager/led_strip_manager.py:128-130 | A colour results iff all three components parse as integers. |
| Led.ProcessSet | LedStipManager/led_strip_manager.py:116-137 | A warning is given iff the words fit neither form. A rejected or raising command changes and sends nothing. An applied command changes mode or colour only, writes the line to serial and broadcasts the new state. |
| Led.HandleMessage | LedStipManager/led_strip_manager.py:82-113 | A message without sender has no effect. GET_STATE from a truthy sender replies with the current state to that sender alone. SUBSCRIBE_STATE adds a hashable sender and replies with the new state to it; an unhashable sender raises, which is caught. Replies go only to the sender. Only SET changes mode or colour. |
| Led.GetStateReplies | LedStipManager/led_strip_manager.py:94-96 | GET_STATE replies with the state to the sender alone and subscribes nobody. |
| Led.SubscribeIdempotent | LedStipManager/led_strip_manager.py:99-103 | Subscribing adds the sender and replies to it with the new state. Subscribing again changes nothing. |
| Led.SetDispatches | LedStipManager/led_strip_manager.py:106-109 | A SET request hands its data line to the command parser. |
| Led.SetModeRoundTrip | LedStipManager/led_strip_manager.py:120-125 | `SET MODE m ...` sets the mode to `m` upper-cased, ignores extra words and keeps the colour. |
| Led.SetColorRoundTrip | LedStipManager/led_strip_manager.py:127-135 | `SET COLOR r g b` written in decimal sets exactly that colour, without any range check, and keeps the mode. |
| Led.BadColorChangesNothing | LedStipManager/led_strip_manager.py:127-130 | A non-integer component raises and changes nothing. |
| Led.SubscribersHearSet | LedStipManager/led_strip_manager.py:120-135 | After an applied command, every subscriber is sent the new state. |
| Sonar.Init | UltrasonicManager/ultrasonic_resender.py:44-55 | The resender starts with eight zero readings and no subscribers. |
| Sonar.ParseAll | UltrasonicManager/ultrasonic_resender.py:92 | The fields convert iff every field parses, one value per field. |
| Sonar.ReadLine | UltrasonicManager/ultrasonic_resender.py:74-100 | A blank line is skipped. A line without exactly seven commas is invalid. A line of eight fields that all parse replaces the reading, and a datagram is sent iff that reading packs: 32 bytes that unpack to its encoding. A field that does not parse raises and changes nothing. The reading changes in no other way. |
| Sonar.ReadKeepsEight | UltrasonicManager/ultrasonic_resender.py:86-92 | The reading always has eight values. |
| Sonar.BoardLineRoundTrip | UltrasonicManager/ultrasonic_resender.py:82-96 | Eight numbers, comma-joined with a newline, are read back exactly. The datagram unpacks to their encodings. |
| Sonar.StateMsg | UltrasonicManager/ultrasonic_resender.py:103-111 | STATE_UPDATE from SONIC_MANAGER to the target, carrying the last reading. |
| Sonar.Broadcast | UltrasonicManager/ultrasonic_resender.py:114-116 | One state message per subscriber, and no others. |
| Sonar.Poll | UltrasonicManager/ultrasonic_resender.py:119-141 | A reply is sent iff GET_STATE, or a SUBSCRIBE_STATE with a hashable sender, comes from a truthy sender. The reply is the state addressed to the sender. Only subscribing adds a subscriber. The reading never changes. |
| Sonar.SubscribeThenBroadcast | UltrasonicManager/ultrasonic_resender.py:133-147 | A subscriber receives every periodic broadcast. Subscribing twice is subscribing once. |
| Packing.Unpack | UltrasonicManager/test_receiver.py:21-23 | Unpacking succeeds iff the length is a multiple of four, giving one value per four bytes. |
| Packing.UnpackPack | UltrasonicManager/test_receiver.py:23 | Unpacking packed values gives them back. |
| Packing.PackUnpack | UltrasonicManager/test_receiver.py:23 | Packing unpacked bytes gives them back. |
| Packing.PackValues | UltrasonicManager/ultrasonic_resender.py:95 | Packing succeeds iff every value can be encoded. The result has four bytes per value and unpacks to the encodings. |
| CameraMode.Create | CameraManager/base_mode.py:10-19 | A new mode is not running and holds no task and no capture. |
| CameraMode.InitCamera | CameraManager/base_mode.py:49-62 | At most ten attempts. Success iff one of the first ten attempts opens the camera, stopping at the first that does. |
| CameraMode.Start | CameraManager/base_mode.py:21-27 | The mode is marked running. A task and a capture exist iff the camera opened, or existed already. |
| CameraMode.Stop | CameraManager/base_mode.py:29-47 | Whatever the state, the mode ends not running, with no task and no capture. |
| CameraMode.StopIdempotent | CameraManager/base_mode.py:29-45 | Stopping twice is stopping once. |
| CameraMode.FailedStartIsRunningWithoutTask | CameraManager/base_mode.py:21-26 | When the camera fails to open, the mode stays marked running without a task. Stopping it restores the fresh mode. |
| CameraMode.SendData | CameraManager/base_mode.py:64-73 | A datagram of four bytes per value is sent iff every value can be packed. It unpacks to the values' encodings, in order. |
| CameraMode.TwoValuePacket | CameraManager/test_udp.py:12-13 | The two-value datagram has the 8 bytes the camera test receiver accepts, and it unpacks to the two values. |
| CameraManager.Init | CameraManager/main.py:28 | No mode runs at first. |
| CameraManager.Normalise | CameraManager/main.py:64 | The command is the stripped datagram up to letter case. It has no surrounding whitespace, holds no lower-case letters and is no longer than the datagram. Whitespace and case are those of the ASCII range. |
| CameraManager.Select | CameraManager/main.py:79-91 | Exactly DETECTBALL, APRILTAG and QRCODE select a mode, the one of that name. |
| CameraManager.SelectName | CameraManager/main.py:79-86 | Every mode is selected by its own name. |
| CameraManager.SetMode | CameraManager/main.py:68-94 | A command without the `SET MODE ` prefix changes nothing. With the prefix, the running mode is stopped first. Then either the named mode is created and started, or none runs. |
| CameraManager.AnyCaseSelects | CameraManager/main.py:64-73 | A command in any letter case, padded with whitespace, selects the mode it names. |
| CameraManager.PaddedCommandNormalises | CameraManager/main.py:64 | A command typed in any case and padded with whitespace normalises to the upper-case command. |
| CameraManager.CommandSelects | CameraManager/main.py:68-91 | `SET MODE <name>` carries the prefix and selects the mode it names. |
| CameraManager.NamePrefixRemoved | CameraManager/main.py:73 | Removing the prefix from `SET MODE <name>` leaves the name. |
| CameraManager.DoubledPrefixSelects | CameraManager/main.py:73 | Every occurrence of the prefix is removed, so a doubled prefix still selects. |
| CameraManager.UnknownNameStopsCurrent | CameraManager/main.py:75-91 | An unknown name stops the running mode and leaves none. |
| CameraManager.ModeLabel | CameraManager/main.py:109 | The label is the current mode's name, or NONE iff no mode runs. |
| CameraManager.Status | CameraManager/main.py:96-121 | A reply is sent iff the object names a truthy `reply_to`. The reply goes to it, holding the mode for `get_status` and an error for anything else. |
| CameraManager.StatusAfterSwitch | CameraManager/main.py:108-109 | After a switch the status names the started mode. After an unknown name it reports NONE. |
| CameraManager.NormalisedCommand | CameraManager/main.py:64 | A command with no surrounding whitespace and no lower-case letter is left unchanged. |
| CameraManager.BadDatagramEndsListener | CameraManager/main.py:62-66 | As written, the first datagram that is not valid UTF-8 ends the listener, and nothing after it is handled. |
| CameraManager.AsWrittenNeverSwitches | CameraManager/main.py:62-66 | As written, a valid command after a bad datagram never takes effect. |
| CameraManager.SkippingLosesOnlyBadDatagram | CameraManager/main.py:62-66 | The corrected listener skips a bad datagram and handles the rest as if it were absent. |
| CameraManager.SkippingStillSwitches | CameraManager/main.py:62-66 | With the corrected listener, a command after a bad datagram takes effect. |
| CameraManager.ListenersAgreeOnGoodInput | CameraManager/main.py:62-66 | Both listeners agree when every datagram decodes. |
| CameraBus.Event | CameraManager/camera_bus.py:43-52 | A camera event has exactly sender CameraManager, target DisplayManager, type `camera_event`, the mode and the payload. |
| CameraBus.AprilTagEvent | CameraManager/camera_bus.py:32-52 | The APRILTAG event carries the tags unchanged. |
| CameraBus.SendAprilTag | CameraManager/camera_bus.py:54-59 | The event is sent iff the socket accepts it. Otherwise a warning is logged and nothing is raised. |
| CameraBus.PublishQrAsWritten | CameraManager/Modes/detect_qrcode.py:104-110 | As written, the call to a method the bus lacks is caught, so nothing is sent. |
| CameraBus.QrNeverPublished | CameraManager/Modes/detect_qrcode.py:104-110 | As written, the QR mode never sends an event. |
| CameraBus.QrEvent | CameraManager/Modes/detect_qrcode.py:104-107 | The intended QRCODE event carries the codes unchanged. |
| CameraBus.PublishQr | CameraManager/Modes/detect_qrcode.py:104-107 | The corrected step sends the QRCODE event iff the socket accepts it. |
| QrDetect.Label | CameraManager/Modes/detect_qrcode.py:68-70 | The label is at most 20 characters. Text of at most 20 is kept. Longer text becomes its first 17 characters plus `...`. |
| QrDetect.LabelIdempotent | CameraManager/Modes/detect_qrcode.py:68-70 | A label is its own label. |
| QrDetect.FrameCodes | CameraManager/Modes/detect_qrcode.py:41-89 | A frame yields one code iff the decoder returned non-empty text and points. The code records text, centre, offset from the frame centre and corners. Without a code the offsets are (-1, -1). |
| QrDetect.DecoderErrorIsNoCode | CameraManager/Modes/detect_qrcode.py:45-53 | A decoder exception is treated as a frame without a code. |
| QrDetect.SentinelIsAmbiguous | CameraManager/Modes/detect_qrcode.py:41-62 | A code centred one pixel up-left of the frame centre sends the same offsets as no code. |
| Display.Build | DisplayManager/main.py:46-59 | The display starts on a logo screen with an empty history. |
| Display.NavigateTo | DisplayManager/main.py:98-101 | The current screen, if any, is pushed onto the history and the new screen is shown. |
| Display.OpenLogo | DisplayManager/main.py:110-113 | A new logo screen is shown and the history is cleared. |
| Display.OpenPrevious | DisplayManager/main.py:103-108 | Back pops the history, or opens a new logo when the history is empty. |
| Display.NavigateBack | DisplayManager/main.py:98-108 | Navigating then going back restores the screen and the history. |
| Display.BackOnEmptyHistory | DisplayManager/main.py:105-108 | Back on an empty history shows a new logo and keeps the history empty. |
| Display.OpenMenu | DisplayManager/main.py:92-119 | A menu is opened with the given items, or with the configuration's `menu` list. It raises iff there is no such list, the title is not a string, or building the menu's buttons raises. An opened menu is on display and the previous screen is pushed onto the history. |
| Display.Dispatch | DisplayManager/ActionHandlers/dispatcher.py:9-46 | Exactly the `log:`, `error:` and `restart:` prefixes and the `robot_sonic` and `april_tags` actions navigate, once, in that priority order. Other actions change nothing. Nothing is restarted here. |
| Display.AprilTagScreenReused | DisplayManager/ActionHandlers/dispatcher.py:38-43 | The AprilTag screen is created once and the same object is shown again. |
| Display.SonicScreenIsNew | DisplayManager/ActionHandlers/dispatcher.py:33-35 | Each `robot_sonic` shows a new sonar screen. |
| Display.RestartOnlyThroughYes | DisplayManager/ActionHandlers/dispatcher.py:23-31 | `restart:` only asks. Yes restarts exactly that service and No restarts nothing. Both return to the screen the action came from. |
| Display.Handle | DisplayManager/Screens/menu_screen.py:102-111 | `submenu` wins over `action` and opens under the item's title. A null submenu opens the configured menu. `action` is dispatched. An item with neither does nothing. Non-objects and a submenu without a title raise, and so does a submenu whose title is not a string or whose buttons cannot be built. |
| Display.UnbuildableSubmenuRaises | DisplayManager/Screens/menu_screen.py:74-76 | A titled item whose `submenu` is the number 5 raises while the submenu is built. |
| Display.NonTextTitleRaises | DisplayManager/Screens/menu_screen.py:43-44 | A numeric submenu title, or a numeric title of a submenu item (line 76), raises while the submenu is built. |
| Display.SubmenuOpens | DisplayManager/Screens/menu_screen.py:74-107 | A string-titled item whose submenu is a list of objects with string titles opens that submenu under the item's title. The submenu's buttons are the items' titles, in order. |
| Display.Buttons | DisplayManager/Screens/menu_screen.py:74-83 | One button per item, in order, labelled with its title. For a list, building succeeds iff every item is an object whose title is a string. |
| Display.ConfirmYes | DisplayManager/Screens/confirm_screen.py:71-76 | The service is restarted once when the callback succeeds. The previous screen is shown either way. |
| Display.ConfirmNo | DisplayManager/Screens/confirm_screen.py:65 | No restart. The history is popped, or a logo is shown on an empty history. |
| ScreenCommon.Registration | DisplayManager/Screens/apriltag_screen.py:50 | The screens register as DisplayManager with a falsy target, so the router forwards nothing. |
| ScreenCommon.FloatOf | DisplayManager/Screens/qrcodo_screen.py:226-227 | Numbers convert to themselves. Null, lists and objects raise. |
| AprilTagScreen.Init | DisplayManager/Screens/apriltag_screen.py:53-56 | The screen starts with no current tag and no seen tags. |
| AprilTagScreen.UpdateTag | DisplayManager/Screens/apriltag_screen.py:184-198 | The tag is shown and its id recorded with the time iff it has an id, family, centre and offset that format. |
| AprilTagScreen.Process | DisplayManager/Screens/apriltag_screen.py:168-198 | Other messages change nothing. An empty tag list clears the panel. A non-empty list shows and records only its first tag. The seen map only grows by that tag. A truthy `tags` that is not a list raises in the scheduled UI callback, which stops the display. |
| AprilTagScreen.SeenIsLastWriteWins | DisplayManager/Screens/apriltag_screen.py:198 | A tag seen again keeps its one entry with the later time. |
| AprilTagScreen.SeenNeverShrinks | DisplayManager/Screens/apriltag_screen.py:168-198 | No message removes a seen id. |
| AprilTagScreen.Listing | DisplayManager/Screens/apriltag_screen.py:200-204 | A header, then one line per seen id in ascending order, with its time. |
| AprilTagScreen.ListingOrder | DisplayManager/Screens/apriltag_screen.py:201-202 | The listing depends only on the seen map, not on the order tags were first seen. Its ids are increasing and are exactly the seen ids. |
| QrScreen.Init | DisplayManager/Screens/qrcodo_screen.py:56-60 | The screen starts with no text, dashed coordinates and no QR image. |
| QrScreen.Coords | DisplayManager/Screens/qrcodo_screen.py:223-229 | Both coordinates convert, or both show dashes. |
| QrScreen.UpdateUi | DisplayManager/Screens/qrcodo_screen.py:236-250 | The text and coordinates are remembered with the time. A QR image is drawn iff the text is truthy. |
| QrScreen.UpdateNoDetection | DisplayManager/Screens/qrcodo_screen.py:252-267 | The text, time and image are kept and the coordinates become dashes. The last text is shown iff it is truthy. |
| QrScreen.Process | DisplayManager/Screens/qrcodo_screen.py:207-231 | Other messages change nothing. The text changes only with a new time. The result is unchanged, a no-detection update or a detection. |
| QrScreen.FirstObjectShown | DisplayManager/Screens/qrcodo_screen.py:207-231 | For a QR event whose code list starts with an object, the screen shows that object's `data` and its converted `offset`. The rest of the list is ignored. |
| QrScreen.FirstCodeShown | DisplayManager/Screens/qrcodo_screen.py:220-231 | The first code's text and offsets are shown. An image is drawn iff the text is non-empty. |
| QrScreen.NoCodesKeepsText | DisplayManager/Screens/qrcodo_screen.py:213-218 | An empty or missing code list keeps the text and clears the offsets. |
| QrScreen.BadOffsetShowsDashes | DisplayManager/Screens/qrcodo_screen.py:225-229 | An offset that does not convert shows dashes. |
| QrScreen.EmptyTextNoTexture | DisplayManager/Screens/qrcodo_screen.py:143-146 | Empty text draws no QR image. |
| BallScreen.Init | DisplayManager/Screens/detectball_screen.py:53 | The screen starts at the (-1, -1) position, with the marker hidden. |
| BallScreen.Process | DisplayManager/Screens/detectball_screen.py:165-218 | Other messages change nothing, and so does a `payload` or `ball` that is not an object. A ball event sets the position from `x` and `y`, each defaulting to -1. The display stops iff that position is not the (-1, -1) sentinel and a coordinate is neither a number nor a boolean. |
| BallScreen.MarkerPos | DisplayManager/Screens/detectball_screen.py:189-202 | The sentinel puts the marker at (-100, -100). Otherwise the marker is offset from the box centre by `x` to the right and by `y` upward, less its 15-pixel half size. The placement raises exactly when Process stops the display. |
| BallScreen.ProcessKeepsPlaceable | DisplayManager/Screens/detectball_screen.py:165-218 | From a placeable position, processing any message either stops the display or leaves a position whose marker can be placed. |
| BallScreen.InitPlaced | DisplayManager/Screens/detectball_screen.py:53 | The initial position puts the marker off screen. |
| BallScreen.TextCoordinateStops | DisplayManager/Screens/detectball_screen.py:196-200 | A ball at `x = "a"`, `y = 0` stops the display when the marker is placed. |
| BallScreen.DetectedIgnored | DisplayManager/Screens/detectball_screen.py:176 | The `detected` flag makes no difference. |
| BallScreen.MissingCoordinatesHide | DisplayManager/Screens/detectball_screen.py:171-194 | A ball without coordinates is stored as the sentinel and hides the marker. A numeric position with `x` other than -1 is stored as given and shows the marker. |
| SonicScreen.Init | DisplayManager/Screens/robot_sonic_screen.py:66-68 | Eight labels showing `---`, and the listener running. |
| SonicScreen.SubscribeMsg | DisplayManager/Screens/robot_sonic_screen.py:90-95 | The screen subscribes as DISPLAY to SONIC_MANAGER. |
| SonicScreen.Entry | DisplayManager/Screens/robot_sonic_screen.py:120 | A present number formats. A missing entry, or data that is not a list, raises. |
| SonicScreen.UpdateValues | DisplayManager/Screens/robot_sonic_screen.py:117-122 | All eight labels are rewritten, each with its entry or `---`. |
| SonicScreen.Listen | DisplayManager/Screens/robot_sonic_screen.py:99-114 | The listener with decoded messages. A stopped listener does nothing. Labels change only on a message from SONIC_MANAGER, and a truthy `sonics` entry in an object `data` rewrites them from that entry. The listener ends exactly on a non-object message, or on one from SONIC_MANAGER whose `data` is not an object. There are always eight labels. |
| SonicScreen.ListenAsWritten | DisplayManager/Screens/robot_sonic_screen.py:99-114 | The listener as written, on a socket of an asyncio context: no poll changes a label. A receive that returns a future ends the thread, and a receive that raises is skipped. |
| SonicScreen.AsWrittenNeverShowsReadings | DisplayManager/Screens/robot_sonic_screen.py:99-114 | Whatever the polls give, the listener as written never changes the `---` labels. It runs on exactly until a receive returns a future. |
| SonicScreen.StoppedListenerIgnoresAll | DisplayManager/Screens/robot_sonic_screen.py:111-112 | A non-object message ends the listener, and later messages change nothing. |
| SonicScreen.ShortListShowsDashes | DisplayManager/Screens/robot_sonic_screen.py:117-122 | A list shorter than eight shows dashes for the missing sensors. |
| TagGen.Pick | DisplayManager/tag_generator.py:23-26 | An id at or past the count raises ValueError. A non-negative id picks that pattern. A negative id counts from the end. An id below minus the count raises IndexError. |
| TagGen.Validate | DisplayManager/tag_generator.py:15-26 | An unknown lower-cased family raises. Otherwise the id is checked against that family's patterns. |
| TagGen.FamilyCaseInsensitive | DisplayManager/tag_generator.py:15-18 | The family name is matched case-insensitively. |
| TagGen.Rasterise | DisplayManager/tag_generator.py:29-39 | The image is `size × size`. Painting succeeds iff the blocks fit the width. Then every pixel inside the pattern's blocks has its cell's colour, and every other pixel is white. |
| TagGen.PaintCell | DisplayManager/tag_generator.py:35-39 | Painting one cell extends the painted region, in row-major order, by that cell's block. Painted pixels hold their cell's colour and all others stay white. |
| TagGen.PaintRow | DisplayManager/tag_generator.py:34-39 | Painting one cell row extends the painted region by one full row of blocks. |
| TagGen.PaintAll | DisplayManager/tag_generator.py:33-39 | Painting every cell row turns a blank image into one painted down to the last row of blocks. |
| TagGen.CellPixels | DisplayManager/tag_generator.py:36-39 | Every pixel of a cell's block has that cell's colour: black for 1, white otherwise. |
| TagGen.SquareFits | DisplayManager/tag_generator.py:29-39 | A pattern no wider than it is tall always fits the image. |
| TagGen.Generate | DisplayManager/tag_generator.py:14-41 | The validation error, division by zero for an empty pattern, a bad size, or an IndexError when the blocks overflow. Otherwise the square image with every pixel as expected. |
| Fabric.EnvelopeDelivered | ProgramManager/base_module.py:50-58 | A module's envelope registers the module, reaches the target's connection unchanged and is accepted by the target's filter. |
| Fabric.EnvelopeOnlyForTarget | ProgramManager/base_module.py:64 | No other module's filter accepts the envelope. |
| Fabric.LogRecordRelayed | ProgramManager/program_manager.py:87-95 | A module's non-blank log record is printed by the supervisor under its timestamp and name, stripped. A blank one is dropped. |
| Fabric.HeartbeatRecorded | ProgramManager/program_manager.py:109-111 | A running module's heartbeat sets its last-seen time to the arrival time. |
| Fabric.StoppedModuleGoesQuiet | ProgramManager/base_module.py:40-47 | A stopped module sends no heartbeat. |
| Fabric.AprilTagEventShown | CameraManager/camera_bus.py:43-55 | After the display registers, an AprilTag event reaches the display's connection and the screen shows its first tag. |
| Fabric.QrCodeShown | DisplayManager/Screens/qrcodo_screen.py:207-231 | With the corrected bus, a detected code's text and offsets reach the QR screen. |
| Fabric.QrNothingSeen | DisplayManager/Screens/qrcodo_screen.py:213-218 | A frame without a code keeps the QR screen's text and clears its offsets. |
| Fabric.SonarReachesScreen | DisplayManager/Screens/robot_sonic_screen.py:90-114 | With the sonar process registered as SONIC_MANAGER, the router forwards the screen's subscription, unchanged, to it and registers the screen as DISPLAY. The resender records the subscriber and replies. The router carries the reply to the screen, whose listener with decoded messages (SonicScreen.Listen) shows all eight readings. |
| Fabric.ErrorLineShownRed | DisplayManager/Screens/base_log_screen.py:116-117 | An error line printed by the logger is shown red by the log viewer, for every timestamp and message. |

## Left out

- **ZeroMQ transport.** Sockets, contexts, identities and closing are not modelled. A frame is its raw bytes and their decoding, and a connection is its routing identity.
- **Concurrency.** asyncio scheduling, threads and Kivy's `Clock` are not modelled. Each loop iteration is one function, and a callback scheduled for the UI is applied right after the message that schedules it.
- **Receive timeouts and sleeps.** The `wait_for` timeouts and the `sleep` calls in the loops are not modelled. A timeout only continues the loop.
- **Floating point.** Parsing, `.0f` and `.1f` formatting and single-precision encoding are function parameters: `parse`, `show`, `formats` and `enc`.
- **Wall-clock time.** Timestamps are opaque strings. The supervisor's time is whole seconds.
- **Supervisor.Watchdog:** fractional `total_seconds()` differences are not modelled, because time is whole seconds.
- **Set iteration order.** The order in which `broadcast_state` iterates its subscriber set is not modelled. A broadcast is a set of messages.
- **Image processing.** OpenCV capture and drawing, numpy, the qrcode and pupil_apriltags libraries and PIL pixel storage are not modelled. The ball and AprilTag modes (CameraManager/Modes/detect_ball.py, CameraManager/Modes/apriltag.py), web_preview.py and `send_preview` are not part of this model. Only the QR mode's per-frame result is.
- **QR mode rate limits.** The QR mode's send intervals (`SEND_INTERVAL_MS`, `SEND_ZMQ_INTERVAL`) are not modelled.
- **Serial links.** Connecting and reconnecting the LED and sonar serial ports (`connect_serial`) is not modelled. Neither are their `register` calls, which send one registration message that `Router.Step` covers, nor the `run` methods that start the tasks.
- **Led.SerialWrite:** a USB write error is not modelled. It is caught and logged, and no state depends on it.
- **Router heartbeat and logging.** The router's heartbeat task only logs. The router's log lines are recorded as a `Note` kind, not as text.
- **Test scripts.** Of the two test receivers, only the datagram length each accepts is modelled.
- **Display plumbing.** `register_with_messenger`, `create_async_task`, window set-up and the logo screen's widgets are not modelled. Reading `menu.json` is an input (the configuration). Reading the log file is an input (`Result` of the read).
- **Screen listener flags.** The camera screens' `start_listener`/`on_leave` flags and the sonar screen's `close` are not modelled. `close` clears its flag and then goes back.
- **QR image.** For the QR image, only whether a texture exists is modelled.
- **Tag pixels.** AprilTag image pixels are grey levels (0 or 255), standing for the equal RGB triples the source writes.
- **AprilTagScreen.UpdateTag:** only integral numeric tag ids are recorded. For any other id the model stops the display (`TagId` gives `None`, so `UpdateTag` gives `None`). The source formats and records every hashable id: `None`, `True` and `3.5` are shown as "ID: None", "ID: True" and "ID: 3.5", stored in `seen_tags` and listed as "ID None — …" and so on, and so are string ids. `True` shares its key with `1`. A `None` id next to any other id, or a string id next to a number, would make `sorted` raise.
- **SonicScreen.Listen:** this is the listener the code evidently intends, and it receives decoded messages. The code as written never receives a decoded message (see Findings), and SonicScreen.ListenAsWritten models that.
- **Text.Strip:** whitespace is the ASCII set of `IsSpace`. Python's `strip` and `split()` also remove 0x85, 0xA0 and the Unicode spaces, so the datagram `"\u00a0SET MODE QRCODE"` selects QRCODE in Python and is rejected here. Modelling Unicode's whitespace table is out of scope.
- **Text.Upper:** only the ASCII letters change case, and so for `Text.Lower`. Python also maps other letters, and some change length (`"ß".upper() == "SS"`), so `"ſet mode qrcode"` upper-cases to `SET MODE QRCODE` in Python but not here. Unicode case mapping is out of scope.
- **CameraManager.Normalise:** inherits both limits. Its `|msg| <= |raw|` holds for the ASCII model only; Python's `upper()` can lengthen a string.
- **ParseInt.** `Text.ParseInt` does not accept the underscores and non-ASCII digits that Python's `int` accepts.
- **Unused camera methods.** `update_ball_data` and `update_tag_data` of the camera process are not modelled, because nothing calls them.
- **Supervisor bookkeeping.** The supervisor's own log lines and signal-handler installation are not modelled. At shutdown, closing sockets and terminating the context are not modelled either.

## Findings

| source | as written | input that shows it | evidently intended | confidence | as-written member | corrected member |
|---|---|---|---|---|---|---|
| CameraManager/Modes/detect_qrcode.py:104-110 | The QR mode calls `bus.send_qrcode(codes)`, but the bus only has `send_apriltag` and `close`. The `AttributeError` is caught and only a warning is logged. | Any frame with a decoded QR code: no QRCODE event ever reaches the display's QR screen. | Send a `camera_event` with mode QRCODE and the codes, built like `send_apriltag`, so the QR screen shows the code. | not executed | CameraBus.PublishQrAsWritten | CameraBus.PublishQr |
| CameraManager/main.py:62-66 | `data.decode()` in `listen_commands` is outside any `try`, so the first non-UTF-8 datagram raises and ends the listener task. | A datagram `b"\xff"` followed by `SET MODE QRCODE`: the mode never switches. | Skip the bad datagram and go on handling commands. | not executed | CameraManager.BadDatagramEndsListener | CameraManager.SkippingLosesOnlyBadDatagram |
| DisplayManager/Screens/robot_sonic_screen.py:99-114 | The socket comes from `zmq.asyncio.Context()` (line 22), so `recv_json()` in the plain listener thread never hands back a dict. Either it raises, and the bare `except` skips the frame, or it returns a future, and `msg.get` raises outside the `try` and ends the thread. Which one happens depends on the library version. | Any reply from SONIC_MANAGER: the eight labels keep showing `---`. | Receive the decoded message and update the labels from its `sonics` list. | not executed | SonicScreen.AsWrittenNeverShowsReadings | SonicScreen.Listen |

=== FILE: camera_bus.dfy ===
/** The camera process's event channel to the display (`CameraBus` in
    CameraManager/camera_bus.py) and the per-frame detection result of the
    QR-code mode (CameraManager/Modes/detect_qrcode.py). */
module CameraBus {
  import opened Wrappers
  import opened Json

  const SenderName: string := "CameraManager"
  const TargetName: string := "DisplayManager"

  /** A `camera_event` envelope for `mode` with the given payload. */
  function Event(mode: string, payload: map<string, Json>): (e: Json)
    ensures e.JObj? && e.fields.Keys == {"sender", "target", "type", "mode", "payload"}
    ensures e.fields["sender"] == JStr(SenderName) && e.fields["target"] == JStr(TargetName)
    ensures e.fields["type"] == JStr("camera_event") && e.fields["mode"] == JStr(mode)
    ensures e.fields["payload"] == JObj(payload)
  {
    JObj(map[
      "sender" := JStr(SenderName),
      "target" := JStr(TargetName),
      "type" := JStr("camera_event"),
      "mode" := JStr(mode),
      "payload" := JObj(payload)])
  }

  /** `send_apriltag(tags)` at time `ts`: the envelope, with the tags passed
      through unchanged. */
  function AprilTagEvent(ts: real, tags: Json): (e: Json)
    ensures e == Event("APRILTAG", map["timestamp" := JNum(ts), "tags" := tags])
    ensures e.fields["payload"].fields["tags"] == tags
  {
    Event("APRILTAG", map["timestamp" := JNum(ts), "tags" := tags])
  }

  /** What a send puts on the socket: the envelope when the socket accepts
      it, nothing otherwise. A failed send is logged as a warning and never
      raises to the caller. */
  datatype Sent = Sent(frame: Option<Json>, warned: bool)

  function SendAprilTag(ts: real, tags: Json, socketOk: bool): (r: Sent)
    ensures r.frame.Some? <==> socketOk
    ensures r.warned <==> !socketOk
    ensures r.frame.Some? ==> r.frame.value == AprilTagEvent(ts, tags)
  {
    if socketOk then Sent(Some(AprilTagEvent(ts, tags)), false) else Sent(None, true)
  }

  /** The methods the bus offers. */
  const Methods: set<string> := {"send_apriltag", "close"}

  /** The QR mode's publishing step as written: it calls `send_qrcode`, which
      the bus does not have; the `AttributeError` is caught and a warning
      logged, so nothing is ever sent, whatever the codes. */
  function PublishQrAsWritten(ts: real, codes: Json): (r: Sent)
    ensures "send_qrcode" !in Methods ==> r == Sent(None, true)
  {
    if "send_qrcode" in Methods then Sent(Some(QrEvent(ts, codes)), false)
    else Sent(None, true)
  }

  /** The QR mode never reaches the display as written. */
  lemma QrNeverPublished(ts: real, codes: Json)
    ensures PublishQrAsWritten(ts, codes).frame == None
  {
  }

  /** The QR event as evidently intended, built like `send_apriltag`:
      `mode` `QRCODE` and the codes under `codes`. */
  function QrEvent(ts: real, codes: Json): (e: Json)
    ensures e == Event("QRCODE", map["timestamp" := JNum(ts), "codes" := codes])
    ensures e.fields["payload"].fields["codes"] == codes
  {
    Event("QRCODE", map["timestamp" := JNum(ts), "codes" := codes])
  }

  /** The corrected publishing step sends the QR event when the socket
      accepts it. */
  function PublishQr(ts: real, codes: Json, socketOk: bool): (r: Sent)
    ensures r.frame.Some? <==> socketOk
    ensures r.frame.Some? ==> r.frame.value == QrEvent(ts, codes)
  {
    if socketOk then Sent(Some(QrEvent(ts, codes)), false) else Sent(None, true)
  }
}

/** The QR-code mode's per-frame result (`QRCodeMode.loop` in
    CameraManager/Modes/detect_qrcode.py): the overlay label and the list
    of codes seen in one frame. Image processing is left out; the decoder's
    answer and the code's centre are inputs. */
module QrDetect {
  import opened Wrappers
  import opened Json

  /** Labels longer than this are shortened. */
  const MaxLabel: nat := 20

  /** The overlay label for decoded text: short text unchanged, long text cut
      to its first 17 characters and an ellipsis. */
  function Label(data: string): (l: string)
    ensures |l| <= MaxLabel
    ensures |data| <= MaxLabel <==> l == data
    ensures |data| > MaxLabel ==> |l| == MaxLabel && l[..17] == data[..17] && l[17..] == "..."
  {
    if |data| > MaxLabel then data[..17] + "..." else data
  }

  /** A label is its own label. */
  lemma LabelIdempotent(data: string)
    ensures Label(Label(data)) == Label(data)
  {
  }

  /** The decoder's answer for one frame: the decoded text and the corner
      points when it located a code. */
  datatype Decoded = Decoded(data: string, corners: Option<seq<(int, int)>>)

  /** The frame's result: the codes list and the offsets sent over UDP. */
  datatype FrameResult = FrameResult(codes: seq<Json>, offset: (real, real))

  function Point(p: (int, int)): Json {
    JArr([JNum(p.0 as real), JNum(p.1 as real)])
  }

  /** The codes of one frame. `det` is `None` when the decoder raised, which
      counts as empty text and no points. `centre` is the mean of the
      corners, and `(cx, cy)` the frame centre. */
  function FrameCodes(det: Option<Decoded>, cx: int, cy: int, centre: seq<(int, int)> -> (real, real)): (r: FrameResult)
    ensures |r.codes| <= 1
    ensures |r.codes| == 1 <==> det.Some? && |det.value.data| > 0 && det.value.corners.Some?
    ensures |r.codes| == 0 ==> r.offset == (-1.0, -1.0)
    ensures |r.codes| == 1 ==>
              var c := det.value.corners.value;
              var t := centre(c);
              r.offset == (t.0 - cx as real, t.1 - cy as real) &&
              r.codes[0] == JObj(map[
                "data" := JStr(det.value.data),
                "center" := JArr([JNum(t.0), JNum(t.1)]),
                "offset" := JArr([JNum(r.offset.0), JNum(r.offset.1)]),
                "corners" := JArr(seq(|c|, i requires 0 <= i < |c| => Point(c[i])))])
  {
    var d := if det.Some? then det.value else Decoded("", None);
    if |d.data| > 0 && d.corners.Some? then
      var c := d.corners.value;
      var t := centre(c);
      var off := (t.0 - cx as real, t.1 - cy as real);
      FrameResult([JObj(map[
        "data" := JStr(d.data),
        "center" := JArr([JNum(t.0), JNum(t.1)]),
        "offset" := JArr([JNum(off.0), JNum(off.1)]),
        "corners" := JArr(seq(|c|, i requires 0 <= i < |c| => Point(c[i])))])], off)
    else FrameResult([], (-1.0, -1.0))
  }

  /** A decoder error is indistinguishable from a frame without a code. */
  lemma DecoderErrorIsNoCode(cx: int, cy: int, centre: seq<(int, int)> -> (real, real), d: Decoded)
    requires |d.data| == 0 || d.corners.None?
    ensures FrameCodes(None, cx, cy, centre) == FrameCodes(Some(d), cx, cy, centre)
  {
  }

  /** The UDP offsets alone cannot tell a missing code from a code centred
      one pixel up and left of the frame centre. */
  lemma SentinelIsAmbiguous(data: string, c: seq<(int, int)>, cx: int, cy: int,
                            centre: seq<(int, int)> -> (real, real))
    requires |data| > 0 && centre(c) == (cx as real - 1.0, cy as real - 1.0)
    ensures FrameCodes(Some(Decoded(data, Some(c))), cx, cy, centre).offset
         == FrameCodes(None, cx, cy, centre).offset
    ensures |FrameCodes(Some(Decoded(data, Some(c))), cx, cy, centre).codes| == 1
  {
  }
}

=== FILE: camera_manager.dfy ===
/** The camera process's command handling (`CameraManager` in
    CameraManager/main.py): `SET MODE` commands arriving over UDP switch the
    running mode, and `get_status` requests arriving through the messenger
    are answered with the current mode's name. */
module CameraManager {
  import opened Wrappers
  import opened Json
  import opened Text
  import opened CameraMode

  /** The currently selected mode, if any. */
  datatype Manager = Manager(current: Option<Mode>)

  /** A fresh manager runs no mode. */
  function Init(): (m: Manager)
    ensures m.current == None
  {
    Manager(None)
  }

  /** `data.decode().strip().upper()`: the command as `set_mode` sees it. */
  function Normalise(raw: string): (msg: string)
    ensures |msg| <= |raw|
    ensures NoLower(msg)
    // the stripped datagram up to letter case, with no surrounding whitespace
    ensures Lower(msg) == Lower(Strip(raw))
    ensures |msg| == 0 || (!IsSpace(msg[0]) && !IsSpace(msg[|msg| - 1]))
  {
    var t := Strip(raw);
    UpperNoLower(t);
    StripTrimmed(raw);
    UpperShape(t);
    Upper(t)
  }

  const Prefix: string := "SET MODE "

  /** The mode a name selects. */
  function Select(name: string): (k: Option<Kind>)
    ensures k.Some? ==> Name(k.value) == name
    ensures k.None? <==> name !in {"DETECTBALL", "APRILTAG", "QRCODE"}
  {
    if name == "DETECTBALL" then Some(DetectBall)
    else if name == "APRILTAG" then Some(AprilTag)
    else if name == "QRCODE" then Some(QrCode)
    else None
  }

  /** Every mode is selected by its own name. */
  lemma SelectName(k: Kind)
    ensures Select(Name(k)) == Some(k)
  {
  }

  /** The mode name a command carries: the command with every occurrence of
      the prefix removed, not only the leading one. */
  function ModeName(msg: string): string {
    ReplaceAll(msg, Prefix, "")
  }

  datatype Outcome = Rejected | NoMode | Started(kind: Kind)

  /** The manager after the command, the previous mode as it was left when
      it was stopped (if one was stopped), and what happened. */
  datatype Switch = Switch(mgr: Manager, stopped: Option<Mode>, outcome: Outcome)

  /** `set_mode(msg)`; `cameraOk` is whether the new mode manages to open
      the camera. */
  function SetMode(mgr: Manager, msg: string, cameraOk: bool): (r: Switch)
    // a command without the prefix changes nothing, and the mode keeps running
    ensures r.outcome == Rejected <==> !StartsWith(msg, Prefix)
    ensures r.outcome == Rejected ==> r.mgr == mgr && r.stopped == None
    // with the prefix the previous mode is always stopped first
    ensures r.outcome != Rejected ==>
              r.stopped == (if mgr.current.Some? then Some(Stop(mgr.current.value)) else None)
    ensures r.outcome == NoMode <==> StartsWith(msg, Prefix) && Select(ModeName(msg)) == None
    ensures r.outcome == NoMode ==> r.mgr.current == None
    ensures r.outcome.Started? ==>
              Name(r.outcome.kind) == ModeName(msg) &&
              r.mgr.current == Some(Start(Create(r.outcome.kind), cameraOk))
  {
    if !StartsWith(msg, Prefix) then Switch(mgr, None, Rejected)
    else
      var stopped := if mgr.current.Some? then Some(Stop(mgr.current.value)) else None;
      match Select(ModeName(msg))
      case None => Switch(Manager(None), stopped, NoMode)
      case Some(k) => Switch(Manager(Some(Start(Create(k), cameraOk))), stopped, Started(k))
  }

  /** A command typed in any letter case and padded with whitespace selects
      the mode it names. */
  lemma AnyCaseSelects(mgr: Manager, a: string, c: string, b: string, k: Kind, cameraOk: bool)
    requires forall i :: 0 <= i < |a| ==> IsSpace(a[i])
    requires forall i :: 0 <= i < |b| ==> IsSpace(b[i])
    requires Upper(c) == Prefix + Name(k)
    ensures SetMode(mgr, Normalise(a + c + b), cameraOk).outcome == Started(k)
  {
    PaddedCommandNormalises(a, c, b, k);
    CommandSelects(k);
  }

  /** A padded command in any case normalises to the upper-case command. */
  lemma PaddedCommandNormalises(a: string, c: string, b: string, k: Kind)
    requires forall i :: 0 <= i < |a| ==> IsSpace(a[i])
    requires forall i :: 0 <= i < |b| ==> IsSpace(b[i])
    requires Upper(c) == Prefix + Name(k)
    ensures Normalise(a + c + b) == Prefix + Name(k)
  {
    var cmd := Prefix + Name(k);
    assert |c| == |cmd| && UpperChar(c[0]) == 'S';
    assert !IsSpace(c[|c| - 1]) by {
      NameEndsInLetter(k);
      assert UpperChar(c[|c| - 1]) == cmd[|cmd| - 1] == Name(k)[|Name(k)| - 1];
    }
    StripPadded(a, c, b);
  }

  lemma NameEndsInLetter(k: Kind)
    ensures |Name(k)| > 0 && 'A' <= Name(k)[|Name(k)| - 1] <= 'Z'
  {
    match k
    case DetectBall =>
    case AprilTag =>
    case QrCode =>
  }

  /** The command naming a mode carries the prefix and selects that mode. */
  lemma CommandSelects(k: Kind)
    ensures StartsWith(Prefix + Name(k), Prefix)
    ensures Select(ModeName(Prefix + Name(k))) == Some(k)
  {
    assert (Prefix + Name(k))[..|Prefix|] == Prefix;
    NamePrefixRemoved(k);
    SelectName(k);
  }

  /** Removing the prefix from `SET MODE <name>` leaves the name. */
  lemma NamePrefixRemoved(k: Kind)
    ensures ModeName(Prefix + Name(k)) == Name(k)
  {
    NoChar(Name(k), Prefix, ' ');
    ReplaceLeading(Prefix, Name(k), "");
  }

  /** The prefix is removed wherever it occurs: a doubled prefix still
      selects the mode. */
  lemma DoubledPrefixSelects(mgr: Manager, cameraOk: bool)
    ensures SetMode(mgr, "SET MODE SET MODE QRCODE", cameraOk).outcome == Started(QrCode)
  {
    var s := "SET MODE SET MODE QRCODE";
    assert StartsWith(s, Prefix);
    assert s[|Prefix|..] == Prefix + Name(QrCode);
    NamePrefixRemoved(QrCode);
  }

  /** An unknown name after a valid prefix stops the running mode and
      leaves none. */
  lemma UnknownNameStopsCurrent(m: Mode, name: string, cameraOk: bool)
    requires Select(ModeName(Prefix + name)) == None
    ensures var r := SetMode(Manager(Some(m)), Prefix + name, cameraOk);
            r.outcome == NoMode && r.mgr.current == None && r.stopped == Some(Stop(m)) &&
            !r.stopped.value.running
  {
    assert StartsWith(Prefix + name, Prefix);
  }

  /** What `get_status` reports: the current mode's name, or `NONE`. */
  function ModeLabel(mgr: Manager): (l: string)
    ensures mgr.current.Some? ==> l == Name(mgr.current.value.kind)
    ensures l == "NONE" <==> mgr.current.None?
  {
    if mgr.current.Some? then Name(mgr.current.value.kind) else "NONE"
  }

  /** One iteration of `listen_messenger` on a received frame: the reply, or
      `None` when the message names no one to reply to, or when decoding or
      `get` raised (caught and logged). */
  function Status(mgr: Manager, decoded: Option<Json>): (r: Option<Json>)
    ensures r.Some? <==>
              decoded.Some? && decoded.value.JObj? && Truthy(Lookup(decoded.value.fields, "reply_to"))
    // the reply goes to `reply_to` and carries no sender
    ensures r.Some? ==>
              r.value.JObj? && r.value.fields.Keys == {"target", "data"} &&
              r.value.fields["target"] == Lookup(decoded.value.fields, "reply_to")
    ensures r.Some? && Lookup(decoded.value.fields, "cmd") == JStr("get_status") ==>
              r.value.fields["data"] == JObj(map["mode" := JStr(ModeLabel(mgr))])
    ensures r.Some? && Lookup(decoded.value.fields, "cmd") != JStr("get_status") ==>
              r.value.fields["data"] == JObj(map["error" := JStr("Unknown command")])
  {
    match decoded
    case None => None
    case Some(msg) =>
      if !msg.JObj? then None
      else
        var cmd := Lookup(msg.fields, "cmd");
        var replyTo := Lookup(msg.fields, "reply_to");
        if !Truthy(replyTo) then None
        else
          var resp := if cmd == JStr("get_status") then JObj(map["mode" := JStr(ModeLabel(mgr))])
                      else JObj(map["error" := JStr("Unknown command")]);
          Some(JObj(map["target" := replyTo, "data" := resp]))
  }

  /** A status request. */
  function StatusRequest(replyTo: string): Json {
    JObj(map["cmd" := JStr("get_status"), "reply_to" := JStr(replyTo)])
  }

  /** After a switch the status names the started mode; after an unknown
      name it reports `NONE`. */
  lemma StatusAfterSwitch(mgr: Manager, msg: string, cameraOk: bool, who: string)
    requires |who| > 0
    ensures var r := SetMode(mgr, msg, cameraOk);
            var reply := Status(r.mgr, Some(StatusRequest(who)));
            reply.Some? &&
            (r.outcome.Started? ==> reply.value.fields["data"] == JObj(map["mode" := JStr(Name(r.outcome.kind))])) &&
            (r.outcome == NoMode ==> reply.value.fields["data"] == JObj(map["mode" := JStr("NONE")]))
  {
  }

  // ---------------------------------------------------------------------
  // The UDP command listener (`listen_commands`)
  // ---------------------------------------------------------------------

  /** The manager after the listener has handled `datagrams` in order, each
      the decoded text or `None` when it is not valid UTF-8. Decoding is
      outside any `try`, so the first undecodable datagram ends the listener
      and nothing after it is handled. `cameraOk` says, per datagram,
      whether a newly started mode opens the camera. */
  function Commands(mgr: Manager, datagrams: seq<Option<string>>, cameraOk: seq<bool>): (r: Manager)
    requires |cameraOk| == |datagrams|
    decreases |datagrams|
  {
    if |datagrams| == 0 then mgr
    else
      match datagrams[0]
      case None => mgr
      case Some(text) => Commands(SetMode(mgr, Normalise(text), cameraOk[0]).mgr, datagrams[1..], cameraOk[1..])
  }

  /** A single undecodable datagram disables mode switching for good. */
  lemma {:induction false} BadDatagramEndsListener(mgr: Manager, before: seq<Option<string>>,
                                                   after: seq<Option<string>>, ok1: seq<bool>, ok2: seq<bool>, ok: bool)
    requires |ok1| == |before| && |ok2| == |after|
    ensures Commands(mgr, before + [None] + after, ok1 + [ok] + ok2) == Commands(mgr, before, ok1)
    decreases |before|
  {
    if |before| == 0 {
      assert before + [None] + after == [None] + after;
    } else {
      var d := before + [None] + after;
      assert d[1..] == before[1..] + [None] + after;
      assert (ok1 + [ok] + ok2)[1..] == ok1[1..] + [ok] + ok2;
      match before[0]
      case None =>
      case Some(text) =>
        BadDatagramEndsListener(SetMode(mgr, Normalise(text), ok1[0]).mgr, before[1..], after, ok1[1..], ok2, ok);
    }
  }

  /** The listener as evidently intended: an undecodable datagram is
      skipped and the ones after it are still handled. */
  function CommandsSkipping(mgr: Manager, datagrams: seq<Option<string>>, cameraOk: seq<bool>): (r: Manager)
    requires |cameraOk| == |datagrams|
    decreases |datagrams|
  {
    if |datagrams| == 0 then mgr
    else
      var next := match datagrams[0]
                  case None => mgr
                  case Some(text) => SetMode(mgr, Normalise(text), cameraOk[0]).mgr;
      CommandsSkipping(next, datagrams[1..], cameraOk[1..])
  }

  /** With the skipping listener a bad datagram loses only itself. */
  lemma {:induction false} SkippingLosesOnlyBadDatagram(mgr: Manager, before: seq<Option<string>>,
                                                        after: seq<Option<string>>, ok1: seq<bool>, ok2: seq<bool>, ok: bool)
    requires |ok1| == |before| && |ok2| == |after|
    ensures CommandsSkipping(mgr, before + [None] + after, ok1 + [ok] + ok2)
         == CommandsSkipping(CommandsSkipping(mgr, before, ok1), after, ok2)
    decreases |before|
  {
    if |before| == 0 {
      assert before + [None] + after == [None] + after;
      assert (ok1 + [ok] + ok2)[1..] == ok2;
      assert ([None] + after)[1..] == after;
    } else {
      var d := before + [None] + after;
      assert d[1..] == before[1..] + [None] + after;
      assert (ok1 + [ok] + ok2)[1..] == ok1[1..] + [ok] + ok2;
      var next := match before[0]
                  case None => mgr
                  case Some(text) => SetMode(mgr, Normalise(text), ok1[0]).mgr;
      SkippingLosesOnlyBadDatagram(next, before[1..], after, ok1[1..], ok2, ok);
    }
  }

  /** The two listeners agree on datagrams that all decode. */
  lemma {:induction false} ListenersAgreeOnGoodInput(mgr: Manager, datagrams: seq<Option<string>>, cameraOk: seq<bool>)
    requires |cameraOk| == |datagrams|
    requires forall i :: 0 <= i < |datagrams| ==> datagrams[i].Some?
    ensures Commands(mgr, datagrams, cameraOk) == CommandsSkipping(mgr, datagrams, cameraOk)
    decreases |datagrams|
  {
    if |datagrams| > 0 {
      ListenersAgreeOnGoodInput(SetMode(mgr, Normalise(datagrams[0].value), cameraOk[0]).mgr,
                                datagrams[1..], cameraOk[1..]);
    }
  }

  /** With the skipping listener, a valid command after a bad datagram
      still takes effect. */
  lemma SkippingStillSwitches(mgr: Manager, k: Kind, ok: bool, ok2: bool)
    ensures CommandsSkipping(mgr, [None, Some(Prefix + Name(k))], [ok, ok2]).current
         == Some(Start(Create(k), ok2))
  {
    var c := Prefix + Name(k);
    assert Normalise(c) == c by {
      CommandIsUpper(k);
      UpperOfNoLower(c);
      assert "" + c + "" == c;
      PaddedCommandNormalises("", c, "", k);
    }
    CommandSelects(k);
    var after := SetMode(mgr, c, ok2).mgr;
    assert after.current == Some(Start(Create(k), ok2));
    var d: seq<Option<string>> := [None, Some(c)];
    assert d[1..] == [Some(c)] && [ok, ok2][1..] == [ok2];
    assert CommandsSkipping(mgr, d, [ok, ok2]) == CommandsSkipping(mgr, [Some(c)], [ok2]);
    assert CommandsSkipping(mgr, [Some(c)], [ok2]) == CommandsSkipping(after, [], []);
  }

  /** As written, the same command after a bad datagram is never seen. */
  lemma AsWrittenNeverSwitches(mgr: Manager, k: Kind, ok: bool, ok2: bool)
    ensures Commands(mgr, [None, Some(Prefix + Name(k))], [ok, ok2]) == mgr
  {
  }

  /** An upper-case command without surrounding whitespace is left as it is. */
  lemma NormalisedCommand(c: string)
    requires |c| == 0 || (!IsSpace(c[0]) && !IsSpace(c[|c| - 1]))
    requires NoLower(c)
    ensures Normalise(c) == c
  {
    StripUnchanged(c);
    UpperOfNoLower(c);
  }

  /** The command naming a mode has no lower-case letters. */
  lemma CommandIsUpper(k: Kind)
    ensures NoLower(Prefix + Name(k))
  {
    var n := Name(k);
    assert forall i :: 0 <= i < |n| ==> 'A' <= n[i] <= 'Z' by {
      match k
      case DetectBall => assert n == "DETECTBALL";
      case AprilTag => assert n == "APRILTAG";
      case QrCode => assert n == "QRCODE";
    }
    assert forall i :: 0 <= i < |Prefix| ==> Prefix[i] == ' ' || 'A' <= Prefix[i] <= 'Z';
  }
}

=== FILE: camera_mode.dfy ===
/** The life cycle every camera mode shares (`BaseCameraMode` in
    CameraManager/base_mode.py): a mode is created idle, `start` marks it
    running and opens the camera with a bounded number of attempts, `stop`
    tears it down, and `send_data` packs numbers into one UDP datagram. */
module CameraMode {
  import opened Wrappers
  import opened Packing

  /** The three modes the camera process can run. */
  datatype Kind = DetectBall | AprilTag | QrCode

  /** A mode's `name`, as reported by `get_status` and selected by `SET MODE`. */
  function Name(k: Kind): string {
    match k
    case DetectBall => "DETECTBALL"
    case AprilTag => "APRILTAG"
    case QrCode => "QRCODE"
  }

  /** A mode instance: whether its loop should run, whether its loop task
      exists, and whether it holds an open capture device. */
  datatype Mode = Mode(kind: Kind, running: bool, task: bool, cap: bool)

  /** A freshly constructed mode holds nothing and is not running. */
  function Create(k: Kind): (m: Mode)
    ensures m.kind == k && !m.running && !m.task && !m.cap
  {
    Mode(k, false, false, false)
  }

  /** Number of attempts `_init_camera` makes before giving up. */
  const MaxAttempts: nat := 10

  /** Whether attempt `i` opens the camera; attempts past the end of
      `opens` fail. */
  predicate Opens(opens: seq<bool>, i: nat) {
    i < |opens| && opens[i]
  }

  /** `_init_camera`: tries to open the camera until an attempt succeeds,
      at most ten times. Returns whether it succeeded and how many attempts
      it made. */
  method InitCamera(opens: seq<bool>) returns (ok: bool, attempts: nat)
    ensures 1 <= attempts <= MaxAttempts
    ensures ok <==> exists i: nat :: i < MaxAttempts && Opens(opens, i)
    ensures ok ==> Opens(opens, attempts - 1)
    ensures forall i: nat :: i < attempts - 1 ==> !Opens(opens, i)
    ensures !ok ==> attempts == MaxAttempts
  {
    var attempt: nat := 0;
    while attempt < MaxAttempts
      invariant attempt <= MaxAttempts
      invariant forall i: nat :: i < attempt ==> !Opens(opens, i)
    {
      if Opens(opens, attempt) {
        return true, attempt + 1;
      }
      attempt := attempt + 1;
    }
    return false, MaxAttempts;
  }

  /** `start`: the mode is marked running before the camera is opened; the
      loop task is created, and the capture kept, only when opening the
      camera succeeded (`cameraOk`). */
  function Start(m: Mode, cameraOk: bool): (r: Mode)
    ensures r.running && r.kind == m.kind
    ensures r.task <==> (cameraOk || m.task)
    ensures r.cap <==> (cameraOk || m.cap)
  {
    if cameraOk then m.(running := true, task := true, cap := true)
    else m.(running := true)
  }

  /** `stop`: whatever the state, the mode ends not running, with no task
      and no capture; errors cancelling the loop task or releasing the capture
      are swallowed. */
  function Stop(m: Mode): (r: Mode)
    ensures !r.running && !r.task && !r.cap && r.kind == m.kind
  {
    Mode(m.kind, false, false, false)
  }

  /** Stopping twice is stopping once. */
  lemma StopIdempotent(m: Mode)
    ensures Stop(Stop(m)) == Stop(m)
  {
  }

  /** A mode that could not open its camera stays marked running with no
      loop task; stopping it is still clean. */
  lemma FailedStartIsRunningWithoutTask(k: Kind)
    ensures var m := Start(Create(k), false);
            m.running && !m.task && !m.cap && Stop(m) == Create(k)
  {
  }

  /** `send_data(*values)`: the datagram for the values, or `None` when
      packing fails (the error is logged and swallowed). */
  function SendData(values: seq<real>, enc: real -> Option<F32>): (d: Option<seq<bv8>>)
    ensures d.Some? ==> |d.value| == 4 * |values|
    ensures d.Some? <==> forall i :: 0 <= i < |values| ==> enc(values[i]).Some?
    ensures d.Some? ==> Unpack(d.value) == Some(Encodings(values, enc))
  {
    PackValues(values, enc)
  }

  /** The two-value datagram of the ball and QR modes has the eight bytes
      the camera UDP test script expects, and unpacks to the two values. */
  lemma TwoValuePacket(x: real, y: real, enc: real -> Option<F32>)
    requires enc(x).Some? && enc(y).Some?
    ensures var d := SendData([x, y], enc);
            d.Some? && CameraTestAccepts(d.value) && Unpack(d.value) == Some([enc(x).value, enc(y).value])
  {
    var d := SendData([x, y], enc);
    assert d.Some?;
    var fs := Encodings([x, y], enc);
    assert fs == [enc(x).value, enc(y).value];
  }
}

=== FILE: client.dfy ===
/** The client side of the fabric (`BaseModule` in
    ProgramManager/base_module.py): the records a module publishes on the log
    and heartbeat channels, the envelopes it sends through the router, the
    filter its receive loop applies, and `stop`. */
module Client {
  import opened Wrappers
  import opened Json
  import opened Text
  import opened OrderedMap

  datatype Module = Module(name: string, running: bool)

  /** A fresh module is running. */
  function NewModule(name: string): (m: Module)
    ensures m.name == name && m.running
  {
    Module(name, true)
  }

  /** `log(level, message)`: a falsy message is sent as `""`, the level is
      lower-cased, and the sender is the module's name. */
  function LogRecord(m: Module, ts: string, level: string, message: Json): (r: Json)
    ensures r.JObj? && r.fields.Keys == {"timestamp", "sender", "message", "level"}
    ensures r.fields["sender"] == JStr(m.name) && r.fields["timestamp"] == JStr(ts)
    ensures r.fields["level"] == JStr(Lower(level))
    ensures Truthy(message) ==> r.fields["message"] == message
    ensures !Truthy(message) ==> r.fields["message"] == JStr("")
  {
    JObj(map[
      "timestamp" := JStr(ts),
      "sender" := JStr(m.name),
      "message" := (if Truthy(message) then message else JStr("")),
      "level" := JStr(Lower(level))])
  }

  /** One iteration of `start_heartbeat`: a record with level `heartbeat`
      while the module runs, nothing once it has stopped. */
  function HeartbeatRecord(m: Module, ts: string): (r: Option<Json>)
    ensures r.Some? <==> m.running
    ensures r.Some? ==> r.value.JObj? && r.value.fields.Keys == {"timestamp", "sender", "level"} &&
                        r.value.fields["sender"] == JStr(m.name) &&
                        r.value.fields["level"] == JStr("heartbeat")
  {
    if !m.running then None
    else Some(JObj(map["timestamp" := JStr(ts), "sender" := JStr(m.name), "level" := JStr("heartbeat")]))
  }

  /** `send(target, command, data)`: a `data` envelope from this module. */
  function SendEnvelope(m: Module, target: string, command: string, data: Json): (r: Json)
    ensures r.JObj? && r.fields.Keys == {"type", "sender", "target", "command", "data"}
    ensures r.fields["type"] == JStr("data") && r.fields["sender"] == JStr(m.name)
    ensures r.fields["target"] == JStr(target) && r.fields["command"] == JStr(command)
    ensures r.fields["data"] == data
  {
    JObj(map[
      "type" := JStr("data"),
      "sender" := JStr(m.name),
      "target" := JStr(target),
      "command" := JStr(command),
      "data" := data])
  }

  /** The filter of `on_message`: a `data` message addressed to this module. */
  predicate Accepts(m: Module, msg: Json)
    requires msg.JObj?
  {
    Lookup(msg.fields, "type") == JStr("data") && Lookup(msg.fields, "target") == JStr(m.name)
  }

  /** The messages the receive loop hands to the handler, in arrival order.
      The loop runs while the module runs; a frame that does not decode, or
      decodes to a non-object, raises out of the loop and ends it, so nothing
      after it is handled. */
  function OnMessage(m: Module, inbox: seq<Option<Json>>): (handled: seq<Json>)
    ensures forall x :: x in handled ==> x.JObj? && Accepts(m, x) && Some(x) in inbox
    ensures !m.running ==> handled == []
    ensures |handled| <= |inbox|
    decreases |inbox|
  {
    if !m.running || |inbox| == 0 then []
    else
      match inbox[0]
      case None => []
      case Some(msg) =>
        if !msg.JObj? then []
        else
          var rest := OnMessage(m, inbox[1..]);
          if Accepts(m, msg) then [msg] + rest else rest
  }

  /** The filter as a reference: for an inbox of decodable objects, the
      handler sees exactly the accepted messages in arrival order, as a
      filter over the whole inbox. */
  predicate IsAccepted(m: Module, x: Json) {
    x.JObj? && Accepts(m, x)
  }

  lemma {:induction false} OnMessageIsFilter(m: Module, inbox: seq<Json>)
    requires m.running
    requires forall i :: 0 <= i < |inbox| ==> inbox[i].JObj?
    ensures OnMessage(m, Wrap(inbox)) == FilterSeq(inbox, x => IsAccepted(m, x))
    decreases |inbox|
  {
    if |inbox| > 0 {
      var w := Wrap(inbox);
      assert w[0] == Some(inbox[0]) && w[1..] == Wrap(inbox[1..]);
      var rest := OnMessage(m, w[1..]);
      assert OnMessage(m, w) == (if Accepts(m, inbox[0]) then [inbox[0]] + rest else rest);
      OnMessageIsFilter(m, inbox[1..]);
      FilterSeqCons(inbox[0], inbox[1..], x => IsAccepted(m, x));
      assert [inbox[0]] + inbox[1..] == inbox;
    }
  }

  function Wrap(xs: seq<Json>): (r: seq<Option<Json>>)
    ensures |r| == |xs| && forall i :: 0 <= i < |xs| ==> r[i] == Some(xs[i])
  {
    seq(|xs|, i requires 0 <= i < |xs| => Some(xs[i]))
  }

  /** Filtering a sequence with a new first element. */
  lemma {:induction false} FilterSeqCons(x: Json, xs: seq<Json>, p: Json -> bool)
    ensures FilterSeq([x] + xs, p) == (if p(x) then [x] else []) + FilterSeq(xs, p)
    decreases |xs|
  {
    var s := [x] + xs;
    if |xs| > 0 {
      var front := xs[..|xs| - 1];
      FilterSeqCons(x, front, p);
      assert s[..|s| - 1] == [x] + front;
      assert s[|s| - 1] == xs[|xs| - 1];
    } else {
      assert s[..0] == [];
    }
  }

  /** `stop`: the module stops running, so the heartbeat and receive loops
      end at their next check; errors closing the sockets are swallowed. */
  function Stop(m: Module): (r: Module)
    ensures !r.running && r.name == m.name
  {
    m.(running := false)
  }

  /** After `stop`, no heartbeat is published and no message is handled. */
  lemma StoppedIsSilent(m: Module, ts: string, inbox: seq<Option<Json>>)
    ensures HeartbeatRecord(Stop(m), ts) == None
    ensures OnMessage(Stop(m), inbox) == []
  {
  }
}

=== FILE: display.dfy ===
/** The display's navigation (`DisplayManager` in DisplayManager/main.py),
    its action dispatcher (DisplayManager/ActionHandlers/dispatcher.py), the
    menu screen's item routing (DisplayManager/Screens/menu_screen.py) and
    the confirmation screen (DisplayManager/Screens/confirm_screen.py).
    Widgets are left out; a screen is its kind and an identity, so that a
    reused screen object can be told from a new one. */
module Display {
  import opened Wrappers
  import opened Json
  import opened Text

  /** What a screen shows. */
  datatype Kind =
    | Logo
    | Menu(items: Json, title: Json)
    | LogScreen(path: string, errorMode: bool)
    | Confirm(message: string, service: string)
    | Sonic
    | AprilTags

  /** A screen object: `id` tells instances apart. */
  datatype Screen = Screen(id: nat, kind: Kind)

  /** The application: the back stack, the screen on display, the next
      free screen identity, the one AprilTag screen once created, the
      parsed `menu.json`, and the services restarted so far. */
  datatype App = App(history: seq<Screen>, current: Option<Screen>, nextId: nat,
                     aprilTag: Option<Screen>, config: Json, restarts: seq<string>)

  /** Every screen object the application knows was created before
      `nextId` was handed out. */
  predicate Valid(app: App) {
    (forall i :: 0 <= i < |app.history| ==> app.history[i].id < app.nextId) &&
    (app.current.Some? ==> app.current.value.id < app.nextId) &&
    (app.aprilTag.Some? ==> app.aprilTag.value.id < app.nextId)
  }

  /** The screen on display is of kind `k`. */
  predicate Shows(app: App, k: Kind) {
    app.current.Some? && app.current.value.kind == k
  }

  /** A new screen object of kind `k`. */
  function Create(app: App, k: Kind): (r: (App, Screen))
    ensures r.1.kind == k && r.1.id == app.nextId && r.0 == app.(nextId := app.nextId + 1)
    ensures Valid(app) ==> Valid(r.0)
  {
    (app.(nextId := app.nextId + 1), Screen(app.nextId, k))
  }

  /** `_show_screen(s)`. */
  function Show(app: App, s: Screen): App {
    app.(current := Some(s))
  }

  /** `build`: a logo screen on display and an empty history. */
  function Build(config: Json): (app: App)
    ensures app.history == [] && app.current.Some? && app.current.value.kind == Logo
    ensures app.aprilTag == None && app.restarts == [] && Valid(app)
  {
    var (a, s) := Create(App([], None, 0, None, config, []), Logo);
    Show(a, s)
  }

  /** `navigate_to(s)`: the screen on display, if any, goes onto the history
      and `s` is shown. */
  function NavigateTo(app: App, s: Screen): (r: App)
    ensures r.current == Some(s)
    ensures r.history == app.history + (if app.current.Some? then [app.current.value] else [])
    ensures r.nextId == app.nextId && r.aprilTag == app.aprilTag && r.restarts == app.restarts
    ensures Valid(app) && s.id < app.nextId ==> Valid(r)
  {
    var h := if app.current.Some? then app.history + [app.current.value] else app.history;
    Show(app.(history := h), s)
  }

  /** `open_logo`: a fresh logo screen and an empty history. */
  function OpenLogo(app: App): (r: App)
    ensures r.history == [] && r.current.Some? && r.current.value.kind == Logo
    ensures r.current.value.id == app.nextId && r.restarts == app.restarts
    ensures Valid(app) ==> Valid(r)
  {
    var (a, s) := Create(app.(history := []), Logo);
    Show(a, s)
  }

  /** `open_previous`: pops the history, or opens the logo when it is empty. */
  function OpenPrevious(app: App): (r: App)
    ensures |app.history| > 0 ==>
              r.current == Some(app.history[|app.history| - 1]) &&
              r.history == app.history[..|app.history| - 1] && r.nextId == app.nextId
    ensures |app.history| == 0 ==> r == OpenLogo(app)
    ensures r.restarts == app.restarts && r.aprilTag == app.aprilTag
    ensures Valid(app) ==> Valid(r)
  {
    if |app.history| > 0 then
      Show(app.(history := app.history[..|app.history| - 1]), app.history[|app.history| - 1])
    else OpenLogo(app)
  }

  /** Going somewhere and coming back restores what was on display and the
      history as it was. */
  lemma NavigateBack(app: App, s: Screen)
    requires app.current.Some?
    ensures var r := OpenPrevious(NavigateTo(app, s));
            r.current == app.current && r.history == app.history
  {
    var n := NavigateTo(app, s);
    assert n.history[..|n.history| - 1] == app.history;
  }

  /** Back on an empty history shows a new logo screen, and the history
      stays empty. */
  lemma BackOnEmptyHistory(app: App)
    requires app.history == []
    ensures var r := OpenPrevious(app);
            r.history == [] && Shows(r, Logo) && r.current.value.id == app.nextId
  {
  }

  /** The outcome of a step whose Python code can raise out of the UI
      callback: `None` when it raises. */
  type Outcome = Option<App>

  /** `open_menu(items, title)`: without items, the `menu` list of the
      configuration, which must be an object holding it. Showing the menu
      builds it, and building raises unless the title is a string (a Kivy
      `Label` text accepts only `str`) and the list yields its buttons. */
  function OpenMenu(app: App, items: Option<Json>, title: Json): (r: Outcome)
    ensures items.Some? ==>
              (r.Some? <==> title.JStr? && Buttons(items.value).Some?) &&
              (r.Some? ==> Shows(r.value, Menu(items.value, title)))
    ensures items.None? ==>
              (r.Some? <==> title.JStr? && app.config.JObj? && "menu" in app.config.fields &&
                            Buttons(app.config.fields["menu"]).Some?) &&
              (r.Some? ==> Shows(r.value, Menu(app.config.fields["menu"], title)))
    ensures r.Some? ==> r.value.history == app.history + (if app.current.Some? then [app.current.value] else [])
    ensures r.Some? ==> r.value.restarts == app.restarts
    ensures r.Some? && Valid(app) ==> Valid(r.value)
  {
    var list := if items.Some? then Some(items.value)
                else if app.config.JObj? && "menu" in app.config.fields then Some(app.config.fields["menu"])
                else None;
    match list
    case None => None
    case Some(l) =>
      if !title.JStr? || Buttons(l).None? then None
      else
        var (a, s) := Create(app, Menu(l, title));
        Some(NavigateTo(a, s))
  }

  // ---------------------------------------------------------------------
  // dispatch_action
  // ---------------------------------------------------------------------

  /** `s.split(p, 1)[1]` for a string that starts with `p`: the rest after it. */
  function After(s: string, p: string): (r: string)
    requires StartsWith(s, p)
    ensures p + r == s
  {
    s[|p|..]
  }

  /** The confirmation text for restarting `service`. */
  function RestartQuestion(service: string): string {
    "Do you really want to restart\n[b]" + service + ".service[/b] ?"
  }

  /** `dispatch_action(app, action)`: the application afterwards and whether
      the action was recognised (an unrecognised one is only logged). */
  function Dispatch(app: App, action: string): (r: (App, bool))
    // exactly the recognised actions navigate, once
    ensures r.1 ==> r.0.history == app.history + (if app.current.Some? then [app.current.value] else [])
    ensures !r.1 ==> r.0 == app
    ensures r.1 <==> StartsWith(action, "log:") || StartsWith(action, "error:") ||
                     StartsWith(action, "restart:") || action == "robot_sonic" || action == "april_tags"
    // nothing is restarted here
    ensures r.0.restarts == app.restarts
    ensures Valid(app) ==> Valid(r.0)
    ensures StartsWith(action, "log:") ==> Shows(r.0, LogScreen(After(action, "log:"), false))
    ensures !StartsWith(action, "log:") && StartsWith(action, "error:") ==>
              Shows(r.0, LogScreen(After(action, "error:"), true))
    ensures !StartsWith(action, "log:") && !StartsWith(action, "error:") && StartsWith(action, "restart:") ==>
              Shows(r.0, Confirm(RestartQuestion(After(action, "restart:")), After(action, "restart:")))
  {
    if StartsWith(action, "log:") then
      var (a, s) := Create(app, LogScreen(After(action, "log:"), false));
      (NavigateTo(a, s), true)
    else if StartsWith(action, "error:") then
      var (a, s) := Create(app, LogScreen(After(action, "error:"), true));
      (NavigateTo(a, s), true)
    else if StartsWith(action, "restart:") then
      var service := After(action, "restart:");
      var (a, s) := Create(app, Confirm(RestartQuestion(service), service));
      (NavigateTo(a, s), true)
    else if action == "robot_sonic" then
      var (a, s) := Create(app, Sonic);
      (NavigateTo(a, s), true)
    else if action == "april_tags" then
      match app.aprilTag
      case Some(t) => (NavigateTo(app, t), true)
      case None =>
        var (a, s) := Create(app, AprilTags);
        (NavigateTo(a.(aprilTag := Some(s)), s), true)
    else (app, false)
  }

  /** The AprilTag screen is created once and the same object is shown on
      every later `april_tags`. */
  lemma AprilTagScreenReused(app: App)
    ensures var r1 := Dispatch(app, "april_tags").0;
            var r2 := Dispatch(r1, "april_tags").0;
            r1.aprilTag.Some? && r2.current == r1.current && r2.aprilTag == r1.aprilTag &&
            r2.nextId == r1.nextId
  {
    NotStartsWith("april_tags", "log:", 0);
    NotStartsWith("april_tags", "error:", 0);
    NotStartsWith("april_tags", "restart:", 0);
  }

  /** Every `robot_sonic` makes a new sonic screen. */
  lemma SonicScreenIsNew(app: App)
    requires Valid(app)
    ensures var r := Dispatch(app, "robot_sonic").0;
            Shows(r, Sonic) && r.current.value.id == app.nextId &&
            (forall i :: 0 <= i < |app.history| ==> app.history[i] != r.current.value) &&
            r.current != app.current
  {
    NotStartsWith("robot_sonic", "log:", 0);
    NotStartsWith("robot_sonic", "error:", 0);
    NotStartsWith("robot_sonic", "restart:", 1);
  }

  // ---------------------------------------------------------------------
  // Menu and confirmation screens
  // ---------------------------------------------------------------------

  /** `MenuScreen.handle(item)`: a `submenu` opens that submenu under the
      item's title (and wins over an `action`); an `action` is dispatched;
      an item with neither is only logged. A non-object item, a submenu item
      without a title and a non-string action raise. A `null` submenu opens
      the configured top-level menu. */
  function Handle(app: App, item: Json): (r: Outcome)
    ensures r.Some? ==> item.JObj?
    ensures item.JObj? && "submenu" in item.fields && "title" in item.fields && item.fields["submenu"] != JNull ==>
              r == OpenMenu(app, Some(item.fields["submenu"]), item.fields["title"])
    ensures item.JObj? && "submenu" in item.fields && "title" in item.fields && item.fields["submenu"] == JNull ==>
              r == OpenMenu(app, None, item.fields["title"])
    ensures item.JObj? && "submenu" in item.fields && "title" !in item.fields ==> r == None
    ensures item.JObj? && "submenu" !in item.fields && "action" in item.fields && item.fields["action"].JStr? ==>
              r == Some(Dispatch(app, item.fields["action"].s).0)
    ensures item.JObj? && "submenu" !in item.fields && "action" !in item.fields ==> r == Some(app)
    ensures r.Some? ==> r.value.restarts == app.restarts
  {
    if !item.JObj? then None
    else if "submenu" in item.fields then
      if "title" !in item.fields then None
      else
        var sub := item.fields["submenu"];
        OpenMenu(app, if sub == JNull then None else Some(sub), item.fields["title"])
    else if "action" in item.fields then
      var action := item.fields["action"];
      if action.JStr? then Some(Dispatch(app, action.s).0) else None
    else Some(app)
  }

  /** The buttons a menu shows: one per item, in order, labelled with the
      item's title. Iterating a non-list, reading a missing title or
      labelling a button with a non-string raises while the screen is built;
      iterating an empty object or string yields no buttons. */
  function Buttons(items: Json): (r: Option<seq<string>>)
    ensures r.Some? && items.JArr? ==>
              |r.value| == |items.items| &&
              forall i :: 0 <= i < |items.items| ==>
                Titled(items.items[i]) && r.value[i] == items.items[i].fields["title"].s
    ensures items.JArr? ==> (r.Some? <==> forall i :: 0 <= i < |items.items| ==> Titled(items.items[i]))
    ensures !items.JArr? ==> r.None? || r.value == []
  {
    match items
    case JArr(xs) =>
      if forall i :: 0 <= i < |xs| ==> Titled(xs[i]) then
        Some(seq(|xs|, i requires 0 <= i < |xs| && Titled(xs[i]) => xs[i].fields["title"].s))
      else None
    case JObj(m) => if |m| == 0 then Some([]) else None
    case JStr(s) => if |s| == 0 then Some([]) else None
    case _ => None
  }

  /** A menu item a button can be built for: an object whose `title` is a
      string, since a Kivy `Button` text accepts only `str`. */
  predicate Titled(item: Json) {
    item.JObj? && "title" in item.fields && item.fields["title"].JStr?
  }

  /** A submenu item whose list is not a list of titled objects raises
      while the submenu is built. */
  lemma UnbuildableSubmenuRaises(app: App)
    ensures Handle(app, JObj(map["title" := JStr("X"), "submenu" := JNum(5.0)])) == None
  {
    var item := JObj(map["title" := JStr("X"), "submenu" := JNum(5.0)]);
    assert item.fields["submenu"] != JNull;
    assert Buttons(JNum(5.0)) == None;
  }

  /** A title that is not a string raises when the menu is built: a number
      as the submenu's own title, or as the title of one of its items. */
  lemma NonTextTitleRaises(app: App)
    ensures Handle(app, JObj(map["title" := JNum(5.0), "submenu" := JArr([])])) == None
    ensures Handle(app, JObj(map["title" := JStr("X"),
                                 "submenu" := JArr([JObj(map["title" := JNum(5.0)])])])) == None
  {
    var item := JObj(map["title" := JNum(5.0), "submenu" := JArr([])]);
    assert item.fields["submenu"] != JNull;
    var inner := JObj(map["title" := JNum(5.0)]);
    assert !Titled(inner);
    var item2 := JObj(map["title" := JStr("X"), "submenu" := JArr([inner])]);
    assert item2.fields["submenu"] != JNull;
    assert JArr([inner]).items[0] == inner;
    assert Buttons(JArr([inner])) == None;
  }

  /** A submenu item with a list of titled objects opens that submenu
      under the item's title, and its buttons are the items' titles. */
  lemma SubmenuOpens(app: App, title: string, sub: seq<Json>)
    requires forall i :: 0 <= i < |sub| ==> Titled(sub[i])
    ensures var r := Handle(app, JObj(map["title" := JStr(title), "submenu" := JArr(sub)]));
            r.Some? && Shows(r.value, Menu(JArr(sub), JStr(title))) &&
            r.value.history == app.history + (if app.current.Some? then [app.current.value] else [])
    ensures var b := Buttons(JArr(sub));
            b.Some? && |b.value| == |sub| && forall i :: 0 <= i < |sub| ==> b.value[i] == sub[i].fields["title"].s
  {
    var item := JObj(map["title" := JStr(title), "submenu" := JArr(sub)]);
    assert item.fields["submenu"] != JNull;
  }

  /** "Yes" on a confirmation screen for `service`: the callback restarts the
      service (`restartOk` is whether it ran without raising; a raised error
      is logged and swallowed), then the previous screen is shown. */
  function ConfirmYes(app: App, service: string, restartOk: bool): (r: App)
    ensures r.restarts == app.restarts + (if restartOk then [service] else [])
    ensures r.current == OpenPrevious(app).current && r.history == OpenPrevious(app).history
  {
    var a := if restartOk then app.(restarts := app.restarts + [service]) else app;
    OpenPrevious(a)
  }

  /** "No": back to the previous screen without running the callback. */
  function ConfirmNo(app: App): (r: App)
    ensures r.restarts == app.restarts && r.aprilTag == app.aprilTag
    ensures |app.history| > 0 ==>
              r.current == Some(app.history[|app.history| - 1]) && r.history == app.history[..|app.history| - 1]
    ensures |app.history| == 0 ==> r.history == [] && Shows(r, Logo)
  {
    OpenPrevious(app)
  }

  /** A `restart:` action only asks; confirming restarts exactly the named
      service and returns to the screen the action came from. */
  lemma RestartOnlyThroughYes(app: App, service: string, restartOk: bool)
    requires app.current.Some?
    ensures var asked := Dispatch(app, "restart:" + service).0;
            asked.restarts == app.restarts &&
            Shows(asked, Confirm(RestartQuestion(service), service)) &&
            ConfirmNo(asked).restarts == app.restarts &&
            ConfirmNo(asked).current == app.current &&
            ConfirmYes(asked, service, restartOk).restarts == app.restarts + (if restartOk then [service] else []) &&
            ConfirmYes(asked, service, restartOk).current == app.current
  {
    var action := "restart:" + service;
    assert StartsWith(action, "restart:");
    assert After(action, "restart:") == service;
    NotStartsWith(action, "log:", 0);
    NotStartsWith(action, "error:", 0);
    var asked := Dispatch(app, action).0;
    assert asked.history[..|asked.history| - 1] == app.history;
  }
}

=== FILE: fabric.dfy ===
/** How the processes fit together through the message router: what one
    side sends is what the other side's filter accepts, and the router
    carries it to the connection that registered the target's name. */
module Fabric {
  import opened Wrappers
  import opened Json
  import opened Text
  import opened OrderedMap
  import R = Router
  import C = Client
  import S = Supervisor
  import Bus = CameraBus
  import QrDetect
  import ScreenCommon
  import Tags = AprilTagScreen
  import Qr = QrScreen
  import Sonar
  import Sonic = SonicScreen
  import Logger
  import LogView

  // ---------------------------------------------------------------------
  // Module envelopes through the router
  // ---------------------------------------------------------------------

  /** A module's `send` registers the module under its name and reaches the
      target's connection unchanged, where the target's receive filter
      accepts it. */
  lemma EnvelopeDelivered(table: R.Table, ident: R.Ident, m: C.Module, target: string,
                          command: string, data: Json, raw: seq<bv8>)
    requires |m.name| > 0 && |target| > 0 && target != m.name
    requires KStr(target) in table
    ensures var env := C.SendEnvelope(m, target, command, data);
            var frame := Frame(raw, Some(env));
            var r := R.Step(table, ident, frame);
            r.table[KStr(m.name)] == ident &&
            r.sent == Some(R.Delivery(table[KStr(target)], frame)) &&
            C.Accepts(C.NewModule(target), env)
  {
    var env := C.SendEnvelope(m, target, command, data);
    var frame := Frame(raw, Some(env));
    assert R.Registers(frame, KStr(m.name));
    assert !R.Registers(frame, KStr(target));
    assert R.TargetKey(frame) == Some(KStr(target));
  }

  /** The same envelope is not handed to any other module's handler. */
  lemma EnvelopeOnlyForTarget(m: C.Module, target: string, command: string, data: Json, other: C.Module)
    requires other.name != target
    ensures !C.Accepts(other, C.SendEnvelope(m, target, command, data))
  {
  }

  // ---------------------------------------------------------------------
  // Log and heartbeat channels to the supervisor
  // ---------------------------------------------------------------------

  /** A module's log record with a non-blank text is printed by the
      supervisor under the record's timestamp and the module's name, with
      the text stripped; a blank one is dropped. */
  lemma LogRecordRelayed(m: C.Module, ts: string, level: string, text: string,
                         nowTs: string, show: Json -> string)
    ensures |Strip(text)| > 0 ==>
              S.ReadLog(Some(C.LogRecord(m, ts, level, JStr(text))), nowTs, show)
              == S.Printed(S.LogLine(ts, m.name, Strip(text)))
    ensures |Strip(text)| == 0 ==>
              S.ReadLog(Some(C.LogRecord(m, ts, level, JStr(text))), nowTs, show) == S.Skipped
  {
    var rec := C.LogRecord(m, ts, level, JStr(text));
    assert GetOr(rec.fields, "timestamp", JStr(nowTs)) == JStr(ts);
    assert GetOr(rec.fields, "sender", JStr("?")) == JStr(m.name);
    if |text| == 0 {
      assert Lookup(rec.fields, "message") == JStr("");
      assert Strip(text) == "" by { StripUnchanged(text); }
    } else {
      assert Lookup(rec.fields, "message") == JStr(text);
    }
  }

  /** A running module's heartbeat sets its last-seen time in the
      supervisor's map to the time it arrives, and nothing else. */
  lemma HeartbeatRecorded(m: C.Module, ts: string, hb: Dict<Key, int>, now: int)
    requires Valid(hb) && m.running && |m.name| > 0
    ensures var r := S.ReadHeartbeat(hb, C.HeartbeatRecord(m, ts), now);
            r.Some? && r.value.vals == hb.vals[KStr(m.name) := now]
  {
    var rec := C.HeartbeatRecord(m, ts);
    assert S.SenderOf(rec) == Some(JStr(m.name));
  }

  /** A stopped module sends no heartbeat, so the supervisor's map keeps its
      last time and the watchdog will eventually call it stale. */
  lemma StoppedModuleGoesQuiet(m: C.Module, ts: string)
    ensures C.HeartbeatRecord(C.Stop(m), ts) == None
  {
  }

  // ---------------------------------------------------------------------
  // Camera events to the display
  // ---------------------------------------------------------------------

  /** Once the display has registered, an AprilTag event from the camera
      process reaches the display's connection, registering the camera
      under its name on the way; the AprilTag screen then shows and records
      the first tag of the list. */
  lemma AprilTagEventShown(table: R.Table, display: R.Ident, camera: R.Ident,
                           raw1: seq<bv8>, raw2: seq<bv8>, ts: real, t: Json, rest: seq<Json>,
                           v: Tags.View, now: string, formats: Json -> bool)
    requires Tags.Inv(v)
    ensures var reg := Frame(raw1, Some(ScreenCommon.Registration()));
            var t1 := R.Step(table, display, reg).table;
            var ev := Bus.AprilTagEvent(ts, JArr([t] + rest));
            var frame := Frame(raw2, Some(ev));
            var r := R.Step(t1, camera, frame);
            R.Step(table, display, reg).sent == None &&
            r.sent == Some(R.Delivery(display, frame)) &&
            r.table[KStr(Bus.SenderName)] == camera &&
            Tags.Process(v, ev, now, formats) == Tags.UpdateTag(v, t, now, formats)
  {
    var reg := Frame(raw1, Some(ScreenCommon.Registration()));
    assert R.Registers(reg, KStr("DisplayManager"));
    var t1 := R.Step(table, display, reg).table;
    var ev := Bus.AprilTagEvent(ts, JArr([t] + rest));
    var frame := Frame(raw2, Some(ev));
    assert R.Registers(frame, KStr(Bus.SenderName));
    assert !R.Registers(frame, KStr(Bus.TargetName));
    assert R.TargetKey(frame) == Some(KStr(Bus.TargetName));
    assert ([t] + rest)[0] == t;
  }

  /** With the corrected publishing step, a frame's QR code reaches the QR
      screen, which shows the code's text and its offsets from the frame
      centre. */
  lemma QrCodeShown(v: Qr.View, ts: real, det: Option<QrDetect.Decoded>, cx: int, cy: int,
                    centre: seq<(int, int)> -> (real, real), now: string, parse: string -> Option<real>)
    requires det.Some? && |det.value.data| > 0 && det.value.corners.Some?
    ensures var fr := QrDetect.FrameCodes(det, cx, cy, centre);
            var sent := Bus.PublishQr(ts, JArr(fr.codes), true);
            var r := Qr.Process(v, sent.frame.value, now, parse);
            r.lastData == JStr(det.value.data) &&
            r.lastXY == (Qr.Num(fr.offset.0), Qr.Num(fr.offset.1)) &&
            r.texture && r.lastTime == Some(now)
  {
    var fr := QrDetect.FrameCodes(det, cx, cy, centre);
    var code := fr.codes[0];
    var msg := Bus.QrEvent(ts, JArr(fr.codes));
    assert Bus.PublishQr(ts, JArr(fr.codes), true).frame.value == msg;
    assert msg.fields["payload"].fields["codes"] == JArr(fr.codes);
    Qr.FirstObjectShown(v, msg, code.fields, now, parse);
    var off := code.fields["offset"];
    assert off == JArr([JNum(fr.offset.0), JNum(fr.offset.1)]);
    assert off.items[0] == JNum(fr.offset.0) && off.items[1] == JNum(fr.offset.1);
  }

  /** A frame without a code clears the QR screen's offsets and keeps its
      text. */
  lemma QrNothingSeen(v: Qr.View, ts: real, cx: int, cy: int,
                      centre: seq<(int, int)> -> (real, real), now: string, parse: string -> Option<real>)
    ensures var fr := QrDetect.FrameCodes(None, cx, cy, centre);
            Qr.Process(v, Bus.QrEvent(ts, JArr(fr.codes)), now, parse) == Qr.UpdateNoDetection(v)
  {
  }

  // ---------------------------------------------------------------------
  // Sonar readings to the display
  // ---------------------------------------------------------------------

  /** With the resender registered as `SONIC_MANAGER`, the sonar screen's
      subscription registers its connection as `DISPLAY` and the router
      forwards it, unchanged, to the resender; the resender records the
      subscriber and replies with its state addressed to `DISPLAY`; the
      router carries the reply back to the screen's connection; and the
      screen shows all eight readings. */
  lemma SonarReachesScreen(table: R.Table, screen: R.Ident, resender: R.Ident,
                           raw1: seq<bv8>, raw2: seq<bv8>, s: Sonar.Sonar,
                           v: Sonic.View, show: real -> string)
    requires KStr("SONIC_MANAGER") in table && table[KStr("SONIC_MANAGER")] == resender
    requires |s.values| == Sonar.SonicCount && v.listening
    ensures var sub := Frame(raw1, Some(Sonic.SubscribeMsg()));
            R.Step(table, screen, sub).sent == Some(R.Delivery(resender, sub))
    ensures var sub := Frame(raw1, Some(Sonic.SubscribeMsg()));
            var t1 := R.Step(table, screen, sub).table;
            var polled := Sonar.Poll(s, Some(Sonic.SubscribeMsg()));
            var reply := polled.1[0];
            var frame := Frame(raw2, Some(reply));
            var r := R.Step(t1, resender, frame);
            polled.0.subscribers == s.subscribers + {KStr("DISPLAY")} &&
            reply == Sonar.StateMsg(JStr("DISPLAY"), s) &&
            r.sent == Some(R.Delivery(screen, frame)) &&
            var w := Sonic.Listen(v, Some(reply), show);
            w.listening &&
            forall i :: 0 <= i < Sonic.Labels ==> w.labels[i] == Sonic.LabelText(i, show(s.values[i]))
  {
    var sub := Frame(raw1, Some(Sonic.SubscribeMsg()));
    assert R.Registers(sub, KStr("DISPLAY"));
    assert !R.Registers(sub, KStr("SONIC_MANAGER"));
    assert R.TargetKey(sub) == Some(KStr("SONIC_MANAGER"));
    var t1 := R.Step(table, screen, sub).table;
    var reply := Sonar.StateMsg(JStr("DISPLAY"), s);
    var frame := Frame(raw2, Some(reply));
    assert R.Registers(frame, KStr("SONIC_MANAGER"));
    assert !R.Registers(frame, KStr("DISPLAY"));
    assert R.TargetKey(frame) == Some(KStr("DISPLAY"));
    var sonics := reply.fields["data"].fields["sonics"];
    assert sonics.JArr? && |sonics.items| == Sonic.Labels;
    assert Truthy(sonics);
    assert forall i :: 0 <= i < Sonic.Labels ==> sonics.items[i] == JNum(s.values[i]);
  }

  // ---------------------------------------------------------------------
  // Logger lines in the log viewer
  // ---------------------------------------------------------------------

  /** An error line printed by the logger is shown in red by the log
      viewer, whatever its timestamp and message hold. */
  lemma ErrorLineShownRed(lg: Logger.Logger, ts: string, msg: string)
    ensures Contains(LogView.Colourise(Logger.Error(lg, ts, msg)), LogView.ErrorTag)
  {
    Logger.UpperIs("error", "ERROR");
    assert Logger.Error(lg, ts, msg) == ("[" + ts + "] ") + "[ERROR]" + (" " + msg);
    ContainsMiddle("[" + ts + "] ", "[ERROR]", " " + msg);
  }
}

=== FILE: json.dfy ===
/** Decoded JSON values as the Python processes see them after `json.loads`,
    the Python truthiness test on them, `dict.get`, and the hashing rules that
    decide which values can be dictionary keys or set members. */
module Json {
  import opened Wrappers

  /** A decoded JSON value. Python compares `1`, `1.0` and `True` as equal
      dictionary keys; integers and floats share the one numeric constructor. */
  datatype Json =
    | JNull
    | JBool(b: bool)
    | JNum(n: real)
    | JStr(s: string)
    | JArr(items: seq<Json>)
    | JObj(fields: map<string, Json>)

  /** Python's `bool(v)`. */
  predicate Truthy(j: Json) {
    match j
    case JNull => false
    case JBool(b) => b
    case JNum(n) => n != 0.0
    case JStr(s) => |s| > 0
    case JArr(a) => |a| > 0
    case JObj(o) => |o| > 0
  }

  /** `d.get(k)`: the value under `k`, or `None` when the key is missing. */
  function Lookup(o: map<string, Json>, k: string): Json {
    if k in o then o[k] else JNull
  }

  /** `d.get(k, default)`. */
  function GetOr(o: map<string, Json>, k: string, default: Json): Json {
    if k in o then o[k] else default
  }

  /** A hashable value used as a dictionary key or set member. Booleans hash
      and compare as the numbers 0 and 1. */
  datatype Key = KNull | KNum(n: real) | KStr(s: string)

  /** The key a value stands for, or `None` for the unhashable list and
      object values (using one as a key raises `TypeError`). */
  function KeyOf(j: Json): Option<Key> {
    match j
    case JNull => Some(KNull)
    case JBool(b) => Some(KNum(if b then 1.0 else 0.0))
    case JNum(n) => Some(KNum(n))
    case JStr(s) => Some(KStr(s))
    case JArr(_) => None
    case JObj(_) => None
  }

  /** The value a stored key is rendered back as, when it is put into an
      outgoing message. */
  function KeyValue(k: Key): (j: Json)
    ensures KeyOf(j) == Some(k)
  {
    match k
    case KNull => JNull
    case KNum(n) => JNum(n)
    case KStr(s) => JStr(s)
  }

  /** A message as it crosses a socket: the raw bytes and their JSON decoding,
      `None` when the bytes do not decode. Every party decodes the same bytes
      to the same value. */
  datatype Frame = Frame(raw: seq<bv8>, decoded: Option<Json>)

  /** Python's `str(v)` is only spelled out for strings; other values are
      rendered by `other`. */
  function PyStr(j: Json, other: Json -> string): string {
    if j.JStr? then j.s else other(j)
  }
}

=== FILE: led.dfy ===
/** The LED strip controller (`LedController` in
    LedStipManager/led_strip_manager.py): it keeps the strip's mode and
    colour, applies `SET MODE` and `SET COLOR` commands, forwards accepted
    commands to the serial link, and sends its state to whoever asks or
    subscribes. */
module Led {
  import opened Wrappers
  import opened Json
  import opened Text

  datatype Color = Color(r: int, g: int, b: int)

  /** The controller's state; `serialOpen` is whether the serial port is
      connected and open. */
  datatype Led = Led(mode: string, color: Color, subscribers: set<Key>, serialOpen: bool)

  /** A fresh controller: mode `IDLE`, white, nobody subscribed. */
  function Init(serialOpen: bool): (s: Led)
    ensures s.mode == "IDLE" && s.color == Color(255, 255, 255) && s.subscribers == {}
    ensures s.serialOpen == serialOpen
  {
    Led("IDLE", Color(255, 255, 255), {}, serialOpen)
  }

  /** `send_state_to(target)`: the current mode and colour, addressed to `target`. */
  function StateMsg(target: Json, s: Led): (m: Json)
    ensures m.JObj? && m.fields.Keys == {"sender", "target", "state"}
    ensures m.fields["sender"] == JStr("LED_CONTROLLER") && m.fields["target"] == target
    ensures m.fields["state"] == JObj(map["mode" := JStr(s.mode),
              "color" := JArr([JNum(s.color.r as real), JNum(s.color.g as real), JNum(s.color.b as real)])])
  {
    JObj(map[
      "sender" := JStr("LED_CONTROLLER"),
      "target" := target,
      "state" := JObj(map[
        "mode" := JStr(s.mode),
        "color" := JArr([JNum(s.color.r as real), JNum(s.color.g as real), JNum(s.color.b as real)])])])
  }

  /** `broadcast_state`: one state message per subscriber (the order of a
      set's iteration is not modelled). */
  function Broadcast(s: Led): (out: set<Json>)
    ensures forall k :: k in s.subscribers ==> StateMsg(KeyValue(k), s) in out
    ensures forall m :: m in out ==> exists k :: k in s.subscribers && m == StateMsg(KeyValue(k), s)
  {
    set k | k in s.subscribers :: StateMsg(KeyValue(k), s)
  }

  /** `write_serial(line)`: the stripped line and a newline, when the port is open. */
  function SerialWrite(s: Led, line: string): (w: Option<string>)
    ensures w.Some? <==> s.serialOpen
    ensures w.Some? ==> |w.value| > 0 && w.value[|w.value| - 1] == '\n' && w.value[..|w.value| - 1] == Strip(line)
  {
    if s.serialOpen then Some(Strip(line) + "\n") else None
  }

  datatype Note = Ignored | Replied | SetApplied | Warned | Caught

  /** What one message does: the new state, the direct replies, the
      broadcast, the serial line, and what was logged. */
  datatype Effects = Effects(led: Led, replies: seq<Json>, broadcast: set<Json>, serial: Option<string>, note: Note)

  /** The three colour components, when all of them parse as integers. */
  function ParseColor(parts: seq<string>): (c: Option<Color>)
    requires |parts| == 5
    ensures c.Some? <==> ParseInt(parts[2]).Some? && ParseInt(parts[3]).Some? && ParseInt(parts[4]).Some?
    ensures c.Some? ==> c.value == Color(ParseInt(parts[2]).value, ParseInt(parts[3]).value, ParseInt(parts[4]).value)
  {
    match (ParseInt(parts[2]), ParseInt(parts[3]), ParseInt(parts[4]))
    case (Some(r), Some(g), Some(b)) => Some(Color(r, g, b))
    case _ => None
  }

  /** An accepted command: the state changes, the serial link gets the line,
      and every subscriber gets the new state. */
  function Applied(s: Led, line: string): (e: Effects)
    ensures e.led == s && e.replies == [] && e.note == SetApplied
    ensures e.serial == SerialWrite(s, line) && e.broadcast == Broadcast(s)
  {
    Effects(s, [], Broadcast(s), SerialWrite(s, line), SetApplied)
  }

  /** `process_set_command(line)`. `SET MODE` needs at least three words and
      takes the third, upper-cased; `SET COLOR` needs exactly five and three
      integers, with no range check. A component that is not an integer
      raises out of the command (`Caught`), so nothing changes. */
  function ProcessSet(s: Led, line: string): (e: Effects)
    ensures e.note in {SetApplied, Warned, Caught}
    ensures e.note != SetApplied ==> e == Effects(s, [], {}, None, e.note)
    ensures e.note == SetApplied ==>
              e.led.subscribers == s.subscribers && e.led.serialOpen == s.serialOpen &&
              e.serial == SerialWrite(s, line) && e.broadcast == Broadcast(e.led) && e.replies == []
    ensures e.note == SetApplied ==> (e.led.mode == s.mode || e.led.color == s.color)
    ensures var parts := SplitWs(line);
            e.note == Warned <==>
              !(|parts| >= 3 && parts[0] == "SET" && parts[1] == "MODE") &&
              !(|parts| == 5 && parts[0] == "SET" && parts[1] == "COLOR")
  {
    var parts := SplitWs(line);
    if |parts| >= 3 && parts[0] == "SET" && parts[1] == "MODE" then
      Applied(s.(mode := Upper(parts[2])), line)
    else if |parts| == 5 && parts[0] == "SET" && parts[1] == "COLOR" then
      match ParseColor(parts)
      case Some(c) => Applied(s.(color := c), line)
      case None => Effects(s, [], {}, None, Caught)
    else Effects(s, [], {}, None, Warned)
  }

  /** One iteration of `handle_messenger`. An exception anywhere (a frame
      that does not decode, a non-object, an unhashable subscriber, a `data`
      without `split`, a bad colour) is caught and logged, and nothing changes. */
  function HandleMessage(s: Led, decoded: Option<Json>): (e: Effects)
    // no sender, no effect
    ensures decoded.Some? && decoded.value.JObj? && !Truthy(Lookup(decoded.value.fields, "sender")) ==>
              e == Effects(s, [], {}, None, Ignored)
    // GET_STATE from a truthy sender: the state goes back to that sender alone
    ensures decoded.Some? && decoded.value.JObj? && Truthy(Lookup(decoded.value.fields, "sender")) &&
            Lookup(decoded.value.fields, "cmd") == JStr("GET_STATE") ==>
              e == Effects(s, [StateMsg(Lookup(decoded.value.fields, "sender"), s)], {}, None, Replied)
    // SUBSCRIBE_STATE from a truthy sender: a hashable sender is added and sent
    // the new state; an unhashable one raises, which is caught
    ensures decoded.Some? && decoded.value.JObj? && Truthy(Lookup(decoded.value.fields, "sender")) &&
            Lookup(decoded.value.fields, "cmd") == JStr("SUBSCRIBE_STATE") ==>
              match KeyOf(Lookup(decoded.value.fields, "sender"))
              case Some(k) =>
                e.led == s.(subscribers := s.subscribers + {k}) &&
                e.replies == [StateMsg(Lookup(decoded.value.fields, "sender"), e.led)] && e.note == Replied
              case None => e == Effects(s, [], {}, None, Caught)
    // replies only ever go to the sender
    ensures forall m :: m in e.replies ==>
              (decoded.Some? && decoded.value.JObj? && m == StateMsg(Lookup(decoded.value.fields, "sender"), e.led))
    // only SUBSCRIBE_STATE touches the subscribers, and only by adding the sender
    ensures e.led.subscribers == s.subscribers ||
            (decoded.Some? && decoded.value.JObj? &&
             Lookup(decoded.value.fields, "cmd") == JStr("SUBSCRIBE_STATE") &&
             exists k :: KeyOf(Lookup(decoded.value.fields, "sender")) == Some(k) &&
                         e.led.subscribers == s.subscribers + {k})
    // only SET changes mode or colour
    ensures (e.led.mode != s.mode || e.led.color != s.color) ==>
              decoded.Some? && decoded.value.JObj? && Lookup(decoded.value.fields, "cmd") == JStr("SET")
    ensures e.led.serialOpen == s.serialOpen
  {
    match decoded
    case None => Effects(s, [], {}, None, Caught)
    case Some(msg) =>
      if !msg.JObj? then Effects(s, [], {}, None, Caught)
      else
        var sender := Lookup(msg.fields, "sender");
        var cmd := Lookup(msg.fields, "cmd");
        if !Truthy(sender) then Effects(s, [], {}, None, Ignored)
        else if cmd == JStr("GET_STATE") then Effects(s, [StateMsg(sender, s)], {}, None, Replied)
        else if cmd == JStr("SUBSCRIBE_STATE") then
          match KeyOf(sender)
          case None => Effects(s, [], {}, None, Caught)
          case Some(k) =>
            var s' := s.(subscribers := s.subscribers + {k});
            Effects(s', [StateMsg(sender, s')], {}, None, Replied)
        else if cmd == JStr("SET") then
          var data := GetOr(msg.fields, "data", JStr(""));
          if !data.JStr? then Effects(s, [], {}, None, Caught)
          else ProcessSet(s, data.s)
        else Effects(s, [], {}, None, Ignored)
  }

  /** A request from `sender` with command `cmd` and optional `data`. */
  function Request(sender: string, cmd: string, data: Option<string>): Json {
    JObj(if data.Some? then map["sender" := JStr(sender), "cmd" := JStr(cmd), "data" := JStr(data.value)]
         else map["sender" := JStr(sender), "cmd" := JStr(cmd)])
  }

  /** `GET_STATE` replies to the sender alone and subscribes nobody. */
  lemma GetStateReplies(s: Led, who: string)
    requires |who| > 0
    ensures HandleMessage(s, Some(Request(who, "GET_STATE", None)))
         == Effects(s, [StateMsg(JStr(who), s)], {}, None, Replied)
  {
    var msg := Request(who, "GET_STATE", None);
    assert Lookup(msg.fields, "sender") == JStr(who);
    assert Lookup(msg.fields, "cmd") == JStr("GET_STATE");
  }

  /** Subscribing adds the sender and replies with the state; subscribing
      again changes nothing further. */
  lemma SubscribeIdempotent(s: Led, who: string)
    requires |who| > 0
    ensures var first := HandleMessage(s, Some(Request(who, "SUBSCRIBE_STATE", None)));
            first.replies == [StateMsg(JStr(who), first.led)] &&
            first.led == s.(subscribers := s.subscribers + {KStr(who)})
    ensures var once := HandleMessage(s, Some(Request(who, "SUBSCRIBE_STATE", None))).led;
            once.subscribers == s.subscribers + {KStr(who)} &&
            HandleMessage(once, Some(Request(who, "SUBSCRIBE_STATE", None))).led == once
  {
    var msg := Request(who, "SUBSCRIBE_STATE", None);
    assert Lookup(msg.fields, "sender") == JStr(who);
    assert Lookup(msg.fields, "cmd") == JStr("SUBSCRIBE_STATE");
    assert "SUBSCRIBE_STATE" != "GET_STATE";
    assert KeyOf(JStr(who)) == Some(KStr(who));
  }

  /** A `SET` request hands its `data` line to `process_set_command`. */
  lemma SetDispatches(s: Led, who: string, line: string)
    requires |who| > 0
    ensures HandleMessage(s, Some(Request(who, "SET", Some(line)))) == ProcessSet(s, line)
  {
    var fields := map["sender" := JStr(who), "cmd" := JStr("SET"), "data" := JStr(line)];
    assert Request(who, "SET", Some(line)) == JObj(fields);
    assert Lookup(fields, "sender") == JStr(who) && Truthy(JStr(who));
    assert Lookup(fields, "cmd") == JStr("SET");
    assert |"SET"| != |"GET_STATE"| && |"SET"| != |"SUBSCRIBE_STATE"|;
    assert GetOr(fields, "data", JStr("")) == JStr(line);
  }

  /** `SET MODE m ...` sets the mode to `m` upper-cased, ignores any further
      words and keeps the colour. */
  lemma SetModeRoundTrip(s: Led, m: string, extra: seq<string>)
    requires |m| > 0 && NoSpace(m)
    requires forall i :: 0 <= i < |extra| ==> |extra[i]| > 0 && NoSpace(extra[i])
    ensures var e := ProcessSet(s, JoinWith(["SET", "MODE", m] + extra, ' '));
            e.note == SetApplied && e.led == s.(mode := Upper(m))
  {
    var words := ["SET", "MODE", m] + extra;
    assert forall i :: 0 <= i < |words| ==> |words[i]| > 0 && NoSpace(words[i]);
    SplitWsJoin(words);
  }

  /** `SET COLOR r g b` with integers written out in decimal sets exactly that
      colour, out of the 0-255 range or not, and keeps the mode. */
  lemma SetColorRoundTrip(s: Led, r: int, g: int, b: int)
    ensures var line := JoinWith(["SET", "COLOR", IntToString(r), IntToString(g), IntToString(b)], ' ');
            var e := ProcessSet(s, line);
            e.note == SetApplied && e.led == s.(color := Color(r, g, b))
  {
    var words := ["SET", "COLOR", IntToString(r), IntToString(g), IntToString(b)];
    ColourLineWords(r, g, b);
    assert ParseColor(words) == Some(Color(r, g, b)) by {
      ParseIntRoundTrip(r);
      ParseIntRoundTrip(g);
      ParseIntRoundTrip(b);
    }
    assert words[1] != "MODE";
  }

  /** The words of a `SET COLOR` line written out from three integers. */
  lemma ColourLineWords(r: int, g: int, b: int)
    ensures var words := ["SET", "COLOR", IntToString(r), IntToString(g), IntToString(b)];
            SplitWs(JoinWith(words, ' ')) == words
  {
    var words := ["SET", "COLOR", IntToString(r), IntToString(g), IntToString(b)];
    IntToStringIsWord(r);
    IntToStringIsWord(g);
    IntToStringIsWord(b);
    assert forall i :: 0 <= i < |words| ==> |words[i]| > 0 && NoSpace(words[i]);
    SplitWsJoin(words);
  }

  /** A colour component that is not an integer changes nothing and sends nothing. */
  lemma BadColorChangesNothing(s: Led, r: string)
    requires |r| > 0 && NoSpace(r) && ParseInt(r).None?
    ensures ProcessSet(s, JoinWith(["SET", "COLOR", r, "0", "0"], ' ')) == Effects(s, [], {}, None, Caught)
  {
    var words := ["SET", "COLOR", r, "0", "0"];
    assert SplitWs(JoinWith(words, ' ')) == words by {
      assert forall i :: 0 <= i < |words| ==> |words[i]| > 0 && NoSpace(words[i]);
      SplitWsJoin(words);
    }
    assert ParseColor(words) == None;
    assert words[1] != "MODE";
  }

  /** After an accepted command every subscriber receives the new state. */
  lemma SubscribersHearSet(s: Led, line: string, k: Key)
    requires k in s.subscribers && ProcessSet(s, line).note == SetApplied
    ensures StateMsg(KeyValue(k), ProcessSet(s, line).led) in ProcessSet(s, line).broadcast
  {
  }
}

=== FILE: logger.dfy ===
/** The console logger every process uses (`Logger` in LoggerManager/logger.py). */
module Logger {
  import opened Text

  /** The logger keeps its name but never prints it. */
  datatype Logger = Logger(name: string)

  /** The one line `_log` prints: `[ts] [LEVEL] message`. */
  function Line(ts: string, level: string, message: string): (line: string)
    ensures StartsWith(line, "[" + ts + "] ")
    ensures StartsWith(line, "[" + ts + "] [" + Upper(level) + "] ")
    ensures Contains(line, "[" + Upper(level) + "]")
    ensures |line| >= |message| && line[|line| - |message|..] == message
    // nothing else: the head is followed directly by the message
    ensures |line| == |"[" + ts + "] [" + Upper(level) + "] "| + |message|
  {
    var a := "[" + ts + "] ";
    var tok := "[" + Upper(level) + "]";
    var b := " " + message;
    ContainsMiddle(a, tok, b);
    assert (a + tok + b)[..|a|] == a;
    assert a + tok + b == a + "[" + Upper(level) + "] " + message;
    assert (a + tok + b)[..|a + tok + " "|] == a + tok + " ";
    assert a + tok + " " == "[" + ts + "] [" + Upper(level) + "] ";
    a + tok + b
  }

  function Info(lg: Logger, ts: string, msg: string): (line: string)
    ensures Contains(line, "[INFO]")
  {
    UpperIs("info", "INFO");
    assert "[" + Upper("info") + "]" == "[INFO]";
    Line(ts, "info", msg)
  }

  function Warn(lg: Logger, ts: string, msg: string): (line: string)
    ensures Contains(line, "[WARN]")
  {
    UpperIs("warn", "WARN");
    assert "[" + Upper("warn") + "]" == "[WARN]";
    Line(ts, "warn", msg)
  }

  function Error(lg: Logger, ts: string, msg: string): (line: string)
    ensures Contains(line, "[ERROR]")
  {
    UpperIs("error", "ERROR");
    assert "[" + Upper("error") + "]" == "[ERROR]";
    Line(ts, "error", msg)
  }

  function Debug(lg: Logger, ts: string, msg: string): (line: string)
    ensures Contains(line, "[DEBUG]")
  {
    UpperIs("debug", "DEBUG");
    assert "[" + Upper("debug") + "]" == "[DEBUG]";
    Line(ts, "debug", msg)
  }

  /** The level methods differ only in the level they print, and the
      logger's name never appears: two loggers print the same line. */
  lemma NameIrrelevant(a: Logger, b: Logger, ts: string, msg: string)
    ensures Info(a, ts, msg) == Info(b, ts, msg) && Warn(a, ts, msg) == Warn(b, ts, msg)
    ensures Error(a, ts, msg) == Error(b, ts, msg) && Debug(a, ts, msg) == Debug(b, ts, msg)
  {
  }

  /** The level token is the upper-cased level, whatever case the caller used. */
  lemma LevelCaseInsensitive(ts: string, msg: string)
    ensures Line(ts, "Info", msg) == Line(ts, "info", msg) == Line(ts, "INFO", msg)
  {
    UpperIs("Info", "INFO");
    UpperIs("info", "INFO");
    UpperIs("INFO", "INFO");
  }

  /** `s.upper() == t`, checked character by character. */
  lemma UpperIs(s: string, t: string)
    requires |s| == |t| && forall i :: 0 <= i < |s| ==> UpperChar(s[i]) == t[i]
    ensures Upper(s) == t
  {
  }
}

=== FILE: logview.dfy ===
/** The log viewer's text (`load_text` in
    DisplayManager/Screens/base_log_screen.py): the last 500 lines of a log
    file, each with its level tokens wrapped in colour markup. */
module LogView {
  import opened Wrappers
  import opened Text

  /** At most this many lines are shown. */
  const MaxLines: nat := 500

  const ErrorTag: string := "[color=#ff5555][ERROR][/color]"
  const WarnTag: string := "[color=#ffaa00][WARN][/color]"
  const DebugTag: string := "[color=#55aaff][DEBUG][/color]"
  const InfoTag: string := "[color=#55ff55][INFO][/color]"

  /** `s[-n:]`: the last `n` elements, or all of them when there are fewer. */
  function Tail<T>(s: seq<T>, n: nat): (r: seq<T>)
    ensures |r| == (if |s| < n then |s| else n)
    ensures r == s[|s| - |r|..]
  {
    if |s| <= n then s else s[|s| - n..]
  }

  /** The colour rewrite of one line. Which tokens are coloured is decided on
      the lower-cased original line; the replacement only matches the exact
      upper-case token, every occurrence of it. */
  function Colourise(line: string): (r: string)
    // the lower-case detection never holds a rewrite back: the result is
    // every exact token of each level replaced by its markup, level by level
    ensures r == ReplaceAll(ReplaceAll(ReplaceAll(ReplaceAll(line, "[ERROR]", ErrorTag),
                   "[WARN]", WarnTag), "[DEBUG]", DebugTag), "[INFO]", InfoTag)
    ensures '\n' !in line ==> '\n' !in r
    ensures (!Contains(line, "[ERROR]") && !Contains(line, "[WARN]") &&
             !Contains(line, "[DEBUG]") && !Contains(line, "[INFO]")) ==> r == line
    // every exact token the line holds comes out in its colour markup,
    // whichever other tokens share the line
    ensures Contains(line, "[ERROR]") ==> Contains(r, ErrorTag)
    ensures Contains(line, "[WARN]") ==> Contains(r, WarnTag)
    ensures Contains(line, "[DEBUG]") ==> Contains(r, DebugTag)
    ensures Contains(line, "[INFO]") ==> Contains(r, InfoTag)
  {
    var low := Lower(line);
    var l1 := Recolour(line, low, "[error]", "[ERROR]", ErrorTag);
    var l2 := Recolour(l1, low, "[warn]", "[WARN]", WarnTag);
    var l3 := Recolour(l2, low, "[debug]", "[DEBUG]", DebugTag);
    var l4 := Recolour(l3, low, "[info]", "[INFO]", InfoTag);
    StagesShape(line, low, l1, l2, l3, l4);
    StagesColour(line, low, l1, l2, l3, l4);
    StagesReplace(line, low, l1, l2, l3, l4);
    l4
  }

  /** The four rewrite stages of `Colourise`, in order. */
  predicate Stages(line: string, low: string, l1: string, l2: string, l3: string, l4: string) {
    low == Lower(line) &&
    l1 == Recolour(line, low, "[error]", "[ERROR]", ErrorTag) &&
    l2 == Recolour(l1, low, "[warn]", "[WARN]", WarnTag) &&
    l3 == Recolour(l2, low, "[debug]", "[DEBUG]", DebugTag) &&
    l4 == Recolour(l3, low, "[info]", "[INFO]", InfoTag)
  }

  /** The stages add no line break, and change nothing when no exact token
      is present. */
  lemma StagesShape(line: string, low: string, l1: string, l2: string, l3: string, l4: string)
    requires Stages(line, low, l1, l2, l3, l4)
    ensures '\n' !in line ==> '\n' !in l4
    ensures (!Contains(line, "[ERROR]") && !Contains(line, "[WARN]") &&
             !Contains(line, "[DEBUG]") && !Contains(line, "[INFO]")) ==> l4 == line
  {
    WarmTagsOneLine();
    CoolTagsOneLine();
  }

  /** No colour markup holds a line break. */
  lemma WarmTagsOneLine()
    ensures '\n' !in ErrorTag && '\n' !in WarnTag
  {
  }

  lemma CoolTagsOneLine()
    ensures '\n' !in DebugTag && '\n' !in InfoTag
  {
  }

  /** The markup of each token present survives the last stage. */
  lemma StagesColour(line: string, low: string, l1: string, l2: string, l3: string, l4: string)
    requires Stages(line, low, l1, l2, l3, l4)
    ensures Contains(line, "[ERROR]") ==> Contains(l4, ErrorTag)
    ensures Contains(line, "[WARN]") ==> Contains(l4, WarnTag)
    ensures Contains(line, "[DEBUG]") ==> Contains(l4, DebugTag)
    ensures Contains(line, "[INFO]") ==> Contains(l4, InfoTag)
  {
    if Contains(line, "[ERROR]") { ErrorStaysRed(line, low, l1, l2, l3, l4); }
    if Contains(line, "[WARN]") { WarnStaysAmber(line, low, l1, l2, l3, l4); }
    if Contains(line, "[DEBUG]") { DebugStaysBlue(line, low, l1, l2, l3, l4); }
    if Contains(line, "[INFO]") { InfoStaysGreen(line, low, l1, l2, l3, l4); }
  }

  /** One token's rewrite: when the lower-cased line `low` holds `lowTok`,
      every exact `tok` in `l` becomes `tag`. */
  function Recolour(l: string, low: string, lowTok: string, tok: string, tag: string): (r: string)
    requires |tok| > 0
    ensures '\n' !in l && '\n' !in tag ==> '\n' !in r
    ensures !Contains(l, tok) ==> r == l
    ensures Contains(low, lowTok) ==> r == ReplaceAll(l, tok, tag)
    ensures !Contains(low, lowTok) ==> r == l
  {
    ReplaceFacts(l, tok, tag);
    if Contains(low, lowTok) then ReplaceAll(l, tok, tag) else l
  }

  lemma ReplaceFacts(l: string, tok: string, tag: string)
    requires |tok| > 0
    ensures '\n' !in l && '\n' !in tag ==> '\n' !in ReplaceAll(l, tok, tag)
    ensures !Contains(l, tok) ==> ReplaceAll(l, tok, tag) == l
  {
    if '\n' !in l && '\n' !in tag {
      ReplaceWithoutChar(l, tok, tag, '\n');
    }
    if !Contains(l, tok) {
      ReplaceAbsent(l, tok, tag);
    }
  }

  /** `t in s` carries over to the lower-cased strings. */
  lemma {:induction false} ContainsLower(s: string, t: string)
    requires Contains(s, t)
    ensures Contains(Lower(s), Lower(t))
    decreases |s|
  {
    if StartsWith(s, t) {
      assert Lower(s)[..|t|] == Lower(t);
    } else {
      ContainsLower(s[1..], t);
      assert Lower(s)[1..] == Lower(s[1..]);
    }
  }

  lemma LowerIs(s: string, t: string)
    requires |s| == |t| && forall i :: 0 <= i < |s| ==> LowerChar(s[i]) == t[i]
    ensures Lower(s) == t
  {
  }

  /** An exact `[INFO]` token is detected by the lower-case test. */
  lemma InfoDetected(line: string)
    requires Contains(line, "[INFO]")
    ensures Contains(Lower(line), "[info]")
  {
    ContainsLower(line, "[INFO]");
    LowerIs("[INFO]", "[info]");
  }

  /** An exact `[ERROR]` token is detected by the lower-case test. */
  lemma ErrorDetected(line: string)
    requires Contains(line, "[ERROR]")
    ensures Contains(Lower(line), "[error]")
  {
    ContainsLower(line, "[ERROR]");
    LowerIs("[ERROR]", "[error]");
  }

  /** An exact `[WARN]` token is detected by the lower-case test. */
  lemma WarnDetected(line: string)
    requires Contains(line, "[WARN]")
    ensures Contains(Lower(line), "[warn]")
  {
    ContainsLower(line, "[WARN]");
    LowerIs("[WARN]", "[warn]");
  }

  /** An exact `[DEBUG]` token is detected by the lower-case test. */
  lemma DebugDetected(line: string)
    requires Contains(line, "[DEBUG]")
    ensures Contains(Lower(line), "[debug]")
  {
    ContainsLower(line, "[DEBUG]");
    LowerIs("[DEBUG]", "[debug]");
  }

  /** An exact token is always detected by the lower-case test. */
  lemma DetectAll(line: string)
    ensures Contains(line, "[ERROR]") ==> Contains(Lower(line), "[error]")
    ensures Contains(line, "[WARN]") ==> Contains(Lower(line), "[warn]")
    ensures Contains(line, "[DEBUG]") ==> Contains(Lower(line), "[debug]")
    ensures Contains(line, "[INFO]") ==> Contains(Lower(line), "[info]")
  {
    if Contains(line, "[ERROR]") { ErrorDetected(line); }
    if Contains(line, "[WARN]") { WarnDetected(line); }
    if Contains(line, "[DEBUG]") { DebugDetected(line); }
    if Contains(line, "[INFO]") { InfoDetected(line); }
  }

  /** A stage whose exact token, when present, is detected is a plain
      replacement of every occurrence. */
  lemma StageIsReplace(l: string, low: string, lowTok: string, tok: string, tag: string)
    requires |tok| > 0 && (Contains(l, tok) ==> Contains(low, lowTok))
    ensures Recolour(l, low, lowTok, tok, tag) == ReplaceAll(l, tok, tag)
  {
  }

  /** The earlier markups create no `[WARN]` or `[DEBUG]` the line lacked. */
  lemma WarmStagesAddNone(line: string)
    ensures var l1 := ReplaceAll(line, "[ERROR]", ErrorTag);
            (!Contains(line, "[WARN]") ==> !Contains(l1, "[WARN]")) &&
            (!Contains(line, "[DEBUG]") ==> !Contains(ReplaceAll(l1, "[WARN]", WarnTag), "[DEBUG]"))
  {
    var l1 := ReplaceAll(line, "[ERROR]", ErrorTag);
    if !Contains(line, "[WARN]") {
      WarnApartFromRed();
      ReplaceAddsNone(line, "[ERROR]", ErrorTag, "[WARN]", 'W');
    }
    if !Contains(line, "[DEBUG]") {
      DebugApartFromRed();
      WarnTagSurvivesDebug();
      ReplaceAddsNone(line, "[ERROR]", ErrorTag, "[DEBUG]", 'D');
      ReplaceAddsNone(l1, "[WARN]", WarnTag, "[DEBUG]", 'D');
    }
  }

  /** The earlier markups create no `[INFO]` the line lacked. */
  lemma CoolStagesAddNone(line: string)
    ensures var l3 := ReplaceAll(ReplaceAll(ReplaceAll(line, "[ERROR]", ErrorTag), "[WARN]", WarnTag), "[DEBUG]", DebugTag);
            !Contains(line, "[INFO]") ==> !Contains(l3, "[INFO]")
  {
    if !Contains(line, "[INFO]") {
      var l1 := ReplaceAll(line, "[ERROR]", ErrorTag);
      var l2 := ReplaceAll(l1, "[WARN]", WarnTag);
      InfoApartFromRed();
      WarnTagSurvivesInfo();
      DebugTagSurvivesInfo();
      ReplaceAddsNone(line, "[ERROR]", ErrorTag, "[INFO]", 'I');
      ReplaceAddsNone(l1, "[WARN]", WarnTag, "[INFO]", 'I');
      ReplaceAddsNone(l2, "[DEBUG]", DebugTag, "[INFO]", 'I');
    }
  }

  /** Each stage of `Colourise` is a plain replacement of its token. */
  lemma StagesReplace(line: string, low: string, l1: string, l2: string, l3: string, l4: string)
    requires Stages(line, low, l1, l2, l3, l4)
    ensures l4 == ReplaceAll(ReplaceAll(ReplaceAll(ReplaceAll(line, "[ERROR]", ErrorTag),
                    "[WARN]", WarnTag), "[DEBUG]", DebugTag), "[INFO]", InfoTag)
  {
    DetectAll(line);
    WarmStagesAddNone(line);
    CoolStagesAddNone(line);
    StageIsReplace(line, low, "[error]", "[ERROR]", ErrorTag);
    StageIsReplace(l1, low, "[warn]", "[WARN]", WarnTag);
    StageIsReplace(l2, low, "[debug]", "[DEBUG]", DebugTag);
    StageIsReplace(l3, low, "[info]", "[INFO]", InfoTag);
  }

  /** A line whose only level token is `[INFO]`: the other rewrites do not
      fire, and the result holds the green `[INFO]` markup. */
  lemma InfoColoured(line: string)
    requires Contains(line, "[INFO]")
    requires !Contains(Lower(line), "[error]") && !Contains(Lower(line), "[warn]") && !Contains(Lower(line), "[debug]")
    ensures Colourise(line) == ReplaceAll(line, "[INFO]", InfoTag)
    ensures Contains(Colourise(line), InfoTag)
  {
    var low := Lower(line);
    InfoDetected(line);
    var l1 := Recolour(line, low, "[error]", "[ERROR]", ErrorTag);
    assert l1 == line;
    var l2 := Recolour(l1, low, "[warn]", "[WARN]", WarnTag);
    assert l2 == line;
    var l3 := Recolour(l2, low, "[debug]", "[DEBUG]", DebugTag);
    assert l3 == line;
    assert Colourise(line) == Recolour(l3, low, "[info]", "[INFO]", InfoTag);
    ReplacePresent(line, "[INFO]", InfoTag);
  }

  /** A line whose only level token is `[ERROR]`: it is coloured red. */
  lemma ErrorColoured(line: string)
    requires Contains(line, "[ERROR]")
    requires !Contains(Lower(line), "[warn]") && !Contains(Lower(line), "[debug]") && !Contains(Lower(line), "[info]")
    ensures Colourise(line) == ReplaceAll(line, "[ERROR]", ErrorTag)
    ensures Contains(Colourise(line), ErrorTag)
  {
    var low := Lower(line);
    ErrorDetected(line);
    var l1 := Recolour(line, low, "[error]", "[ERROR]", ErrorTag);
    assert l1 == ReplaceAll(line, "[ERROR]", ErrorTag);
    var l2 := Recolour(l1, low, "[warn]", "[WARN]", WarnTag);
    assert l2 == l1;
    var l3 := Recolour(l2, low, "[debug]", "[DEBUG]", DebugTag);
    assert l3 == l1;
    assert Colourise(line) == Recolour(l3, low, "[info]", "[INFO]", InfoTag);
    ReplacePresent(line, "[ERROR]", ErrorTag);
  }

  /** None of the later tokens can overlap the red markup. */
  lemma WarnApartFromRed()
    ensures Apart(ErrorTag, "[WARN]", 'W')
  {
  }

  lemma DebugApartFromRed()
    ensures Apart(ErrorTag, "[DEBUG]", 'D')
  {
  }

  lemma InfoApartFromRed()
    ensures Apart(ErrorTag, "[INFO]", 'I')
  {
  }

  /** A rewrite whose token cannot overlap `t` keeps `t`. */
  lemma RecolourKeeps(l: string, low: string, lowTok: string, tok: string, tag: string, t: string, w: char)
    requires Apart(t, tok, w) && Contains(l, t)
    ensures Contains(Recolour(l, low, lowTok, tok, tag), t)
  {
    ReplaceKeeps(l, tok, tag, t, w);
  }

  /** A rewrite that fires on a line holding its token puts its markup in. */
  lemma RecolourApplies(l: string, low: string, lowTok: string, tok: string, tag: string)
    requires |tok| > 0 && Contains(l, tok) && Contains(low, lowTok)
    ensures Contains(Recolour(l, low, lowTok, tok, tag), tag)
  {
    ReplacePresent(l, tok, tag);
  }

  /** The `[WARN]` token survives the `[ERROR]` rewrite, and its markup the
      later ones. */
  lemma WarnSurvivesError()
    ensures Apart("[WARN]", "[ERROR]", 'E')
  {
  }

  lemma WarnTagSurvivesDebug()
    ensures Apart(WarnTag, "[DEBUG]", 'D')
  {
  }

  lemma WarnTagSurvivesInfo()
    ensures Apart(WarnTag, "[INFO]", 'I')
  {
  }

  /** The `[DEBUG]` token survives the earlier rewrites, and its markup the
      `[INFO]` one. */
  lemma DebugSurvivesEarlier()
    ensures Apart("[DEBUG]", "[ERROR]", 'R') && Apart("[DEBUG]", "[WARN]", 'W')
  {
  }

  lemma DebugTagSurvivesInfo()
    ensures Apart(DebugTag, "[INFO]", 'I')
  {
  }

  /** The `[INFO]` token survives the three earlier rewrites. */
  lemma InfoSurvivesEarlier()
    ensures Apart("[INFO]", "[ERROR]", 'E') && Apart("[INFO]", "[WARN]", 'W') && Apart("[INFO]", "[DEBUG]", 'D')
  {
  }

  /** A line holding an exact `[ERROR]` still holds the red markup after the
      last stage, whatever other level tokens it holds: the rewrites before
      its own cannot overlap the token, and those after cannot overlap the
      markup. */
  lemma ErrorStaysRed(line: string, low: string, l1: string, l2: string, l3: string, l4: string)
    requires Stages(line, low, l1, l2, l3, l4) && Contains(line, "[ERROR]")
    ensures Contains(l4, ErrorTag)
  {
    ErrorDetected(line);
    RecolourApplies(line, low, "[error]", "[ERROR]", ErrorTag);
    WarnApartFromRed();
    RecolourKeeps(l1, low, "[warn]", "[WARN]", WarnTag, ErrorTag, 'W');
    DebugApartFromRed();
    RecolourKeeps(l2, low, "[debug]", "[DEBUG]", DebugTag, ErrorTag, 'D');
    InfoApartFromRed();
    RecolourKeeps(l3, low, "[info]", "[INFO]", InfoTag, ErrorTag, 'I');
  }

  /** A line holding an exact `[WARN]` still holds the amber markup after the
      last stage, whatever other level tokens it holds: the rewrites before
      its own cannot overlap the token, and those after cannot overlap the
      markup. */
  lemma WarnStaysAmber(line: string, low: string, l1: string, l2: string, l3: string, l4: string)
    requires Stages(line, low, l1, l2, l3, l4) && Contains(line, "[WARN]")
    ensures Contains(l4, WarnTag)
  {
    WarnDetected(line);
    WarnSurvivesError();
    RecolourKeeps(line, low, "[error]", "[ERROR]", ErrorTag, "[WARN]", 'E');
    RecolourApplies(l1, low, "[warn]", "[WARN]", WarnTag);
    WarnTagSurvivesDebug();
    RecolourKeeps(l2, low, "[debug]", "[DEBUG]", DebugTag, WarnTag, 'D');
    WarnTagSurvivesInfo();
    RecolourKeeps(l3, low, "[info]", "[INFO]", InfoTag, WarnTag, 'I');
  }

  /** A line holding an exact `[DEBUG]` still holds the blue markup after the
      last stage, whatever other level tokens it holds: the rewrites before
      its own cannot overlap the token, and those after cannot overlap the
      markup. */
  lemma DebugStaysBlue(line: string, low: string, l1: string, l2: string, l3: string, l4: string)
    requires Stages(line, low, l1, l2, l3, l4) && Contains(line, "[DEBUG]")
    ensures Contains(l4, DebugTag)
  {
    DebugDetected(line);
    DebugSurvivesEarlier();
    RecolourKeeps(line, low, "[error]", "[ERROR]", ErrorTag, "[DEBUG]", 'R');
    RecolourKeeps(l1, low, "[warn]", "[WARN]", WarnTag, "[DEBUG]", 'W');
    RecolourApplies(l2, low, "[debug]", "[DEBUG]", DebugTag);
    DebugTagSurvivesInfo();
    RecolourKeeps(l3, low, "[info]", "[INFO]", InfoTag, DebugTag, 'I');
  }

  /** A line holding an exact `[INFO]` still holds the green markup after the
      last stage, whatever other level tokens it holds: the rewrites before
      its own cannot overlap the token, and those after cannot overlap the
      markup. */
  lemma InfoStaysGreen(line: string, low: string, l1: string, l2: string, l3: string, l4: string)
    requires Stages(line, low, l1, l2, l3, l4) && Contains(line, "[INFO]")
    ensures Contains(l4, InfoTag)
  {
    InfoDetected(line);
    InfoSurvivesEarlier();
    RecolourKeeps(line, low, "[error]", "[ERROR]", ErrorTag, "[INFO]", 'E');
    RecolourKeeps(l1, low, "[warn]", "[WARN]", WarnTag, "[INFO]", 'W');
    RecolourKeeps(l2, low, "[debug]", "[DEBUG]", DebugTag, "[INFO]", 'D');
    RecolourApplies(l3, low, "[info]", "[INFO]", InfoTag);
  }

  /** Detection ignores case but replacement does not: a lower-case token is
      detected and left as it is. */
  lemma LowerCaseTokenUnchanged()
    ensures Colourise("x [error] y") == "x [error] y"
  {
    NoUpperTokens("x [error] y");
  }

  /** A line without the capitals E, W, D and I holds none of the exact tokens. */
  lemma NoUpperTokens(line: string)
    requires 'E' !in line && 'W' !in line && 'D' !in line && 'I' !in line
    ensures !Contains(line, "[ERROR]") && !Contains(line, "[WARN]")
    ensures !Contains(line, "[DEBUG]") && !Contains(line, "[INFO]")
  {
    NoChar(line, "[ERROR]", 'E');
    NoChar(line, "[WARN]", 'W');
    NoChar(line, "[DEBUG]", 'D');
    NoChar(line, "[INFO]", 'I');
  }

  /** The colour rewrite of every line, in order. */
  function ColouriseAll(lines: seq<string>): (r: seq<string>)
    ensures |r| == |lines|
    ensures forall i :: 0 <= i < |lines| ==> r[i] == Colourise(lines[i])
  {
    seq(|lines|, i requires 0 <= i < |lines| => Colourise(lines[i]))
  }

  /** The text shown for the outcome of reading the log file: the coloured
      last 500 lines joined by newlines, or one red error line when the read
      failed with message `e`. */
  function LoadText(read: Result<string, string>): (text: string)
    ensures read.Err? ==> text == "[color=#ff0000]Failed to read log file: " + read.error + "[/color]"
  {
    match read
    case Err(e) => "[color=#ff0000]Failed to read log file: " + e + "[/color]"
    case Ok(raw) => JoinWith(ColouriseAll(Tail(SplitOn(raw, '\n'), MaxLines)), '\n')
  }

  /** The shown text splits back into the coloured last lines of the file:
      min(500, number of lines) of them, in the file's order. */
  lemma LoadTextLines(raw: string)
    ensures var lines := SplitOn(raw, '\n');
            var shown := SplitOn(LoadText(Ok(raw)), '\n');
            shown == ColouriseAll(Tail(lines, MaxLines)) &&
            |shown| == (if |lines| < MaxLines then |lines| else MaxLines) &&
            |lines| == CountChar(raw, '\n') + 1
  {
    var lines := SplitOn(raw, '\n');
    var tail := Tail(lines, MaxLines);
    var coloured := ColouriseAll(tail);
    assert forall i :: 0 <= i < |tail| ==> tail[i] == lines[|lines| - |tail| + i];
    assert forall i :: 0 <= i < |coloured| ==> '\n' !in coloured[i];
    if |coloured| > 0 {
      SplitJoin(coloured, '\n');
    }
    SplitCount(raw, '\n');
  }
}

=== FILE: ordered.dfy ===
/** Python's insertion-ordered `dict`: assigning to a present key overwrites
    its value in place, assigning to a new key appends it at the end, and
    iteration follows insertion order. */
module OrderedMap {

  datatype Dict<K(==,!new), V> = Dict(keys: seq<K>, vals: map<K, V>)

  /** The keys are distinct and are exactly the keys of the entries. */
  ghost predicate Valid<K(!new), V>(d: Dict<K, V>) {
    (forall i, j :: 0 <= i < j < |d.keys| ==> d.keys[i] != d.keys[j]) &&
    (forall k :: k in d.vals <==> k in d.keys)
  }

  function Empty<K(==,!new), V>(): (d: Dict<K, V>)
    ensures Valid(d) && |d.keys| == 0 && d.vals == map[]
  {
    Dict([], map[])
  }

  /** `d[k] = v`. */
  function Put<K(==,!new), V>(d: Dict<K, V>, k: K, v: V): (r: Dict<K, V>)
    requires Valid(d)
    ensures Valid(r)
    ensures r.vals == d.vals[k := v]
    ensures k in d.vals ==> r.keys == d.keys
    ensures k !in d.vals ==> r.keys == d.keys + [k]
  {
    if k in d.vals then Dict(d.keys, d.vals[k := v])
    else Dict(d.keys + [k], d.vals[k := v])
  }

  /** The position of a key in iteration order. */
  function IndexOf<K(==)>(s: seq<K>, k: K): (i: nat)
    requires k in s
    ensures i < |s| && s[i] == k
    ensures forall j :: 0 <= j < i ==> s[j] != k
  {
    if s[0] == k then 0 else 1 + IndexOf(s[1..], k)
  }

  /** The keys of `d` that satisfy `p`, in iteration order. */
  function FilterKeys<K(==,!new), V>(d: Dict<K, V>, p: K -> bool): (r: seq<K>)
    requires Valid(d)
    ensures forall k :: k in r <==> k in d.vals && p(k)
    ensures SubsequenceOf(r, d.keys)
  {
    FilterSeqOrder(d.keys, p);
    FilterSeq(d.keys, p)
  }

  function FilterSeq<K(==,!new)>(s: seq<K>, p: K -> bool): (r: seq<K>)
    ensures forall k :: k in r <==> k in s && p(k)
    ensures |r| <= |s|
    decreases |s|
  {
    if |s| == 0 then []
    else
      var rest := FilterSeq(s[..|s| - 1], p);
      assert forall k :: k in s <==> k in s[..|s| - 1] || k == s[|s| - 1];
      if p(s[|s| - 1]) then rest + [s[|s| - 1]] else rest
  }

  /** `r` lists distinct elements of `s` in the order they occur in `s`. */
  ghost predicate SubsequenceOf<K>(r: seq<K>, s: seq<K>) {
    (forall x :: x in r ==> x in s) &&
    (forall i, j :: 0 <= i < j < |r| ==> r[i] != r[j] && IndexOf(s, r[i]) < IndexOf(s, r[j]))
  }

  /** Filtering keeps distinct elements distinct and keeps their relative order. */
  lemma {:induction false} FilterSeqOrder<K(!new)>(s: seq<K>, p: K -> bool)
    requires forall i, j :: 0 <= i < j < |s| ==> s[i] != s[j]
    ensures SubsequenceOf(FilterSeq(s, p), s)
    decreases |s|
  {
    if |s| > 0 {
      var front := s[..|s| - 1];
      FilterSeqOrder(front, p);
      var rest := FilterSeq(front, p);
      var r := FilterSeq(s, p);
      forall x | x in front
        ensures IndexOf(s, x) == IndexOf(front, x)
      {
        PrefixIndexOf(front, s, x);
      }
      var last := s[|s| - 1];
      assert r == if p(last) then rest + [last] else rest;
      assert last !in front;
      forall i, j | 0 <= i < j < |r|
        ensures r[i] != r[j] && IndexOf(s, r[i]) < IndexOf(s, r[j])
      {
        assert SubsequenceOf(rest, front);
        assert r[i] == rest[i] && rest[i] in rest && r[i] in front;
        if j < |rest| {
          assert r[j] == rest[j] && rest[j] in rest && r[j] in front;
          assert rest[i] != rest[j] && IndexOf(front, rest[i]) < IndexOf(front, rest[j]);
        } else {
          assert r[j] == last;
          assert IndexOf(front, r[i]) < |front|;
          assert IndexOf(s, last) == |s| - 1;
        }
      }
    }
  }

  lemma PrefixIndexOf<K>(front: seq<K>, s: seq<K>, x: K)
    requires x in front && front <= s
    ensures IndexOf(s, x) == IndexOf(front, x)
  {
    var i := IndexOf(front, x);
    var j := IndexOf(s, x);
    assert s[i] == x;
  }

  /** Appending to `s` keeps a subsequence a subsequence, and a new element
      may be appended to both. */
  lemma SubsequenceSnoc<K>(r: seq<K>, s: seq<K>, x: K)
    requires SubsequenceOf(r, s)
    ensures SubsequenceOf(r, s + [x])
    ensures x !in s ==> SubsequenceOf(r + [x], s + [x])
  {
    var t := s + [x];
    forall y | y in s
      ensures IndexOf(t, y) == IndexOf(s, y)
    {
      PrefixIndexOf(s, t, y);
    }
    if x !in s {
      var r' := r + [x];
      assert IndexOf(t, x) == |s|;
      forall i, j | 0 <= i < j < |r'|
        ensures r'[i] != r'[j] && IndexOf(t, r'[i]) < IndexOf(t, r'[j])
      {
        assert r'[i] == r[i] && r[i] in r && r[i] in s;
        if j < |r| {
          assert r'[j] == r[j] && r[j] in r;
        } else {
          assert IndexOf(s, r[i]) < |s|;
        }
      }
    }
  }
}

=== FILE: packing.dfy ===
/** `struct.pack` of single-precision floats, as the sonar and camera
    processes use it for their UDP datagrams, and `struct.unpack` on the
    receiving side. How a number is encoded in four bytes is a parameter
    (`enc`), `None` for a value out of single-precision range, for which
    `struct.pack` raises. */
module Packing {
  import opened Wrappers

  /** The four bytes of one packed value. */
  datatype F32 = F32(b0: bv8, b1: bv8, b2: bv8, b3: bv8)

  function Bytes(f: F32): (r: seq<bv8>)
    ensures |r| == 4
  {
    [f.b0, f.b1, f.b2, f.b3]
  }

  /** Packed values, back to back. */
  function Pack(fs: seq<F32>): (r: seq<bv8>)
    ensures |r| == 4 * |fs|
    decreases |fs|
  {
    if |fs| == 0 then [] else Bytes(fs[0]) + Pack(fs[1..])
  }

  /** `struct.unpack`: `None` unless the length is a multiple of four. */
  function Unpack(bs: seq<bv8>): (r: Option<seq<F32>>)
    ensures r.Some? <==> |bs| % 4 == 0
    ensures r.Some? ==> |r.value| == |bs| / 4
    decreases |bs|
  {
    if |bs| == 0 then Some([])
    else if |bs| < 4 then None
    else
      match Unpack(bs[4..])
      case None => None
      case Some(rest) => Some([F32(bs[0], bs[1], bs[2], bs[3])] + rest)
  }

  /** Unpacking a packed sequence gives the values back. */
  lemma {:induction false} UnpackPack(fs: seq<F32>)
    ensures Unpack(Pack(fs)) == Some(fs)
    decreases |fs|
  {
    if |fs| > 0 {
      UnpackPack(fs[1..]);
      var bs := Pack(fs);
      assert bs[4..] == Pack(fs[1..]);
      assert [fs[0]] + fs[1..] == fs;
    }
  }

  /** Packing what was unpacked gives the bytes back. */
  lemma {:induction false} PackUnpack(bs: seq<bv8>)
    requires |bs| % 4 == 0
    ensures Pack(Unpack(bs).value) == bs
    decreases |bs|
  {
    if |bs| > 0 {
      PackUnpack(bs[4..]);
      var fs := Unpack(bs).value;
      assert fs[1..] == Unpack(bs[4..]).value;
      assert bs == bs[..4] + bs[4..];
    }
  }

  /** The encoding of every value, when each has one. */
  function Encodings(values: seq<real>, enc: real -> Option<F32>): (r: seq<F32>)
    requires forall i :: 0 <= i < |values| ==> enc(values[i]).Some?
    ensures |r| == |values| && forall i :: 0 <= i < |values| ==> enc(values[i]) == Some(r[i])
  {
    seq(|values|, i requires 0 <= i < |values| => enc(values[i]).value)
  }

  /** `struct.pack("f" * n, *values)`: `None` when some value cannot be packed. */
  function PackValues(values: seq<real>, enc: real -> Option<F32>): (r: Option<seq<bv8>>)
    ensures r.Some? <==> forall i :: 0 <= i < |values| ==> enc(values[i]).Some?
    ensures r.Some? ==> |r.value| == 4 * |values|
    ensures r.Some? ==> Unpack(r.value) == Some(Encodings(values, enc))
  {
    if forall i :: 0 <= i < |values| ==> enc(values[i]).Some? then
      var fs := Encodings(values, enc);
      UnpackPack(fs);
      Some(Pack(fs))
    else None
  }

  /** The sonar receiver script only accepts a 32-byte datagram (eight values). */
  predicate SonarReceiverAccepts(data: seq<bv8>) {
    |data| == 32
  }

  /** The camera UDP test script only accepts an 8-byte datagram (x and y). */
  predicate CameraTestAccepts(data: seq<bv8>) {
    |data| == 8
  }
}

=== FILE: router.dfy ===
/** The message router (`MessengerServer` in DisplayManager/messenger_client.py).
    It keeps an identity table from logical name to the connection a name last
    spoke on, updated from the `sender` of every message, and forwards the
    original bytes of a message to the connection registered under its
    `target`. One loop iteration is one `Step`. */
module Router {
  import opened Wrappers
  import opened Json

  /** A ZeroMQ routing identity: the handle of the connection a frame arrived on. */
  type Ident = seq<bv8>

  /** `self.targets`: logical name to connection. */
  type Table = map<Key, Ident>

  /** One outgoing `send_multipart([ident, msg])`. */
  datatype Delivery = Delivery(to: Ident, frame: Frame)

  /** What the loop logs about a frame. */
  datatype Note = Routed | NoTarget | Unroutable | HandlingError

  datatype StepResult = StepResult(table: Table, sent: Option<Delivery>, note: Note)

  /** The fields of the object a frame decodes to; `None` when the bytes do not
      decode (`loads` raises) or decode to a non-object (`.get` raises). */
  function Fields(frame: Frame): Option<map<string, Json>> {
    if frame.decoded.Some? && frame.decoded.value.JObj? then Some(frame.decoded.value.fields)
    else None
  }

  /** The frame registers `k`: its `sender` is truthy and hashes to `k`. */
  predicate Registers(frame: Frame, k: Key) {
    Fields(frame).Some? &&
    var sender := Lookup(Fields(frame).value, "sender");
    Truthy(sender) && KeyOf(sender) == Some(k)
  }

  /** The frame's `sender` is truthy but unhashable, so registering it raises. */
  predicate SenderRaises(frame: Frame) {
    Fields(frame).Some? &&
    var sender := Lookup(Fields(frame).value, "sender");
    Truthy(sender) && KeyOf(sender).None?
  }

  /** The key of the frame's truthy, hashable `target`, if it has one. */
  function TargetKey(frame: Frame): Option<Key> {
    if Fields(frame).None? then None
    else
      var target := Lookup(Fields(frame).value, "target");
      if Truthy(target) then KeyOf(target) else None
  }

  /** One iteration of `MessengerServer.run`: register the sender, then route
      by target. An exception anywhere ends the iteration with the table as far
      as it got. */
  function Step(table: Table, ident: Ident, frame: Frame): (r: StepResult)
    // registration: the sender's entry becomes the arrival connection
    ensures forall k :: Registers(frame, k) ==> k in r.table && r.table[k] == ident
    // entries are never removed, and no other entry changes
    ensures table.Keys <= r.table.Keys
    ensures forall k :: k in r.table ==> k in table || Registers(frame, k)
    ensures forall k :: k in table && !Registers(frame, k) ==> r.table[k] == table[k]
    // a frame that cannot be read leaves the table alone and sends nothing
    ensures Fields(frame).None? || SenderRaises(frame) ==> r.table == table && r.sent == None
    // forwarding: exactly when the target is registered, to that connection, unmodified
    ensures r.sent.Some? <==> !SenderRaises(frame) && TargetKey(frame).Some? && TargetKey(frame).value in r.table
    ensures r.sent.Some? ==> r.sent.value == Delivery(r.table[TargetKey(frame).value], frame)
  {
    match Fields(frame)
    case None => StepResult(table, None, HandlingError)
    case Some(o) =>
      var sender := Lookup(o, "sender");
      var target := Lookup(o, "target");
      if Truthy(sender) && KeyOf(sender).None? then StepResult(table, None, HandlingError)
      else
        var t := if Truthy(sender) then table[KeyOf(sender).value := ident] else table;
        if !Truthy(target) then StepResult(t, None, NoTarget)
        else
          match KeyOf(target)
          case None => StepResult(t, None, HandlingError)
          case Some(k) =>
            if k in t then StepResult(t, Some(Delivery(t[k], frame)), Routed)
            else StepResult(t, None, Unroutable)
  }

  /** A message with an absent, null or empty target only registers. */
  lemma NoTargetNeverForwarded(table: Table, ident: Ident, frame: Frame)
    requires Fields(frame).Some? && !Truthy(Lookup(Fields(frame).value, "target"))
    ensures Step(table, ident, frame).sent == None
  {
  }

  /** An unknown target: nothing is sent and the table changes only through the
      sender registration of the same message. */
  lemma UnknownTargetDropped(table: Table, ident: Ident, frame: Frame, k: Key)
    requires TargetKey(frame) == Some(k) && k !in table && !Registers(frame, k)
    ensures Step(table, ident, frame).sent == None
    ensures Step(table, ident, frame).table == table
         || exists s :: Registers(frame, s) && Step(table, ident, frame).table == table[s := ident]
  {
    var r := Step(table, ident, frame);
    if !SenderRaises(frame) && Truthy(Lookup(Fields(frame).value, "sender")) {
      var s := KeyOf(Lookup(Fields(frame).value, "sender")).value;
      assert Registers(frame, s);
      assert r.table == table[s := ident];
    }
  }

  /** Registration precedes routing: a message addressed to its own sender goes
      back to the connection it arrived on. */
  lemma EchoToSender(table: Table, ident: Ident, frame: Frame, k: Key)
    requires Registers(frame, k) && TargetKey(frame) == Some(k)
    ensures Step(table, ident, frame).sent == Some(Delivery(ident, frame))
  {
  }

  /** Processing the same registration twice leaves the table as processing it once. */
  lemma RegistrationIdempotent(table: Table, ident: Ident, frame: Frame)
    ensures Step(Step(table, ident, frame).table, ident, frame).table == Step(table, ident, frame).table
  {
    var t1 := Step(table, ident, frame).table;
    var t2 := Step(t1, ident, frame).table;
    assert forall k :: k in t2 <==> k in t1;
  }

  /** A later registration of the same name from another connection overwrites
      the earlier one. */
  lemma LastWriteWins(table: Table, i1: Ident, f1: Frame, i2: Ident, f2: Frame, k: Key)
    requires Registers(f1, k) && Registers(f2, k)
    ensures Step(Step(table, i1, f1).table, i2, f2).table[k] == i2
  {
  }

  // ---------------------------------------------------------------------
  // Runs of the loop
  // ---------------------------------------------------------------------

  /** The table and the deliveries after processing `inputs` in arrival order. */
  function Run(table: Table, inputs: seq<(Ident, Frame)>): (Table, seq<Delivery>)
    decreases |inputs|
  {
    if |inputs| == 0 then (table, [])
    else
      var prev := Run(table, inputs[..|inputs| - 1]);
      var last := inputs[|inputs| - 1];
      var s := Step(prev.0, last.0, last.1);
      (s.table, prev.1 + (if s.sent.Some? then [s.sent.value] else []))
  }

  /** Index of the last input that registers `k`. */
  function LastRegistration(inputs: seq<(Ident, Frame)>, k: Key): (r: Option<nat>)
    ensures r.Some? ==> r.value < |inputs| && Registers(inputs[r.value].1, k)
    ensures r.Some? ==> forall j :: r.value < j < |inputs| ==> !Registers(inputs[j].1, k)
    ensures r.None? ==> forall j :: 0 <= j < |inputs| ==> !Registers(inputs[j].1, k)
    decreases |inputs|
  {
    if |inputs| == 0 then None
    else if Registers(inputs[|inputs| - 1].1, k) then Some(|inputs| - 1)
    else LastRegistration(inputs[..|inputs| - 1], k)
  }

  /** After a run, a name is in the table exactly when it was there before or
      some input registered it, and it maps to the connection of the last input
      that registered it. */
  lemma {:induction false} RunTable(table: Table, inputs: seq<(Ident, Frame)>, k: Key)
    ensures k in Run(table, inputs).0 <==> k in table || LastRegistration(inputs, k).Some?
    ensures LastRegistration(inputs, k).Some? ==>
              Run(table, inputs).0[k] == inputs[LastRegistration(inputs, k).value].0
    ensures LastRegistration(inputs, k).None? && k in table ==> Run(table, inputs).0[k] == table[k]
    decreases |inputs|
  {
    if |inputs| > 0 {
      var front := inputs[..|inputs| - 1];
      RunTable(table, front, k);
      assert forall j :: 0 <= j < |front| ==> front[j] == inputs[j];
      if !Registers(inputs[|inputs| - 1].1, k) {
        assert LastRegistration(inputs, k) == LastRegistration(front, k);
      }
    }
  }

  /** Registration precedence: from an empty table, every delivery goes to the
      connection of an input whose sender is the delivered message's target. */
  lemma {:induction false} DeliveredOnlyToRegistered(inputs: seq<(Ident, Frame)>)
    ensures forall d :: d in Run(map[], inputs).1 ==>
              TargetKey(d.frame).Some? &&
              exists j :: 0 <= j < |inputs| && inputs[j].0 == d.to && Registers(inputs[j].1, TargetKey(d.frame).value)
    decreases |inputs|
  {
    if |inputs| > 0 {
      var front := inputs[..|inputs| - 1];
      DeliveredOnlyToRegistered(front);
      assert forall j :: 0 <= j < |front| ==> front[j] == inputs[j];
      var prev := Run(map[], front);
      var last := inputs[|inputs| - 1];
      var s := Step(prev.0, last.0, last.1);
      if s.sent.Some? {
        var d := s.sent.value;
        var k := TargetKey(d.frame).value;
        if Registers(last.1, k) {
          assert inputs[|inputs| - 1].0 == d.to;
        } else {
          RunTable(map[], front, k);
          var j := LastRegistration(front, k).value;
          assert inputs[j].0 == d.to && Registers(inputs[j].1, k);
        }
      }
    }
  }

  /** Runs compose: processing `a` then `b` is one run over `a + b`, and the
      deliveries of `a` come first, so per-sender order is preserved. */
  lemma {:induction false} RunAppend(table: Table, a: seq<(Ident, Frame)>, b: seq<(Ident, Frame)>)
    ensures Run(table, a + b).0 == Run(Run(table, a).0, b).0
    ensures Run(table, a + b).1 == Run(table, a).1 + Run(Run(table, a).0, b).1
    decreases |b|
  {
    if |b| == 0 {
      assert a + b == a;
    } else {
      var b' := b[..|b| - 1];
      RunAppend(table, a, b');
      assert (a + b)[..|a + b| - 1] == a + b';
      assert (a + b)[|a + b| - 1] == b[|b| - 1];
    }
  }

  // ---------------------------------------------------------------------
  // The server loop and stop
  // ---------------------------------------------------------------------

  datatype Server = Server(targets: Table, running: bool)

  /** A fresh server: empty table, running. */
  function Start(): Server {
    Server(map[], true)
  }

  /** `stop`: the loop ends at its next condition check; the table is kept. */
  function Stop(s: Server): (r: Server)
    ensures !r.running && r.targets == s.targets
  {
    Server(s.targets, false)
  }

  /** One receive: a stopped server processes nothing. */
  function Receive(s: Server, ident: Ident, frame: Frame): (r: (Server, Option<Delivery>))
    ensures !s.running ==> r == (s, None)
    ensures s.running ==> r.0.running && r.0.targets == Step(s.targets, ident, frame).table
    ensures s.running ==> r.1 == Step(s.targets, ident, frame).sent
  {
    if !s.running then (s, None)
    else
      var st := Step(s.targets, ident, frame);
      (Server(st.table, true), st.sent)
  }

  /** A frame whose `sender` is the non-empty string `name` registers exactly
      that name, and its target is the string `target` if it names one. */
  lemma NamedFrame(frame: Frame, name: string, target: Option<string>)
    requires Fields(frame).Some? && |name| > 0
    requires Lookup(Fields(frame).value, "sender") == JStr(name)
    requires target.Some? ==> |target.value| > 0 && Lookup(Fields(frame).value, "target") == JStr(target.value)
    requires target.None? ==> "target" !in Fields(frame).value
    ensures !SenderRaises(frame) && forall k :: Registers(frame, k) <==> k == KStr(name)
    ensures TargetKey(frame) == if target.Some? then Some(KStr(target.value)) else None
  {
  }

  /** A registration without a target adds or overwrites one entry and sends nothing. */
  lemma RegisterOnly(table: Table, ident: Ident, frame: Frame, name: string) returns (t: Table)
    requires Fields(frame).Some? && |name| > 0
    requires Lookup(Fields(frame).value, "sender") == JStr(name) && "target" !in Fields(frame).value
    ensures t == table[KStr(name) := ident]
    ensures Step(table, ident, frame).table == t && Step(table, ident, frame).sent == None
  {
    NamedFrame(frame, name, None);
    t := table[KStr(name) := ident];
    var r := Step(table, ident, frame);
    assert r.table == t;
  }

  /** A message from a name already registered on the arrival connection, to a
      registered name, leaves the table alone and goes to the target's connection. */
  lemma ForwardKnown(table: Table, ident: Ident, frame: Frame, name: string, target: string)
    requires Fields(frame).Some? && |name| > 0 && |target| > 0
    requires Lookup(Fields(frame).value, "sender") == JStr(name)
    requires Lookup(Fields(frame).value, "target") == JStr(target)
    requires KStr(name) in table && table[KStr(name)] == ident && KStr(target) in table
    ensures Step(table, ident, frame).table == table
    ensures Step(table, ident, frame).sent == Some(Delivery(table[KStr(target)], frame))
  {
    NamedFrame(frame, name, Some(target));
    var r := Step(table, ident, frame);
    assert r.table == table;
  }

  /** The end-to-end exchange: alice and bob register, alice sends to bob, bob
      replies to alice; each receives exactly the other's message, unmodified. */
  lemma AliceAndBob(ia: Ident, ib: Ident, r1: seq<bv8>, r2: seq<bv8>, r3: seq<bv8>, r4: seq<bv8>)
    ensures
      var regA := Frame(r1, Some(JObj(map["sender" := JStr("alice")])));
      var regB := Frame(r2, Some(JObj(map["sender" := JStr("bob")])));
      var ab := Frame(r3, Some(JObj(map["sender" := JStr("alice"), "target" := JStr("bob"),
                                        "type" := JStr("data"), "data" := JObj(map["x" := JNum(1.0)])])));
      var ba := Frame(r4, Some(JObj(map["sender" := JStr("bob"), "target" := JStr("alice"),
                                        "type" := JStr("data"), "data" := JObj(map["x" := JNum(2.0)])])));
      var s1 := Step(map[], ia, regA);
      var s2 := Step(s1.table, ib, regB);
      var s3 := Step(s2.table, ia, ab);
      var s4 := Step(s3.table, ib, ba);
      s1.sent == None && s2.sent == None &&
      s3.sent == Some(Delivery(ib, ab)) && s4.sent == Some(Delivery(ia, ba))
  {
    var regA := Frame(r1, Some(JObj(map["sender" := JStr("alice")])));
    var regB := Frame(r2, Some(JObj(map["sender" := JStr("bob")])));
    var ab := Frame(r3, Some(JObj(map["sender" := JStr("alice"), "target" := JStr("bob"),
                                      "type" := JStr("data"), "data" := JObj(map["x" := JNum(1.0)])])));
    var ba := Frame(r4, Some(JObj(map["sender" := JStr("bob"), "target" := JStr("alice"),
                                      "type" := JStr("data"), "data" := JObj(map["x" := JNum(2.0)])])));
    assert Fields(regA) == Some(map["sender" := JStr("alice")]);
    var t1 := RegisterOnly(map[], ia, regA, "alice");
    assert t1 == map[KStr("alice") := ia];
    assert Fields(regB) == Some(map["sender" := JStr("bob")]);
    var t2 := RegisterOnly(t1, ib, regB, "bob");
    ForwardKnown(t2, ia, ab, "alice", "bob");
    ForwardKnown(t2, ib, ba, "bob", "alice");
  }
}

=== FILE: screens.dfy ===
/** What the camera and sonar screens share: the registration envelope they
    send when constructed, the camera-event filter, and Python's `float(v)`
    on a decoded value. */
module ScreenCommon {
  import opened Wrappers
  import opened Json

  /** `{"sender": "DisplayManager", "target": None}`: registers the screen's
      socket under the display's name without addressing anyone. */
  function Registration(): (m: Json)
    ensures m.JObj? && m.fields.Keys == {"sender", "target"}
    ensures m.fields["sender"] == JStr("DisplayManager") && !Truthy(m.fields["target"])
  {
    JObj(map["sender" := JStr("DisplayManager"), "target" := JNull])
  }

  /** The `process_message` filter of the camera screens. */
  predicate IsCameraEvent(fields: map<string, Json>, mode: string) {
    Lookup(fields, "type") == JStr("camera_event") && Lookup(fields, "mode") == JStr(mode)
  }

  /** `float(v)`: numbers and booleans convert, strings are parsed by
      `parse`, anything else raises (`None`). */
  function FloatOf(v: Json, parse: string -> Option<real>): (r: Option<real>)
    ensures v.JNum? ==> r == Some(v.n)
    ensures (v.JNull? || v.JArr? || v.JObj?) ==> r == None
  {
    match v
    case JNum(n) => Some(n)
    case JBool(b) => Some(if b then 1.0 else 0.0)
    case JStr(s) => parse(s)
    case _ => None
  }
}

/** Ascending order of distinct integers, for the seen-tags listing. */
module IntSort {
  predicate Increasing(s: seq<int>) {
    forall i, j :: 0 <= i < j < |s| ==> s[i] < s[j]
  }

  predicate Distinct(s: seq<int>) {
    forall i, j :: 0 <= i < j < |s| ==> s[i] != s[j]
  }

  /** `x` put into its place in an increasing sequence that lacks it. */
  function Insert(x: int, s: seq<int>): (r: seq<int>)
    requires Increasing(s) && x !in s
    ensures Increasing(r) && |r| == |s| + 1
    ensures forall y :: y in r <==> y == x || y in s
    decreases |s|
  {
    if |s| == 0 || x < s[0] then
      if |s| == 0 then [x]
      else
        HeadIsLeast(s);
        ConsIncreasing(x, s);
        [x] + s
    else
      assert s == [s[0]] + s[1..];
      var rest := Insert(x, s[1..]);
      assert forall y :: y in rest ==> s[0] < y by {
        HeadIsLeast(s);
        assert s[0] < x;
        assert forall y :: y in s[1..] ==> s[0] < y;
      }
      ConsIncreasing(s[0], rest);
      [s[0]] + rest
  }

  /** A least element put in front keeps a sequence increasing. */
  lemma ConsIncreasing(a: int, s: seq<int>)
    requires Increasing(s) && forall y :: y in s ==> a < y
    ensures Increasing([a] + s)
  {
    var r := [a] + s;
    forall i, j | 0 <= i < j < |r|
      ensures r[i] < r[j]
    {
      assert r[j] == s[j - 1] && s[j - 1] in s;
      if i > 0 {
        assert r[i] == s[i - 1];
      }
    }
  }

  /** The elements of a sequence of distinct integers in ascending order. */
  function Sort(s: seq<int>): (r: seq<int>)
    requires Distinct(s)
    ensures Increasing(r) && |r| == |s|
    ensures forall y :: y in r <==> y in s
    decreases |s|
  {
    if |s| == 0 then []
    else
      var front := s[..|s| - 1];
      assert forall y :: y in front ==> y != s[|s| - 1];
      Insert(s[|s| - 1], Sort(front))
  }

  /** The first element of a non-empty increasing sequence is its least. */
  lemma HeadIsLeast(s: seq<int>)
    requires Increasing(s) && |s| > 0
    ensures forall y :: y in s ==> s[0] <= y
  {
  }

  /** An increasing sequence is determined by its elements. */
  lemma {:induction false} SortUnique(a: seq<int>, b: seq<int>)
    requires Increasing(a) && Increasing(b)
    requires forall y :: y in a <==> y in b
    ensures a == b
    decreases |a|
  {
    if |a| > 0 || |b| > 0 {
      assert |a| > 0 ==> a[0] in a && a[0] in b;
      assert |b| > 0 ==> b[0] in b && b[0] in a;
      HeadIsLeast(a);
      HeadIsLeast(b);
      assert a[0] == b[0];
      forall y
        ensures y in a[1..] <==> y in b[1..]
      {
        if y in a[1..] {
          assert y in b && y != b[0];
        }
        if y in b[1..] {
          assert y in a && y != a[0];
        }
      }
      SortUnique(a[1..], b[1..]);
    }
  }
}

/** The AprilTag screen's state (DisplayManager/Screens/apriltag_screen.py):
    the current-tag panel and the map of seen tag ids to the time each was
    last seen, listed in ascending id order. */
module AprilTagScreen {
  import opened Wrappers
  import opened Json
  import opened Text
  import opened OrderedMap
  import opened IntSort
  import opened ScreenCommon

  /** The left panel: "No data…" or the last tag shown, with the time. */
  datatype Panel = NoTag | Current(tag: Json, at: string)

  datatype View = View(panel: Panel, seen: Dict<int, string>)

  ghost predicate Inv(v: View) {
    Valid(v.seen)
  }

  function Init(): (v: View)
    ensures v.panel == NoTag && v.seen.keys == [] && Inv(v)
  {
    View(NoTag, Empty())
  }

  /** A tag id as a dictionary key, for integral numeric ids. */
  function TagId(t: Json): Option<int> {
    if t.JObj? && "id" in t.fields && t.fields["id"].JNum? && t.fields["id"].n == t.fields["id"].n.Floor as real
    then Some(t.fields["id"].n.Floor)
    else None
  }

  /** `update_tag(t)` at time `now`. The panel text reads the tag's `id`,
      `family`, `center` and `offset`; `formats` says whether the last two
      format as numbers. When that raises, in a UI callback, the display
      stops (`None`). */
  function UpdateTag(v: View, t: Json, now: string, formats: Json -> bool): (r: Option<View>)
    requires Inv(v)
    ensures r.Some? ==> Inv(r.value)
    ensures r.Some? <==> TagId(t).Some? && "family" in t.fields && "center" in t.fields &&
                         "offset" in t.fields && formats(t)
    ensures r.Some? ==> r.value.panel == Current(t, now) &&
                        r.value.seen == Put(v.seen, TagId(t).value, now)
  {
    match TagId(t)
    case None => None
    case Some(id) =>
      if "family" in t.fields && "center" in t.fields && "offset" in t.fields && formats(t)
      then Some(View(Current(t, now), Put(v.seen, id, now)))
      else None
  }

  /** `process_message(msg)` followed by the UI update it schedules. A
      missing `payload` or `tags` raises in the listener, which logs it and
      goes on. `tags[0]` is evaluated inside the scheduled callback, so a
      truthy `tags` that is not a list raises in the UI callback and the
      display stops (`None`). */
  function Process(v: View, msg: Json, now: string, formats: Json -> bool): (r: Option<View>)
    requires Inv(v)
    ensures r.Some? ==> Inv(r.value)
    // other messages change nothing
    ensures !msg.JObj? || !IsCameraEvent(msg.fields, "APRILTAG") ==> r == Some(v)
    // the seen map only changes by recording the first tag
    ensures r.Some? ==> (r.value.seen == v.seen ||
                         exists id :: r.value.seen == Put(v.seen, id, now))
    // an empty tag list clears the panel and keeps the seen map
    ensures (msg.JObj? && IsCameraEvent(msg.fields, "APRILTAG") && "payload" in msg.fields &&
             msg.fields["payload"].JObj? && "tags" in msg.fields["payload"].fields &&
             !Truthy(msg.fields["payload"].fields["tags"])) ==> r == Some(v.(panel := NoTag))
    // a non-empty list shows and records its first tag only
    ensures (msg.JObj? && IsCameraEvent(msg.fields, "APRILTAG") && "payload" in msg.fields &&
             msg.fields["payload"].JObj? && "tags" in msg.fields["payload"].fields &&
             msg.fields["payload"].fields["tags"].JArr? && |msg.fields["payload"].fields["tags"].items| > 0) ==>
              r == UpdateTag(v, msg.fields["payload"].fields["tags"].items[0], now, formats)
    // a truthy non-list cannot be indexed by the callback
    ensures (msg.JObj? && IsCameraEvent(msg.fields, "APRILTAG") && "payload" in msg.fields &&
             msg.fields["payload"].JObj? && "tags" in msg.fields["payload"].fields &&
             Truthy(msg.fields["payload"].fields["tags"]) && !msg.fields["payload"].fields["tags"].JArr?) ==>
              r == None
  {
    if !msg.JObj? || !IsCameraEvent(msg.fields, "APRILTAG") then Some(v)
    else if "payload" !in msg.fields || !msg.fields["payload"].JObj? || "tags" !in msg.fields["payload"].fields then Some(v)
    else
      var tags := msg.fields["payload"].fields["tags"];
      if !Truthy(tags) then Some(v.(panel := NoTag))
      else
        match tags
        case JArr(items) => UpdateTag(v, items[0], now, formats)
        // `tags[0]` of a string is a one-character string whose `id` lookup
        // raises; indexing a dict, a number or `True` by 0 raises at once
        case _ => None
  }

  /** A tag seen again keeps one entry, with the later time. */
  lemma SeenIsLastWriteWins(v: View, t: Json, now1: string, now2: string, formats: Json -> bool)
    requires Inv(v)
    requires UpdateTag(v, t, now1, formats).Some?
    ensures var v1 := UpdateTag(v, t, now1, formats).value;
            var v2 := UpdateTag(v1, t, now2, formats).value;
            v2.seen.keys == v1.seen.keys && v2.seen.vals[TagId(t).value] == now2 &&
            TagId(t).value in v2.seen.keys
  {
  }

  /** The seen map never loses an id. */
  lemma SeenNeverShrinks(v: View, msg: Json, now: string, formats: Json -> bool, k: int)
    requires Inv(v) && k in v.seen.vals
    requires Process(v, msg, now, formats).Some?
    ensures k in Process(v, msg, now, formats).value.seen.vals
  {
  }

  /** The right panel's lines: the header, then one line per seen id in
      ascending order with the time it was last seen. */
  function Listing(v: View): (lines: seq<string>)
    requires Inv(v)
    ensures var ids := Sort(v.seen.keys);
            |lines| == 1 + |v.seen.keys| && lines[0] == "[b]Seen Tags[/b]\n" &&
            forall i :: 0 <= i < |ids| ==> lines[i + 1] == "ID " + IntToString(ids[i]) + " — " + v.seen.vals[ids[i]]
  {
    var ids := Sort(v.seen.keys);
    ["[b]Seen Tags[/b]\n"] + seq(|ids|, i requires 0 <= i < |ids| => "ID " + IntToString(ids[i]) + " — " + v.seen.vals[ids[i]])
  }

  /** The listing lists every seen id once, in ascending order, whatever
      order the tags were first seen in. */
  lemma ListingOrder(v: View, w: View)
    requires Inv(v) && Inv(w) && v.seen.vals == w.seen.vals
    ensures Listing(v) == Listing(w)
    ensures Increasing(Sort(v.seen.keys)) && forall k :: k in Sort(v.seen.keys) <==> k in v.seen.vals
  {
    SortUnique(Sort(v.seen.keys), Sort(w.seen.keys));
  }
}

/** The QR-code screen's state (DisplayManager/Screens/qrcodo_screen.py):
    the last decoded text, its offsets, the time, and whether a QR image is
    drawn. */
module QrScreen {
  import opened Wrappers
  import opened Json
  import opened ScreenCommon

  /** A coordinate as shown: a number, or `---`. */
  datatype Coord = Num(v: real) | Dashes

  /** The info panel: "No data…", the last detection, or the last text kept
      with dashes for the coordinates. */
  datatype Info = NoData | Detection(text: Json, x: Coord, y: Coord, at: string) | Kept(text: Json, since: Option<string>)

  datatype View = View(lastData: Json, lastXY: (Coord, Coord), lastTime: Option<string>, texture: bool, info: Info)

  function Init(): (v: View)
    ensures v.lastData == JNull && v.lastXY == (Dashes, Dashes) && !v.texture && v.info == NoData
  {
    View(JNull, (Dashes, Dashes), None, false, NoData)
  }

  /** `float(offset[0]), float(offset[1])`, both or neither. */
  function Coords(offset: Json, parse: string -> Option<real>): (r: (Coord, Coord))
    ensures r.0.Num? <==> r.1.Num?
    ensures (offset.JArr? && |offset.items| >= 2 && FloatOf(offset.items[0], parse).Some? &&
             FloatOf(offset.items[1], parse).Some?) ==>
              r == (Num(FloatOf(offset.items[0], parse).value), Num(FloatOf(offset.items[1], parse).value))
    ensures !(offset.JArr? || offset.JStr?) ==> r == (Dashes, Dashes)
  {
    var pair: Option<(Json, Json)> := match offset
                case JArr(xs) => if |xs| >= 2 then Some((xs[0], xs[1])) else None
                case JStr(s) => if |s| >= 2 then Some((JStr([s[0]]), JStr([s[1]]))) else None
                case _ => None;
    match pair
    case None => (Dashes, Dashes)
    case Some(p) =>
      match (FloatOf(p.0, parse), FloatOf(p.1, parse))
      case (Some(x), Some(y)) => (Num(x), Num(y))
      case _ => (Dashes, Dashes)
  }

  /** `update_ui(text, x, y)`: the text is remembered and drawn as a QR image
      when it is truthy. */
  function UpdateUi(v: View, text: Json, xy: (Coord, Coord), now: string): (r: View)
    ensures r.lastData == text && r.lastXY == xy && r.lastTime == Some(now)
    ensures r.texture <==> Truthy(text)
    ensures r.info == Detection(text, xy.0, xy.1, now)
  {
    View(text, xy, Some(now), Truthy(text), Detection(text, xy.0, xy.1, now))
  }

  /** `update_ui_no_detection`: the text is kept, the coordinates become
      dashes, and the QR image stays as it was. */
  function UpdateNoDetection(v: View): (r: View)
    ensures r.lastData == v.lastData && r.lastTime == v.lastTime && r.texture == v.texture
    ensures r.lastXY == (Dashes, Dashes)
    ensures r.info == (if Truthy(v.lastData) then Kept(v.lastData, v.lastTime) else NoData)
  {
    v.(lastXY := (Dashes, Dashes), info := if Truthy(v.lastData) then Kept(v.lastData, v.lastTime) else NoData)
  }

  /** `process_message(msg)` followed by the UI update it schedules. A
      missing `payload` or `codes` counts as empty; values of the wrong shape
      raise in the listener, which logs and goes on. */
  function Process(v: View, msg: Json, now: string, parse: string -> Option<real>): (r: View)
    ensures !msg.JObj? || !IsCameraEvent(msg.fields, "QRCODE") ==> r == v
    ensures r.lastData != v.lastData ==> r.lastTime == Some(now)
    ensures r == v || r == UpdateNoDetection(v) || (r.lastTime == Some(now) && r.info.Detection?)
  {
    if !msg.JObj? || !IsCameraEvent(msg.fields, "QRCODE") then v
    else
      var payload := GetOr(msg.fields, "payload", JObj(map[]));
      if !payload.JObj? then v
      else
        var codes := GetOr(payload.fields, "codes", JArr([]));
        if !Truthy(codes) then UpdateNoDetection(v)
        else if !codes.JArr? || !codes.items[0].JObj? then v
        else
          var first := codes.items[0].fields;
          var text := GetOr(first, "data", JStr(""));
          var offset := GetOr(first, "offset", JArr([JNull, JNull]));
          UpdateUi(v, text, Coords(offset, parse), now)
  }

  /** A QR event whose code list starts with an object shows that object's
      `data` and converted `offset`; the rest of the list is ignored. */
  lemma FirstObjectShown(v: View, msg: Json, first: map<string, Json>, now: string, parse: string -> Option<real>)
    requires msg.JObj? && IsCameraEvent(msg.fields, "QRCODE")
    requires "payload" in msg.fields && msg.fields["payload"].JObj?
    requires "codes" in msg.fields["payload"].fields
    requires msg.fields["payload"].fields["codes"].JArr?
    requires |msg.fields["payload"].fields["codes"].items| > 0
    requires msg.fields["payload"].fields["codes"].items[0] == JObj(first)
    ensures Process(v, msg, now, parse) ==
              UpdateUi(v, GetOr(first, "data", JStr("")), Coords(GetOr(first, "offset", JArr([JNull, JNull])), parse), now)
  {
  }

  /** A QR event with codes: the first code's text and offsets are shown. */
  function CodesEvent(codes: seq<Json>): Json {
    JObj(map["type" := JStr("camera_event"), "mode" := JStr("QRCODE"),
             "payload" := JObj(map["codes" := JArr(codes)])])
  }

  lemma FirstCodeShown(v: View, text: string, x: real, y: real, rest: seq<Json>, now: string, parse: string -> Option<real>)
    ensures var code := JObj(map["data" := JStr(text), "offset" := JArr([JNum(x), JNum(y)])]);
            var r := Process(v, CodesEvent([code] + rest), now, parse);
            r.lastData == JStr(text) && r.lastXY == (Num(x), Num(y)) && (r.texture <==> |text| > 0)
  {
    var code := JObj(map["data" := JStr(text), "offset" := JArr([JNum(x), JNum(y)])]);
    assert ([code] + rest)[0] == code;
  }

  /** An event without codes keeps the last text and clears the offsets;
      a missing `payload` counts as no codes. */
  lemma NoCodesKeepsText(v: View, now: string, parse: string -> Option<real>)
    ensures Process(v, CodesEvent([]), now, parse) == UpdateNoDetection(v)
    ensures Process(v, JObj(map["type" := JStr("camera_event"), "mode" := JStr("QRCODE")]), now, parse)
         == UpdateNoDetection(v)
  {
  }

  /** An offset that does not convert shows dashes for both coordinates. */
  lemma BadOffsetShowsDashes(v: View, text: string, now: string, parse: string -> Option<real>)
    ensures var code := JObj(map["data" := JStr(text), "offset" := JArr([JNull, JNum(1.0)])]);
            Process(v, CodesEvent([code]), now, parse).lastXY == (Dashes, Dashes)
  {
  }

  /** An empty text draws no QR image. */
  lemma EmptyTextNoTexture(v: View, xy: (Coord, Coord), now: string)
    ensures !UpdateUi(v, JStr(""), xy, now).texture
  {
  }
}

/** The ball screen's state (DisplayManager/Screens/detectball_screen.py):
    the last reported position; `(-1, -1)` hides the ball marker. */
module BallScreen {
  import opened Wrappers
  import opened Json
  import opened ScreenCommon

  datatype View = View(lastXY: (Json, Json))

  function Init(): (v: View)
    ensures v.lastXY == (JNum(-1.0), JNum(-1.0)) && MarkerHidden(v)
  {
    View((JNum(-1.0), JNum(-1.0)))
  }

  /** Python's `v == -1`. */
  predicate IsMinusOne(v: Json) {
    v == JNum(-1.0)
  }

  /** The marker is drawn off screen exactly for the sentinel position. */
  predicate MarkerHidden(v: View) {
    IsMinusOne(v.lastXY.0) && IsMinusOne(v.lastXY.1)
  }

  /** The values `float + v` accepts: numbers, and booleans, which Python
      treats as the integers 0 and 1. */
  predicate IsNumeric(v: Json) {
    v.JNum? || v.JBool?
  }

  /** `update_ball_position` raises exactly when the position is not the
      sentinel and a coordinate cannot be added to a float. */
  predicate PositionRaises(x: Json, y: Json) {
    !(IsMinusOne(x) && IsMinusOne(y)) && !(IsNumeric(x) && IsNumeric(y))
  }

  /** `process_message(msg)` followed by `update_ui(x, y)`: `x` and `y`
      default to -1, and the `detected` flag is read and ignored. A
      `payload` or `ball` that is not an object raises in the listener,
      which logs and goes on. Placing the marker adds the coordinates to
      the preview box's position; when that raises, in the UI callback, the
      display stops (`None`). */
  function Process(v: View, msg: Json): (r: Option<View>)
    ensures !msg.JObj? || !IsCameraEvent(msg.fields, "DETECTBALL") ==> r == Some(v)
    ensures (msg.JObj? && IsCameraEvent(msg.fields, "DETECTBALL") &&
             !(GetOr(msg.fields, "payload", JObj(map[])).JObj? &&
               GetOr(GetOr(msg.fields, "payload", JObj(map[])).fields, "ball", JObj(map[])).JObj?)) ==>
              r == Some(v)
    ensures (msg.JObj? && IsCameraEvent(msg.fields, "DETECTBALL") &&
             GetOr(msg.fields, "payload", JObj(map[])).JObj? &&
             GetOr(GetOr(msg.fields, "payload", JObj(map[])).fields, "ball", JObj(map[])).JObj?) ==>
              var ball := GetOr(GetOr(msg.fields, "payload", JObj(map[])).fields, "ball", JObj(map[])).fields;
              var xy := (GetOr(ball, "x", JNum(-1.0)), GetOr(ball, "y", JNum(-1.0)));
              (r.None? <==> PositionRaises(xy.0, xy.1)) &&
              (r.Some? ==> r.value.lastXY == xy)
  {
    if !msg.JObj? || !IsCameraEvent(msg.fields, "DETECTBALL") then Some(v)
    else
      var payload := GetOr(msg.fields, "payload", JObj(map[]));
      if !payload.JObj? then Some(v)
      else
        var ball := GetOr(payload.fields, "ball", JObj(map[]));
        if !ball.JObj? then Some(v)
        else
          var x := GetOr(ball.fields, "x", JNum(-1.0));
          var y := GetOr(ball.fields, "y", JNum(-1.0));
          if PositionRaises(x, y) then None else Some(View((x, y)))
  }

  /** The number a numeric value stands for in arithmetic. */
  function NumberOf(v: Json): real
    requires IsNumeric(v)
  {
    if v.JNum? then v.n else if v.b then 1.0 else 0.0
  }

  /** `update_ball_position` for a preview box at `(boxX, boxY)` of size
      `(boxW, boxH)`: where the 30-pixel marker is drawn, off screen for the
      sentinel, or `None` when the arithmetic raises. */
  function MarkerPos(v: View, boxX: real, boxY: real, boxW: real, boxH: real): (r: Option<(real, real)>)
    ensures MarkerHidden(v) ==> r == Some((-100.0, -100.0))
    ensures r.None? <==> PositionRaises(v.lastXY.0, v.lastXY.1)
    ensures r.Some? && !MarkerHidden(v) ==>
              r.value.0 - boxX - boxW / 2.0 + 15.0 == NumberOf(v.lastXY.0) &&
              boxY + boxH / 2.0 - 15.0 - r.value.1 == NumberOf(v.lastXY.1)
  {
    var (x, y) := v.lastXY;
    if IsMinusOne(x) && IsMinusOne(y) then Some((-100.0, -100.0))
    else if IsNumeric(x) && IsNumeric(y) then
      Some((boxX + boxW / 2.0 + NumberOf(x) - 15.0, boxY + boxH / 2.0 - NumberOf(y) - 15.0))
    else None
  }

  /** The screen only ever goes on with a position its marker can be
      placed at: processing a message from such a view either stops the
      display or leads to another such view. */
  lemma ProcessKeepsPlaceable(v: View, msg: Json, boxX: real, boxY: real, boxW: real, boxH: real)
    requires MarkerPos(v, boxX, boxY, boxW, boxH).Some?
    ensures Process(v, msg).Some? ==> MarkerPos(Process(v, msg).value, boxX, boxY, boxW, boxH).Some?
  {
  }

  /** The initial view places its marker off screen. */
  lemma InitPlaced(boxX: real, boxY: real, boxW: real, boxH: real)
    ensures MarkerPos(Init(), boxX, boxY, boxW, boxH) == Some((-100.0, -100.0))
  {
  }

  function BallEvent(ball: map<string, Json>): Json {
    JObj(map["type" := JStr("camera_event"), "mode" := JStr("DETECTBALL"),
             "payload" := JObj(map["ball" := JObj(ball)])])
  }

  /** The `detected` flag makes no difference. */
  lemma DetectedIgnored(v: View, ball: map<string, Json>, d1: Json, d2: Json)
    ensures Process(v, BallEvent(ball["detected" := d1])) == Process(v, BallEvent(ball["detected" := d2]))
  {
  }

  /** A ball without coordinates hides the marker; a real position shows it. */
  lemma MissingCoordinatesHide(v: View, x: real, y: real)
    ensures Process(v, BallEvent(map[])) == Some(View((JNum(-1.0), JNum(-1.0))))
    ensures MarkerHidden(Process(v, BallEvent(map[])).value)
    ensures x != -1.0 ==> Process(v, BallEvent(map["x" := JNum(x), "y" := JNum(y)])) == Some(View((JNum(x), JNum(y))))
    ensures x != -1.0 ==> !MarkerHidden(Process(v, BallEvent(map["x" := JNum(x), "y" := JNum(y)])).value)
  {
  }

  /** A coordinate that is not a number stops the display when the marker
      is placed. */
  lemma TextCoordinateStops(v: View)
    ensures Process(v, BallEvent(map["x" := JStr("a"), "y" := JNum(0.0)])) == None
  {
    var ball := map["x" := JStr("a"), "y" := JNum(0.0)];
    assert GetOr(ball, "x", JNum(-1.0)) == JStr("a");
  }
}

/** The sonar screen (DisplayManager/Screens/robot_sonic_screen.py): it
    subscribes to the sonar resender and shows eight labels. */
module SonicScreen {
  import opened Wrappers
  import opened Json
  import opened Text

  const Labels: nat := 8

  /** The labels, and whether the listener thread is still running. */
  datatype View = View(labels: seq<string>, listening: bool)

  /** Label `i` (counting from 0) with shown text `t`. */
  function LabelText(i: nat, t: string): string {
    "S" + IntToString(i + 1) + ": " + t
  }

  function Init(): (v: View)
    ensures |v.labels| == Labels && v.listening
    ensures forall i :: 0 <= i < Labels ==> v.labels[i] == LabelText(i, "---")
  {
    View(seq(Labels, i requires 0 <= i < Labels => LabelText(i, "---")), true)
  }

  /** `subscribe`: a subscription request from `DISPLAY` to the sonar resender. */
  function SubscribeMsg(): (m: Json)
    ensures m.JObj? && m.fields.Keys == {"sender", "target", "cmd"}
    ensures m.fields["sender"] == JStr("DISPLAY") && m.fields["target"] == JStr("SONIC_MANAGER")
    ensures m.fields["cmd"] == JStr("SUBSCRIBE_STATE")
  {
    JObj(map["sender" := JStr("DISPLAY"), "target" := JStr("SONIC_MANAGER"), "cmd" := JStr("SUBSCRIBE_STATE")])
  }

  /** `f"{data[i]:.0f}"`: numbers and booleans format through `show`;
      a missing entry or any other value raises (`None`). */
  function Entry(data: Json, i: nat, show: real -> string): (r: Option<string>)
    ensures data.JArr? && i < |data.items| && data.items[i].JNum? ==> r == Some(show(data.items[i].n))
    ensures !data.JArr? || i >= |data.items| ==> r == None
  {
    if data.JArr? && i < |data.items| then
      match data.items[i]
      case JNum(n) => Some(show(n))
      case JBool(b) => Some(show(if b then 1.0 else 0.0))
      case _ => None
    else None
  }

  /** `update_values(data)`: all eight labels are rewritten; an entry that
      cannot be shown shows `---`. */
  function UpdateValues(v: View, data: Json, show: real -> string): (r: View)
    ensures |r.labels| == Labels && r.listening == v.listening
    ensures forall i :: 0 <= i < Labels ==>
              r.labels[i] == LabelText(i, Entry(data, i, show).GetOr("---"))
  {
    v.(labels := seq(Labels, i requires 0 <= i < Labels => LabelText(i, Entry(data, i, show).GetOr("---"))))
  }

  /** One iteration of the listener on a received frame (`None` when it
      does not decode, which is skipped). Only messages from the sonar
      resender with non-empty `sonics` update the labels. A non-object
      message, or a `data` that is not an object, raises outside the `try`
      and ends the listener thread. */
  function Listen(v: View, decoded: Option<Json>, show: real -> string): (r: View)
    ensures !v.listening ==> r == v
    ensures r.labels != v.labels ==>
              decoded.Some? && decoded.value.JObj? &&
              Lookup(decoded.value.fields, "sender") == JStr("SONIC_MANAGER")
    ensures |v.labels| == Labels ==> |r.labels| == Labels
    // a reading from the resender is shown
    ensures v.listening && decoded.Some? && decoded.value.JObj? &&
            Lookup(decoded.value.fields, "sender") == JStr("SONIC_MANAGER") &&
            GetOr(decoded.value.fields, "data", JObj(map[])).JObj? &&
            Truthy(Lookup(GetOr(decoded.value.fields, "data", JObj(map[])).fields, "sonics")) ==>
              r == UpdateValues(v, Lookup(GetOr(decoded.value.fields, "data", JObj(map[])).fields, "sonics"), show)
    // the thread ends exactly on a non-object message or a non-object `data`
    ensures v.listening && !r.listening <==>
              v.listening && decoded.Some? &&
              (!decoded.value.JObj? ||
               (Lookup(decoded.value.fields, "sender") == JStr("SONIC_MANAGER") &&
                !GetOr(decoded.value.fields, "data", JObj(map[])).JObj?))
  {
    if !v.listening then v
    else
      match decoded
      case None => v
      case Some(msg) =>
        if !msg.JObj? then v.(listening := false)
        else if Lookup(msg.fields, "sender") != JStr("SONIC_MANAGER") then v
        else
          var data := GetOr(msg.fields, "data", JObj(map[]));
          if !data.JObj? then v.(listening := false)
          else
            var sonics := Lookup(data.fields, "sonics");
            if Truthy(sonics) then UpdateValues(v, sonics, show) else v
  }

  /** One poll of the listener as written. The socket belongs to an
      asyncio context, so `recv_json` called from the plain thread does not
      hand back a message: depending on the library version it raises, which
      the bare `except` turns into `continue`, or it returns a future, on
      which `msg.get` raises outside the `try` and ends the thread. */
  datatype Receive = NoFrame | Raised | Future

  /** The listener as written, for one poll result. */
  function ListenAsWritten(v: View, got: Receive): (r: View)
    ensures r.labels == v.labels
    ensures !r.listening <==> !v.listening || got == Future
  {
    if v.listening && got == Future then v.(listening := false) else v
  }

  /** The as-written listener over a sequence of poll results. */
  function RunAsWritten(v: View, polls: seq<Receive>): View
    decreases |polls|
  {
    if |polls| == 0 then v
    else ListenAsWritten(RunAsWritten(v, polls[..|polls| - 1]), polls[|polls| - 1])
  }

  /** As written, the labels keep their initial dashes whatever arrives,
      and the thread runs on exactly until a receive returns a future. */
  lemma {:induction false} AsWrittenNeverShowsReadings(polls: seq<Receive>)
    ensures RunAsWritten(Init(), polls).labels == Init().labels
    ensures RunAsWritten(Init(), polls).listening <==> Future !in polls
    decreases |polls|
  {
    if |polls| > 0 {
      var front := polls[..|polls| - 1];
      AsWrittenNeverShowsReadings(front);
      assert polls == front + [polls[|polls| - 1]];
    }
  }

  /** After a malformed message the screen never updates again. */
  lemma StoppedListenerIgnoresAll(v: View, decoded: Option<Json>, show: real -> string)
    requires v.listening
    ensures !Listen(v, Some(JArr([])), show).listening
    ensures Listen(Listen(v, Some(JArr([])), show), decoded, show) == Listen(v, Some(JArr([])), show)
  {
  }

  /** A list shorter than eight shows dashes for the missing sensors. */
  lemma ShortListShowsDashes(v: View, xs: seq<real>, show: real -> string)
    requires |xs| < Labels
    ensures var data := JArr(seq(|xs|, i requires 0 <= i < |xs| => JNum(xs[i])));
            var r := UpdateValues(v, data, show);
            (forall i :: 0 <= i < |xs| ==> r.labels[i] == LabelText(i, show(xs[i]))) &&
            (forall i :: |xs| <= i < Labels ==> r.labels[i] == LabelText(i, "---"))
  {
  }
}

=== FILE: sonar.dfy ===
/** The ultrasonic resender (`SonicManager` in
    UltrasonicManager/ultrasonic_resender.py): it reads lines of eight
    comma-separated distances from the sonar board's serial link, forwards
    each complete reading to the robot controller as eight packed floats,
    and sends its last reading to whoever asks or subscribes. */
module Sonar {
  import opened Wrappers
  import opened Json
  import opened Text
  import opened Packing

  /** Number of sonars on the board, and of values in a reading. */
  const SonicCount: nat := 8

  /** The last reading and the set of subscribers. */
  datatype Sonar = Sonar(values: seq<real>, subscribers: set<Key>)

  /** A fresh resender: eight zero readings and nobody subscribed. */
  function Init(): (s: Sonar)
    ensures |s.values| == SonicCount && s.subscribers == {}
    ensures forall i :: 0 <= i < |s.values| ==> s.values[i] == 0.0
  {
    Sonar(seq(SonicCount, _ => 0.0), {})
  }

  // ---------------------------------------------------------------------
  // Serial side (`read_serial`)
  // ---------------------------------------------------------------------

  /** What one serial line led to: nothing (a blank line), a warning about a
      malformed packet, a datagram sent, or a caught error. */
  datatype ReadNote = Blank | Invalid | Sent | ReadError

  datatype ReadEffects = ReadEffects(sonar: Sonar, datagram: Option<seq<bv8>>, note: ReadNote)

  /** `[float(p) for p in parts]`, `None` when some field is not a number. */
  function ParseAll(parts: seq<string>, parse: string -> Option<real>): (r: Option<seq<real>>)
    ensures r.Some? <==> forall i :: 0 <= i < |parts| ==> parse(parts[i]).Some?
    ensures r.Some? ==> (|r.value| == |parts| &&
                         forall i :: 0 <= i < |parts| ==> parse(parts[i]) == Some(r.value[i]))
  {
    if forall i :: 0 <= i < |parts| ==> parse(parts[i]).Some? then
      Some(seq(|parts|, i requires 0 <= i < |parts| && parse(parts[i]).Some? => parse(parts[i]).value))
    else None
  }

  /** One iteration of the serial loop on `line`, the bytes read up to the
      newline and decoded, `None` when reading or decoding raised. Number
      parsing is `parse` and single-precision encoding is `enc`. The reading
      is stored before it is packed, so a value too large to pack is kept
      although no datagram is sent. */
  function ReadLine(s: Sonar, line: Option<string>, parse: string -> Option<real>,
                    enc: real -> Option<F32>): (e: ReadEffects)
    ensures e.sonar.subscribers == s.subscribers
    ensures e.datagram.Some? <==> e.note == Sent
    ensures e.note == Blank <==> line.Some? && Strip(line.value) == ""
    ensures e.note == Invalid <==>
              line.Some? && Strip(line.value) != "" && CountChar(Strip(line.value), ',') != SonicCount - 1
    // the reading only changes to eight parsed fields of the line
    ensures e.sonar.values != s.values ==>
              line.Some? && ParseAll(SplitOn(Strip(line.value), ','), parse) == Some(e.sonar.values) &&
              |e.sonar.values| == SonicCount
    // eight fields that all parse replace the reading, which is sent iff it packs
    ensures line.Some? && ParseAll(SplitOn(Strip(line.value), ','), parse).Some? &&
            |ParseAll(SplitOn(Strip(line.value), ','), parse).value| == SonicCount ==>
              e.sonar.values == ParseAll(SplitOn(Strip(line.value), ','), parse).value &&
              (e.note == Sent <==> PackValues(e.sonar.values, enc).Some?)
    // a field that does not parse raises and changes nothing
    ensures line.Some? && |SplitOn(Strip(line.value), ',')| == SonicCount &&
            ParseAll(SplitOn(Strip(line.value), ','), parse).None? ==>
              e == ReadEffects(s, None, ReadError)
    // a datagram is the packed reading: 32 bytes that unpack to its encoding
    ensures e.note == Sent ==>
              |e.sonar.values| == SonicCount && SonarReceiverAccepts(e.datagram.value) &&
              PackValues(e.sonar.values, enc) == e.datagram
  {
    match line
    case None => ReadEffects(s, None, ReadError)
    case Some(raw) =>
      var text := Strip(raw);
      if text == "" then ReadEffects(s, None, Blank)
      else
        var parts := SplitOn(text, ',');
        SplitCount(text, ',');
        if |parts| != SonicCount then ReadEffects(s, None, Invalid)
        else
          match ParseAll(parts, parse)
          case None => ReadEffects(s, None, ReadError)
          case Some(vals) =>
            var s' := s.(values := vals);
            match PackValues(vals, enc)
            case None => ReadEffects(s', None, ReadError)
            case Some(d) => ReadEffects(s', Some(d), Sent)
  }

  /** A reading always holds eight values. */
  lemma ReadKeepsEight(s: Sonar, line: Option<string>, parse: string -> Option<real>, enc: real -> Option<F32>)
    requires |s.values| == SonicCount
    ensures |ReadLine(s, line, parse, enc).sonar.values| == SonicCount
  {
  }

  /** The board's line format round-trips: eight numbers written out without
      whitespace or commas, joined by commas and terminated by a newline, are
      read back as exactly those numbers, and the datagram unpacks to their
      encodings. */
  lemma {:induction false} BoardLineRoundTrip(s: Sonar, vals: seq<real>, show: real -> string,
                                              parse: string -> Option<real>, enc: real -> Option<F32>)
    requires |vals| == SonicCount
    requires forall i :: 0 <= i < |vals| ==>
               |show(vals[i])| > 0 && NoSpace(show(vals[i])) && ',' !in show(vals[i]) &&
               parse(show(vals[i])) == Some(vals[i]) && enc(vals[i]).Some?
    ensures ReadLine(s, Some(JoinWith(Texts(vals, show), ',') + "\n"), parse, enc).note == Sent
    ensures ReadLine(s, Some(JoinWith(Texts(vals, show), ',') + "\n"), parse, enc).sonar.values == vals
    ensures ReadLine(s, Some(JoinWith(Texts(vals, show), ',') + "\n"), parse, enc).datagram ==
            PackValues(vals, enc)
    ensures PackValues(vals, enc).Some? && Unpack(PackValues(vals, enc).value) == Some(Encodings(vals, enc))
  {
    var texts := Texts(vals, show);
    var joined := JoinWith(texts, ',');
    var line := Some(joined + "\n");
    assert Strip(joined + "\n") == joined by {
      assert forall i :: 0 <= i < |texts| ==> NoSpace(texts[i]);
      JoinNoSpace(texts, ',');
      assert |texts[0]| > 0 && joined == texts[0] + [','] + JoinWith(texts[1..], ',');
      StripNewline(joined);
    }
    assert SplitOn(joined, ',') == texts by {
      assert forall i :: 0 <= i < |texts| ==> ',' !in texts[i];
      SplitJoin(texts, ',');
    }
    assert ParseAll(texts, parse) == Some(vals) by {
      assert forall i :: 0 <= i < |texts| ==> parse(texts[i]) == Some(vals[i]);
      var r := ParseAll(texts, parse);
      assert r.Some? && |r.value| == |vals|;
      assert forall i :: 0 <= i < |vals| ==> Some(r.value[i]) == Some(vals[i]);
      assert r.value == vals;
    }
    assert PackValues(vals, enc).Some?;
    var e := ReadLine(s, line, parse, enc);
    assert e == ReadEffects(s.(values := vals), PackValues(vals, enc), Sent);
  }

  /** The text of every value. */
  function Texts(vals: seq<real>, show: real -> string): (r: seq<string>)
    ensures |r| == |vals| && forall i :: 0 <= i < |vals| ==> r[i] == show(vals[i])
  {
    seq(|vals|, i requires 0 <= i < |vals| => show(vals[i]))
  }

  // ---------------------------------------------------------------------
  // Messenger side (`send_state_to`, `poll_messenger`, `broadcast_state`)
  // ---------------------------------------------------------------------

  /** `send_state_to(target)`: the last reading, addressed to `target`. */
  function StateMsg(target: Json, s: Sonar): (m: Json)
    ensures m.JObj? && m.fields.Keys == {"sender", "target", "cmd", "data"}
    ensures m.fields["sender"] == JStr("SONIC_MANAGER") && m.fields["target"] == target
    ensures m.fields["cmd"] == JStr("STATE_UPDATE")
    ensures m.fields["data"] == JObj(map["sonics" := JArr(seq(|s.values|, i requires 0 <= i < |s.values| => JNum(s.values[i])))])
  {
    JObj(map[
      "sender" := JStr("SONIC_MANAGER"),
      "target" := target,
      "cmd" := JStr("STATE_UPDATE"),
      "data" := JObj(map["sonics" := JArr(seq(|s.values|, i requires 0 <= i < |s.values| => JNum(s.values[i])))])])
  }

  /** `broadcast_state`: one state message per subscriber (the order of a
      set's iteration is not modelled). */
  function Broadcast(s: Sonar): (out: set<Json>)
    ensures forall k :: k in s.subscribers ==> StateMsg(KeyValue(k), s) in out
    ensures forall m :: m in out ==> exists k :: k in s.subscribers && m == StateMsg(KeyValue(k), s)
  {
    set k | k in s.subscribers :: StateMsg(KeyValue(k), s)
  }

  datatype PollNote = Ignored | Replied | Caught

  /** One iteration of `poll_messenger` on a received frame, decoded or not:
      the new state, the replies, and what happened. Unknown commands are
      ignored silently; a frame that does not decode, a non-object and an
      unhashable subscriber raise and are caught. */
  function Poll(s: Sonar, decoded: Option<Json>): (r: (Sonar, seq<Json>, PollNote))
    ensures r.0.values == s.values
    ensures r.2 != Replied ==> r.0 == s && r.1 == []
    ensures r.2 == Replied <==>
              decoded.Some? && decoded.value.JObj? && Truthy(Lookup(decoded.value.fields, "sender")) &&
              (Lookup(decoded.value.fields, "cmd") == JStr("GET_STATE") ||
               (Lookup(decoded.value.fields, "cmd") == JStr("SUBSCRIBE_STATE") &&
                KeyOf(Lookup(decoded.value.fields, "sender")).Some?))
    // a reply is the state, addressed to the sender
    ensures r.2 == Replied ==> r.1 == [StateMsg(Lookup(decoded.value.fields, "sender"), s)]
    // subscribing adds the sender's key, and nothing else adds anything
    ensures r.0.subscribers == s.subscribers ||
            (r.2 == Replied && Lookup(decoded.value.fields, "cmd") == JStr("SUBSCRIBE_STATE") &&
             r.0.subscribers == s.subscribers + {KeyOf(Lookup(decoded.value.fields, "sender")).value})
  {
    match decoded
    case None => (s, [], Caught)
    case Some(msg) =>
      if !msg.JObj? then (s, [], Caught)
      else
        var sender := Lookup(msg.fields, "sender");
        var cmd := Lookup(msg.fields, "cmd");
        if !Truthy(sender) then (s, [], Ignored)
        else if cmd == JStr("GET_STATE") then (s, [StateMsg(sender, s)], Replied)
        else if cmd == JStr("SUBSCRIBE_STATE") then
          match KeyOf(sender)
          case None => (s, [], Caught)
          case Some(k) => (s.(subscribers := s.subscribers + {k}), [StateMsg(sender, s)], Replied)
        else (s, [], Ignored)
  }

  /** A subscription request from a named module. */
  function Subscribe(who: string): Json {
    JObj(map["sender" := JStr(who), "cmd" := JStr("SUBSCRIBE_STATE")])
  }

  /** After subscribing, a module is sent every periodic broadcast; a second
      subscription changes nothing further. */
  lemma SubscribeThenBroadcast(s: Sonar, who: string)
    requires |who| > 0
    ensures var s1 := Poll(s, Some(Subscribe(who))).0;
            s1.subscribers == s.subscribers + {KStr(who)} &&
            StateMsg(JStr(who), s1) in Broadcast(s1) &&
            Poll(s1, Some(Subscribe(who))).0 == s1
  {
    var s1 := Poll(s, Some(Subscribe(who))).0;
    assert KeyValue(KStr(who)) == JStr(who);
  }
}

=== FILE: supervisor.dfy ===
/** The supervisor (`ProgramManager` in ProgramManager/program_manager.py):
    it launches the programs of a manifest, relays log records, tracks the
    last heartbeat of every sender, warns about stale senders, prints a
    periodic "all OK" line, and stops the children on shutdown.

    Time is whole seconds; a process is running or exited as `poll()` reports
    it; each loop iteration of the three background tasks is one function. */
module Supervisor {
  import opened Wrappers
  import opened Json
  import opened Text
  import opened OrderedMap

  /** `HEARTBEAT_WARN_S`: a sender is stale once its heartbeat is strictly older. */
  const HeartbeatWarnS: int := 15
  /** `HEARTBEAT_OK_EVERY_S`: the all-OK check runs when strictly more time has passed. */
  const HeartbeatOkEveryS: int := 10

  /** A launched child: the position of its `Popen` among all launches, and
      whether it has exited. */
  datatype Proc = Proc(launch: nat, exited: bool)

  /** The supervisor's state. `lastOk` is `_last_ok_print`, `None` standing
      for `datetime.min`. `cancelled` records that the background tasks have
      been cancelled. */
  datatype Sup = Sup(
    running: bool,
    cancelled: bool,
    processes: Dict<Key, Proc>,
    heartbeats: Dict<Key, int>,
    lastOk: Option<int>)

  ghost predicate Inv(s: Sup) {
    Valid(s.processes) && Valid(s.heartbeats)
  }

  // ---------------------------------------------------------------------
  // Startup: `_start_programs`
  // ---------------------------------------------------------------------

  /** The path of a manifest entry when `p["path"]` is a string `Popen` accepts. */
  function EntryPath(p: Json): Option<string> {
    if p.JObj? && "path" in p.fields && p.fields["path"].JStr? then Some(p.fields["path"].s) else None
  }

  /** The key of a manifest entry's `name` when `p["name"]` exists and is hashable. */
  function EntryName(p: Json): Option<Key> {
    if p.JObj? && "name" in p.fields then KeyOf(p.fields["name"]) else None
  }

  predicate WellFormed(p: Json) {
    EntryPath(p).Some? && EntryName(p).Some?
  }

  /** The programs launched so far (their paths, in launch order), the
      `processes` dict, and whether an exception has ended the loop. */
  datatype Startup = Startup(processes: Dict<Key, Proc>, launched: seq<string>, aborted: bool)

  /** One iteration of the loop over the manifest: `Popen` needs a string
      path, and only after the launch is the entry filed under its name. A
      missing or unusable path raises before the launch; a missing or
      unhashable name raises after it, leaving that child unrecorded. */
  function StartEntry(s: Startup, p: Json): (r: Startup)
    requires Valid(s.processes)
    ensures Valid(r.processes)
    ensures s.aborted ==> r == s
    ensures !s.aborted && WellFormed(p) ==>
              !r.aborted && r.launched == s.launched + [EntryPath(p).value] &&
              r.processes.vals == s.processes.vals[EntryName(p).value := Proc(|s.launched|, false)]
    ensures !s.aborted && WellFormed(p) ==>
              r.processes.keys == s.processes.keys +
                (if EntryName(p).value in s.processes.vals then [] else [EntryName(p).value])
    ensures !s.aborted && !WellFormed(p) ==>
              r.aborted && r.processes == s.processes &&
              r.launched == s.launched + (if EntryPath(p).Some? then [EntryPath(p).value] else [])
  {
    if s.aborted then s
    else
      match EntryPath(p)
      case None => Startup(s.processes, s.launched, true)
      case Some(path) =>
        var launched := s.launched + [path];
        match EntryName(p)
        case None => Startup(s.processes, launched, true)
        case Some(k) => Startup(Put(s.processes, k, Proc(|s.launched|, false)), launched, false)
  }

  /** `_start_programs` over the entries of the manifest list. */
  function StartPrograms(entries: seq<Json>): (r: Startup)
    ensures Valid(r.processes)
    ensures |r.launched| <= |entries|
    ensures forall k :: k in r.processes.vals ==>
              r.processes.vals[k].launch < |r.launched| && !r.processes.vals[k].exited
    decreases |entries|
  {
    if |entries| == 0 then Startup(Empty(), [], false)
    else StartEntry(StartPrograms(entries[..|entries| - 1]), entries[|entries| - 1])
  }

  /** Entry `i` is the last of `ns` named `k`. */
  ghost predicate LastNamed(ns: seq<Key>, k: Key, i: int) {
    0 <= i < |ns| && ns[i] == k && forall j :: i < j < |ns| ==> ns[j] != k
  }

  /** Every entry is well formed and `ns` lists their names in manifest order. */
  ghost predicate NamedBy(entries: seq<Json>, ns: seq<Key>) {
    |ns| == |entries| &&
    forall i :: 0 <= i < |entries| ==> WellFormed(entries[i]) && EntryName(entries[i]) == Some(ns[i])
  }

  /** A well-formed manifest launches every entry, in manifest order, and
      raises nowhere. */
  lemma {:induction false} StartLaunchesAll(entries: seq<Json>)
    requires forall i :: 0 <= i < |entries| ==> WellFormed(entries[i])
    ensures !StartPrograms(entries).aborted
    ensures |StartPrograms(entries).launched| == |entries|
    ensures forall i :: 0 <= i < |entries| ==> EntryPath(entries[i]) == Some(StartPrograms(entries).launched[i])
    decreases |entries|
  {
    if |entries| > 0 {
      StartLaunchesAll(entries[..|entries| - 1]);
    }
  }

  /** For a well-formed manifest, `processes` holds exactly the names of the
      manifest, and each name's process is the one launched for the last entry
      with that name (a later duplicate overwrites an earlier one). */
  lemma {:induction false} StartLastWins(entries: seq<Json>, ns: seq<Key>)
    requires NamedBy(entries, ns)
    ensures forall k :: k in StartPrograms(entries).processes.vals <==> k in ns
    ensures forall k :: k in StartPrograms(entries).processes.vals ==>
              LastNamed(ns, k, StartPrograms(entries).processes.vals[k].launch)
    decreases |entries|
  {
    if |entries| > 0 {
      var n := |entries| - 1;
      var front := entries[..n];
      var fs := ns[..n];
      assert NamedBy(front, fs);
      StartLastWins(front, fs);
      StartLaunchesAll(front);
      var prev := StartPrograms(front).processes.vals;
      var vals := StartPrograms(entries).processes.vals;
      var k := ns[n];
      assert vals == prev[k := Proc(n, false)];
      forall x | x in vals
        ensures LastNamed(ns, x, vals[x].launch)
      {
        if x != k {
          LastNamedExtend(ns, x, prev[x].launch);
        }
      }
      InSnoc(ns);
    }
  }

  lemma LastNamedExtend(ns: seq<Key>, k: Key, i: int)
    requires |ns| > 0 && LastNamed(ns[..|ns| - 1], k, i) && ns[|ns| - 1] != k
    ensures LastNamed(ns, k, i)
  {
    assert forall j :: i < j < |ns| - 1 ==> ns[j] == ns[..|ns| - 1][j];
  }

  lemma InSnoc<T>(s: seq<T>)
    requires |s| > 0
    ensures forall x :: x in s <==> x in s[..|s| - 1] || x == s[|s| - 1]
  {
    assert s == s[..|s| - 1] + [s[|s| - 1]];
  }

  /** For a well-formed manifest, the keys of `processes` come in the order in
      which the names first appear in the manifest. */
  lemma {:induction false} StartKeyOrder(entries: seq<Json>, ns: seq<Key>)
    requires NamedBy(entries, ns)
    ensures SubsequenceOf(StartPrograms(entries).processes.keys, ns)
    decreases |entries|
  {
    if |entries| > 0 {
      var n := |entries| - 1;
      var front := entries[..n];
      var fs := ns[..n];
      assert NamedBy(front, fs);
      assert ns == fs + [ns[n]];
      StartKeyOrder(front, fs);
      var s := StartPrograms(front);
      assert !s.aborted by { StartLaunchesAll(front); }
      assert forall k :: k in s.processes.vals <==> k in fs by { StartLastWins(front, fs); }
      KeyOrderStep(s, entries[n], fs, ns[n]);
    }
  }

  /** One well-formed entry keeps the keys of `processes` in manifest order. */
  lemma KeyOrderStep(s: Startup, p: Json, fs: seq<Key>, k: Key)
    requires Valid(s.processes) && !s.aborted && WellFormed(p) && EntryName(p) == Some(k)
    requires SubsequenceOf(s.processes.keys, fs)
    requires forall x :: x in s.processes.vals <==> x in fs
    ensures SubsequenceOf(StartEntry(s, p).processes.keys, fs + [k])
  {
    SubsequenceSnoc(s.processes.keys, fs, k);
  }

  /** Once the loop has raised, later entries change nothing. */
  lemma {:induction false} StartStaysAborted(entries: seq<Json>, i: nat)
    requires i < |entries| && StartPrograms(entries[..i + 1]).aborted
    ensures StartPrograms(entries) == StartPrograms(entries[..i + 1])
    decreases |entries|
  {
    if |entries| > i + 1 {
      var front := entries[..|entries| - 1];
      assert front[..i + 1] == entries[..i + 1];
      StartStaysAborted(front, i);
    } else {
      assert entries[..i + 1] == entries;
    }
  }

  /** The first malformed entry ends the launch loop: the entries before it are
      launched and recorded, it is launched only when its path is usable, and
      nothing after it is launched. */
  lemma StartAbortsAtFirstBad(entries: seq<Json>, i: nat)
    requires i < |entries|
    requires forall j :: 0 <= j < i ==> WellFormed(entries[j])
    requires !WellFormed(entries[i])
    ensures var r := StartPrograms(entries);
      var before := StartPrograms(entries[..i]);
      r.aborted && r.processes == before.processes &&
      r.launched == before.launched + (if EntryPath(entries[i]).Some? then [EntryPath(entries[i]).value] else [])
  {
    var pre := entries[..i];
    var before := StartPrograms(pre);
    assert !before.aborted by {
      assert forall j :: 0 <= j < |pre| ==> WellFormed(pre[j]);
      StartLaunchesAll(pre);
    }
    assert entries[..i + 1][..i] == pre;
    assert StartPrograms(entries[..i + 1]) == StartEntry(before, entries[i]);
    StartStaysAborted(entries, i);
  }

  /** `json.load` of the manifest file, `None` when the file cannot be read or
      parsed, and the loop over what it holds. Iterating an object or a string
      yields strings, whose `["path"]` raises; other scalars are not iterable. */
  function Launch(manifest: Option<Json>): (r: Startup)
    ensures Valid(r.processes)
    ensures manifest.None? ==> r.aborted && r.launched == []
    ensures manifest.Some? && manifest.value.JArr? ==> r == StartPrograms(manifest.value.items)
    ensures manifest.Some? && !manifest.value.JArr? ==>
              r.launched == [] && (r.aborted <==> manifest.value != JObj(map[]) && manifest.value != JStr(""))
  {
    match manifest
    case None => Startup(Empty(), [], true)
    case Some(m) =>
      if m.JArr? then StartPrograms(m.items)
      else Startup(Empty(), [], m != JObj(map[]) && m != JStr(""))
  }

  /** `run`: the start-up exception is not caught, so when the loop raises the
      supervisor ends at once and the children it launched keep running
      unsupervised (the error carries their paths). Otherwise the three tasks
      start with no heartbeat yet seen. */
  function Boot(manifest: Option<Json>): (r: Result<Sup, seq<string>>)
    ensures r.Ok? ==> Inv(r.value) && r.value.running && !r.value.cancelled &&
                      r.value.heartbeats.vals == map[] && r.value.lastOk == None &&
                      r.value.processes == Launch(manifest).processes
    ensures r.Err? <==> Launch(manifest).aborted
    ensures r.Err? ==> r.error == Launch(manifest).launched
  {
    var st := Launch(manifest);
    if st.aborted then Err(st.launched)
    else Ok(Sup(true, false, st.processes, Empty(), None))
  }

  // ---------------------------------------------------------------------
  // Log relay: `_read_logs`
  // ---------------------------------------------------------------------

  /** What the relay does with one record. `ReaderCrash` is an exception that
      escapes the loop and ends the relay task. */
  datatype LogOutcome = Printed(line: string) | Skipped | ReaderCrash

  /** The unified output line `[ts] - [sender] : text` of `_log_line`. */
  function LogLine(ts: string, sender: string, text: string): (line: string)
    ensures StartsWith(line, "[" + ts + "] - [" + sender + "] : ")
    ensures |line| > |text| && line[|line| - |text|..] == text
    // nothing else: the head is followed directly by the text
    ensures |line| == |"[" + ts + "] - [" + sender + "] : "| + |text|
  {
    var head := "[" + ts + "] - [" + sender + "] : ";
    assert (head + text)[..|head|] == head;
    head + text
  }

  /** The `message` of a decoded record, when the record is an object. */
  function MessageOf(decoded: Option<Json>): Option<Json> {
    if decoded.Some? && decoded.value.JObj? then Some(Lookup(decoded.value.fields, "message")) else None
  }

  /** One record on the log channel. Undecodable bytes and non-objects raise;
      a falsy `message` becomes `""` and is dropped; a truthy non-string
      `message` has no `strip` and raises; a message that strips to nothing is
      dropped. `nowTs` is the current time, used when the record has no
      timestamp; `show` is `str` on non-string values. */
  function ReadLog(decoded: Option<Json>, nowTs: string, show: Json -> string): (r: LogOutcome)
    ensures r.ReaderCrash? <==>
              MessageOf(decoded).None? || (Truthy(MessageOf(decoded).value) && !MessageOf(decoded).value.JStr?)
    ensures r.Skipped? <==>
              MessageOf(decoded).Some? &&
              (!Truthy(MessageOf(decoded).value) ||
               (MessageOf(decoded).value.JStr? && Strip(MessageOf(decoded).value.s) == ""))
    ensures r.Printed? ==>
              var text := Strip(MessageOf(decoded).value.s);
              |text| > 0 && !IsSpace(text[0]) && !IsSpace(text[|text| - 1]) &&
              |r.line| > |text| && r.line[|r.line| - |text|..] == text
    // the head carries the record's timestamp and sender, or their defaults
    ensures r.Printed? ==>
              r.line == LogLine(PyStr(GetOr(decoded.value.fields, "timestamp", JStr(nowTs)), show),
                                PyStr(GetOr(decoded.value.fields, "sender", JStr("?")), show),
                                Strip(MessageOf(decoded).value.s))
  {
    match decoded
    case None => ReaderCrash
    case Some(msg) =>
      if !msg.JObj? then ReaderCrash
      else
        var ts := GetOr(msg.fields, "timestamp", JStr(nowTs));
        var sender := GetOr(msg.fields, "sender", JStr("?"));
        var message := Lookup(msg.fields, "message");
        if !Truthy(message) then Skipped
        else if !message.JStr? then ReaderCrash
        else
          var text := Strip(message.s);
          if |text| == 0 then Skipped
          else Printed(LogLine(PyStr(ts, show), PyStr(sender, show), text))
  }

  /** A record without `sender` is printed under `?`, and one without
      `timestamp` under the current time. */
  lemma LogDefaults(nowTs: string, show: Json -> string, text: string)
    requires |Strip(text)| > 0
    ensures ReadLog(Some(JObj(map["message" := JStr(text)])), nowTs, show)
         == Printed(LogLine(nowTs, "?", Strip(text)))
  {
    var fields := map["message" := JStr(text)];
    assert "timestamp" !in fields && "sender" !in fields;
    assert |StripLeft(text)| > 0;
    assert Truthy(Lookup(fields, "message"));
  }

  /** A message of only whitespace is dropped, whatever else the record holds. */
  lemma WhitespaceMessageDropped(fields: map<string, Json>, text: string, nowTs: string, show: Json -> string)
    requires "message" in fields && fields["message"] == JStr(text)
    requires forall i :: 0 <= i < |text| ==> IsSpace(text[i])
    ensures ReadLog(Some(JObj(fields)), nowTs, show) == Skipped
  {
    StripEmptyIff(text);
  }

  // ---------------------------------------------------------------------
  // Heartbeats: `_read_heartbeats`
  // ---------------------------------------------------------------------

  /** The `sender` of a decoded record, when the record is an object. */
  function SenderOf(decoded: Option<Json>): Option<Json> {
    if decoded.Some? && decoded.value.JObj? then Some(Lookup(decoded.value.fields, "sender")) else None
  }

  /** One record on the heartbeat channel at time `now`: a truthy `sender`
      gets `now` as its last heartbeat. `None` is an exception that ends the
      heartbeat task: undecodable bytes, a non-object, or an unhashable sender. */
  function ReadHeartbeat(hb: Dict<Key, int>, decoded: Option<Json>, now: int): (r: Option<Dict<Key, int>>)
    requires Valid(hb)
    ensures r.Some? ==> Valid(r.value)
    ensures r.None? <==> SenderOf(decoded).None? || (Truthy(SenderOf(decoded).value) && KeyOf(SenderOf(decoded).value).None?)
    ensures r.Some? && Truthy(SenderOf(decoded).value) ==>
              var k := KeyOf(SenderOf(decoded).value).value;
              r.value.vals == hb.vals[k := now] && (k in hb.vals ==> r.value.keys == hb.keys)
    ensures r.Some? && !Truthy(SenderOf(decoded).value) ==> r.value == hb
  {
    match SenderOf(decoded)
    case None => None
    case Some(sender) =>
      if !Truthy(sender) then Some(hb)
      else
        match KeyOf(sender)
        case None => None
        case Some(k) => Some(Put(hb, k, now))
  }

  /** The heartbeat task on the supervisor state; a crash leaves the map as
      it was (its asyncio task is gone, so nothing updates it any more).
      The task loops only while the supervisor runs: once it has stopped,
      a record that arrives is never read. */
  function Heartbeat(s: Sup, decoded: Option<Json>, now: int): (r: Option<Sup>)
    requires Inv(s)
    ensures r.Some? ==> Inv(r.value) && r.value == s.(heartbeats := r.value.heartbeats)
    ensures !s.running ==> r == Some(s)
    ensures s.running ==> (r.Some? <==> ReadHeartbeat(s.heartbeats, decoded, now).Some?)
    ensures s.running && r.Some? ==> r.value.heartbeats == ReadHeartbeat(s.heartbeats, decoded, now).value
  {
    if !s.running then Some(s)
    else
    match ReadHeartbeat(s.heartbeats, decoded, now)
    case None => None
    case Some(hb) => Some(s.(heartbeats := hb))
  }

  // ---------------------------------------------------------------------
  // Watchdog: `_watchdog`
  // ---------------------------------------------------------------------

  /** The heartbeat of `k` is strictly older than the warning threshold. */
  predicate IsStale(hb: map<Key, int>, now: int, k: Key) {
    k in hb && now - hb[k] > HeartbeatWarnS
  }

  /** The all-OK loop over `processes` as written: an exited process breaks
      out with `False`; a process without a recent heartbeat sets `False` and
      the loop goes on. */
  function OkLoop(names: seq<Key>, procs: map<Key, Proc>, hb: map<Key, int>, now: int): bool
    requires forall i :: 0 <= i < |names| ==> names[i] in procs
    decreases |names|
  {
    if |names| == 0 then true
    else
      var k := names[0];
      if procs[k].exited then false
      else
        var recent := k in hb && now - hb[k] <= HeartbeatWarnS;
        var rest := OkLoop(names[1..], procs, hb, now);
        recent && rest
  }

  /** Every launched process is running and has a heartbeat within the threshold. */
  predicate AllHealthy(s: Sup, now: int) {
    forall k :: k in s.processes.vals ==>
      !s.processes.vals[k].exited && k in s.heartbeats.vals && now - s.heartbeats.vals[k] <= HeartbeatWarnS
  }

  /** The loop computes exactly "every process is running and fresh". */
  lemma {:induction false} OkLoopMeansHealthy(names: seq<Key>, procs: map<Key, Proc>, hb: map<Key, int>, now: int)
    requires forall i :: 0 <= i < |names| ==> names[i] in procs
    ensures OkLoop(names, procs, hb, now) <==>
              forall i :: 0 <= i < |names| ==>
                !procs[names[i]].exited && names[i] in hb && now - hb[names[i]] <= HeartbeatWarnS
    decreases |names|
  {
    if |names| > 0 {
      OkLoopMeansHealthy(names[1..], procs, hb, now);
      assert forall i :: 1 <= i < |names| ==> names[i] == names[1..][i - 1];
    }
  }

  /** The all-OK check is due: never done, or strictly more than ten seconds ago. */
  predicate OkDue(s: Sup, now: int) {
    s.lastOk.None? || now - s.lastOk.value > HeartbeatOkEveryS
  }

  datatype Tick = Tick(sup: Sup, warned: seq<Key>, okLine: bool)

  /** One watchdog iteration at time `now`: a warning per stale sender in the
      order senders first sent a heartbeat; then, when due, the all-OK check,
      which moves `_last_ok_print` to `now` whether or not it prints. A stopped
      supervisor does nothing. */
  function Watchdog(s: Sup, now: int): (r: Tick)
    requires Inv(s)
    ensures Inv(r.sup)
    ensures s.running ==> forall k :: k in r.warned <==> IsStale(s.heartbeats.vals, now, k)
    ensures s.running ==> SubsequenceOf(r.warned, s.heartbeats.keys)
    ensures r.okLine <==> s.running && OkDue(s, now) && AllHealthy(s, now)
    ensures r.sup.lastOk == (if s.running && OkDue(s, now) then Some(now) else s.lastOk)
    ensures r.sup == s.(lastOk := r.sup.lastOk)
    ensures !s.running ==> r.warned == []
  {
    if !s.running then Tick(s, [], false)
    else
      var hb := s.heartbeats.vals;
      var warned := FilterKeys(s.heartbeats, k => IsStale(hb, now, k));
      if OkDue(s, now) then
        var allOk := OkLoop(s.processes.keys, s.processes.vals, hb, now);
        OkLoopMeansHealthy(s.processes.keys, s.processes.vals, hb, now);
        assert allOk <==> AllHealthy(s, now);
        Tick(s.(lastOk := Some(now)), warned, allOk)
      else Tick(s, warned, false)
  }

  /** The threshold is strict: fifteen seconds of silence is no warning,
      sixteen is. */
  lemma WarnBoundary(s: Sup, k: Key, t: int)
    requires Inv(s) && s.running && k in s.heartbeats.vals && s.heartbeats.vals[k] == t
    ensures k !in Watchdog(s, t + 15).warned
    ensures k in Watchdog(s, t + 16).warned
  {
  }

  /** A stale sender is warned about again on every later tick until it sends
      another heartbeat. */
  lemma StaleRepeats(s: Sup, k: Key, now: int, later: int)
    requires Inv(s) && s.running && now <= later
    requires k in Watchdog(s, now).warned
    ensures k in Watchdog(Watchdog(s, now).sup, later).warned
  {
  }

  /** A launched process that never sent a heartbeat is never warned about,
      yet keeps the all-OK line from being printed. */
  lemma SilentProcessBlocksOk(s: Sup, k: Key, now: int)
    requires Inv(s) && k in s.processes.vals && k !in s.heartbeats.vals
    ensures k !in Watchdog(s, now).warned
    ensures !Watchdog(s, now).okLine
  {
  }

  /** Two checks are at least eleven seconds apart: after a check, a tick
      within ten seconds prints nothing. */
  lemma OkRateLimited(s: Sup, now: int, later: int)
    requires Inv(s) && s.running && OkDue(s, now) && now <= later <= now + HeartbeatOkEveryS
    ensures !Watchdog(Watchdog(s, now).sup, later).okLine
    ensures Watchdog(Watchdog(s, now).sup, later).sup.lastOk == Some(now)
  {
  }

  /** A sender last heard from twenty seconds ago, with a threshold of
      fifteen: exactly one warning, for that sender, and no all-OK line in the
      same tick. */
  lemma TwentySecondsSilent(k: Key, p: Proc, t: int)
    ensures var s := Sup(true, false, Dict([k], map[k := p]), Dict([k], map[k := t]), None);
            Watchdog(s, t + 20).warned == [k] && !Watchdog(s, t + 20).okLine
  {
    var s := Sup(true, false, Dict([k], map[k := p]), Dict([k], map[k := t]), None);
    var w := Watchdog(s, t + 20).warned;
    assert k in w;
  }

  // ---------------------------------------------------------------------
  // Process exit, stop and shutdown
  // ---------------------------------------------------------------------

  /** The child filed under `k` exits; `poll()` now reports it. */
  function Exit(s: Sup, k: Key): (r: Sup)
    requires Inv(s)
    ensures Inv(r) && r.processes.keys == s.processes.keys
    ensures k in s.processes.vals ==> r.processes.vals[k].exited
    ensures forall j :: j in s.processes.vals && j != k ==> r.processes.vals[j] == s.processes.vals[j]
    ensures r == s.(processes := r.processes)
  {
    if k in s.processes.vals then
      s.(processes := Dict(s.processes.keys, s.processes.vals[k := s.processes.vals[k].(exited := true)]))
    else s
  }

  /** An exited child keeps the all-OK line from being printed. */
  lemma ExitBlocksOk(s: Sup, k: Key, now: int)
    requires Inv(s) && k in s.processes.vals
    ensures !Watchdog(Exit(s, k), now).okLine
  {
  }

  /** `request_stop`: the first call clears `running`, logs and cancels the
      tasks; later calls return at once. The flag reports whether it acted. */
  function RequestStop(s: Sup): (r: (Sup, bool))
    ensures !r.0.running
    ensures r.1 <==> s.running
    ensures r.1 ==> r.0.cancelled
    ensures !r.1 ==> r.0 == s
    ensures r.0.processes == s.processes && r.0.heartbeats == s.heartbeats && r.0.lastOk == s.lastOk
  {
    if !s.running then (s, false)
    else (s.(running := false, cancelled := true), true)
  }

  lemma RequestStopIdempotent(s: Sup)
    ensures RequestStop(RequestStop(s).0) == (RequestStop(s).0, false)
  {
  }

  /** What shutdown did to one child. */
  datatype Halt = AlreadyExited | Terminated | Killed

  /** The shutdown loop over `processes` in order: a child that has exited is
      left alone; a running one gets `terminate` and a five-second `wait`, and
      is killed when either raises (`stubborn` names those children). */
  function HaltAll(names: seq<Key>, procs: map<Key, Proc>, stubborn: set<Key>): (r: seq<(Key, Halt)>)
    requires forall i :: 0 <= i < |names| ==> names[i] in procs
    ensures |r| == |names|
    ensures forall i :: 0 <= i < |names| ==> r[i].0 == names[i]
    ensures forall i :: 0 <= i < |names| ==> (r[i].1 == AlreadyExited <==> procs[names[i]].exited)
    ensures forall i :: 0 <= i < |names| ==> (r[i].1 == Killed <==> !procs[names[i]].exited && names[i] in stubborn)
    decreases |names|
  {
    if |names| == 0 then []
    else
      var k := names[0];
      var h := if procs[k].exited then AlreadyExited else if k in stubborn then Killed else Terminated;
      [(k, h)] + HaltAll(names[1..], procs, stubborn)
  }

  /** `_shutdown`: every child still running is stopped, by signal or by
      kill, and `processes` ends empty. */
  function Shutdown(s: Sup, stubborn: set<Key>): (r: (Sup, seq<(Key, Halt)>))
    requires Inv(s)
    ensures Inv(r.0) && r.0.processes.keys == [] && r.0.processes.vals == map[]
    ensures |r.1| == |s.processes.keys|
    ensures forall k :: k in s.processes.vals && !s.processes.vals[k].exited ==>
              exists i :: 0 <= i < |r.1| && r.1[i].0 == k && r.1[i].1 != AlreadyExited
    ensures forall i :: 0 <= i < |r.1| ==>
              (r.1[i].0 in s.processes.vals && (r.1[i].1 != AlreadyExited <==> !s.processes.vals[r.1[i].0].exited))
    // the children are halted in the order they were filed
    ensures r.1 == HaltAll(s.processes.keys, s.processes.vals, stubborn)
    // nothing but the process table changes
    ensures r.0 == s.(processes := r.0.processes)
  {
    var out := HaltAll(s.processes.keys, s.processes.vals, stubborn);
    forall k | k in s.processes.vals && !s.processes.vals[k].exited
      ensures exists i :: 0 <= i < |out| && out[i].0 == k && out[i].1 != AlreadyExited
    {
      var i := IndexOf(s.processes.keys, k);
      assert out[i].0 == k;
    }
    (s.(processes := Empty()), out)
  }
}

=== FILE: taggen.dfy ===
/** AprilTag image generation (`generate_tag` in
    DisplayManager/tag_generator.py): the family and id are validated, then
    every cell of the tag's bit pattern is painted as a square block of
    black or white pixels on a white square image. Loading the pattern file
    is an input: `load` gives the patterns stored in a family's file. */
module TagGen {
  import opened Wrappers
  import opened Text

  /** A family's code size, minimum Hamming distance and pattern file. */
  datatype Family = Family(bits: nat, hamming: nat, file: string)

  const Families: map<string, Family> := map[
    "tag36h11" := Family(36, 11, "apriltag/patterns/tag36_11.npz"),
    "tag25h9" := Family(25, 9, "apriltag/patterns/tag25_9.npz"),
    "tag16h5" := Family(16, 5, "apriltag/patterns/tag16_5.npz")]

  predicate Rectangular(b: seq<seq<int>>) {
    forall i :: 0 <= i < |b| ==> |b[i]| == |b[0]|
  }

  /** A tag's bit pattern: rows of equal length, as a 2-D array's are. */
  type Bitmap = b: seq<seq<int>> | Rectangular(b)

  function Rows(b: Bitmap): nat { |b| }

  function Cols(b: Bitmap): nat { if |b| == 0 then 0 else |b[0]| }

  /** The exceptions `generate_tag` can raise: `ValueError` for an unknown
      family, an id past the end or a negative image size, `IndexError` for
      an id below `-count` or a write past the image's edge, and
      `ZeroDivisionError` for a pattern without rows. */
  datatype Error =
    | UnknownFamily(name: string)
    | IdOutOfRange(id: int, family: string)
    | IndexError
    | ZeroDivision
    | BadSize(size: int)

  /** The pattern for `tagId` among `patterns`. The only range check is
      `tagId >= count`; a negative id indexes from the end, as numpy does,
      and raises only below `-count`. */
  function Pick(patterns: seq<Bitmap>, tagId: int, family: string): (r: Result<Bitmap, Error>)
    ensures tagId >= |patterns| ==> r == Err(IdOutOfRange(tagId, family))
    ensures 0 <= tagId < |patterns| ==> r == Ok(patterns[tagId])
    ensures -|patterns| <= tagId < 0 ==> r == Ok(patterns[|patterns| + tagId])
    ensures tagId < -|patterns| ==> r == Err(IndexError)
  {
    if tagId >= |patterns| then Err(IdOutOfRange(tagId, family))
    else if tagId >= 0 then Ok(patterns[tagId])
    else if tagId >= -|patterns| then Ok(patterns[|patterns| + tagId])
    else Err(IndexError)
  }

  /** The validation part of `generate_tag`: the family name is lower-cased
      before lookup, then the id is checked against the family's patterns. */
  function Validate(family: string, tagId: int, load: string -> seq<Bitmap>): (r: Result<Bitmap, Error>)
    ensures Lower(family) !in Families ==> r == Err(UnknownFamily(Lower(family)))
    ensures Lower(family) in Families ==>
              r == Pick(load(Families[Lower(family)].file), tagId, Lower(family))
  {
    var name := Lower(family);
    if name !in Families then Err(UnknownFamily(name))
    else Pick(load(Families[name].file), tagId, name)
  }

  /** The family name is matched in any letter case. */
  lemma FamilyCaseInsensitive(tagId: int, load: string -> seq<Bitmap>)
    ensures Validate("TAG36H11", tagId, load) == Validate("tag36h11", tagId, load)
  {
    assert Lower("TAG36H11") == "tag36h11";
    assert Lower("tag36h11") == "tag36h11";
  }

  // ---------------------------------------------------------------------
  // Rasterisation
  // ---------------------------------------------------------------------

  /** The grey level of a cell: black for a 1 bit, white otherwise. */
  function Colour(bit: int): int {
    if bit == 1 then 0 else 255
  }

  /** The block side: `size // rows`. */
  function Cell(b: Bitmap, size: nat): nat
    requires |b| > 0
  {
    size / |b|
  }

  /** The grey level the finished image has at column `px`, row `py`: the
      colour of the cell the pixel falls in, or white outside the painted
      `cols·cell × rows·cell` region. */
  function Expected(b: Bitmap, cell: nat, px: nat, py: nat): int
  {
    if cell > 0 && py < Rows(b) * cell && px < Cols(b) * cell then
      DivBound(py, cell, Rows(b));
      DivBound(px, cell, Cols(b));
      Colour(b[py / cell][px / cell])
    else 255
  }

  lemma DivBound(p: nat, c: nat, n: nat)
    requires c > 0 && p < n * c
    ensures p / c < n
  {
  }

  lemma DivCell(p: nat, k: nat, c: nat, d: nat)
    requires c > 0 && d < c && p == k * c + d
    ensures p / c == k
  {
    var q := p / c;
    var r := p % c;
    assert q * c + r == p;
    assert (q - k) * c == d - r;
    SmallMultiple(q - k, c);
  }

  lemma SmallMultiple(m: int, c: int)
    requires c > 0 && -c < m * c < c
    ensures m == 0
  {
  }

  lemma MulMono(a: nat, b: nat, c: nat)
    requires a <= b
    ensures a * c <= b * c
  {
  }

  lemma BlocksFit(size: nat, rows: nat)
    requires rows > 0
    ensures rows * (size / rows) <= size
  {
  }

  /** Paints the bitmap's cells on a white `size × size` image, indexed
      `[column, row]`, row by row and cell column by cell column, each cell
      as a `cell × cell` block. When a row is wider than the image holds,
      `ok` is false: the write past the right edge raises `IndexError` and
      the image is discarded. */
  method Rasterise(b: Bitmap, size: nat) returns (ok: bool, img: array2<int>)
    requires |b| > 0
    ensures img.Length0 == size && img.Length1 == size
    ensures ok <==> (Cell(b, size) == 0 || Cols(b) * Cell(b, size) <= size)
    ensures ok ==> forall px, py :: 0 <= px < size && 0 <= py < size ==>
                     img[px, py] == Expected(b, Cell(b, size), px, py)
  {
    var cell := size / |b|;
    var rows := |b|;
    var cols := |b[0]|;
    img := new int[size, size]((_, _) => 255);
    if cell > 0 && cols * cell > size {
      return false, img;
    }
    BlocksFit(size, rows);
    BlankPainted(img, b, cell, size);
    PaintAll(b, img, size, cell);
    AllPainted(img, b, cell, size);
    return true, img;
  }

  /** Paints every cell row, from a blank image to a fully painted one. */
  method PaintAll(b: Bitmap, img: array2<int>, size: nat, cell: nat)
    requires |b| > 0 && Rows(b) * cell <= size
    requires cell == 0 || Cols(b) * cell <= size
    requires PaintedUpTo(img, b, cell, size, 0, cell, 0)
    modifies img
    ensures PaintedUpTo(img, b, cell, size, Rows(b) * cell, cell, 0)
  {
    var y := 0;
    ghost var y0 := 0;
    while y < Rows(b)
      invariant 0 <= y <= Rows(b) && y0 == y * cell
      invariant PaintedUpTo(img, b, cell, size, y0, cell, 0)
    {
      MulMono(y + 1, Rows(b), cell);
      PaintRow(b, img, size, cell, y, y0);
      y := y + 1;
      y0 := y0 + cell;
    }
  }

  /** The image is painted up to pixel row `y0`, and in the cell row of
      height `h` starting there, up to pixel column `x0`: those pixels hold
      their expected colour, every other pixel is still white. */
  ghost predicate PaintedUpTo(img: array2<int>, b: Bitmap, cell: nat, size: nat, y0: int, h: int, x0: int)
    reads img
  {
    img.Length0 == size && img.Length1 == size &&
    forall px, py :: 0 <= px < size && 0 <= py < size ==>
      img[px, py] == (if py < y0 || (py < y0 + h && px < x0) then Expected(b, cell, px, py) else 255)
  }

  /** A white image is painted up to nothing. */
  lemma BlankPainted(img: array2<int>, b: Bitmap, cell: nat, size: nat)
    requires img.Length0 == size && img.Length1 == size
    requires forall px, py :: 0 <= px < size && 0 <= py < size ==> img[px, py] == 255
    ensures PaintedUpTo(img, b, cell, size, 0, cell, 0)
  {
  }

  /** Past the last cell column the rest of a cell row is white already. */
  lemma RowPainted(img: array2<int>, b: Bitmap, cell: nat, size: nat, y0: int)
    requires PaintedUpTo(img, b, cell, size, y0, cell, Cols(b) * cell)
    ensures PaintedUpTo(img, b, cell, size, y0 + cell, cell, 0)
  {
  }

  /** Below the last cell row the image is white already. */
  lemma AllPainted(img: array2<int>, b: Bitmap, cell: nat, size: nat)
    requires PaintedUpTo(img, b, cell, size, Rows(b) * cell, cell, 0)
    ensures forall px, py :: 0 <= px < size && 0 <= py < size ==> img[px, py] == Expected(b, cell, px, py)
  {
  }

  /** Paints every block of cell row `y`, whose top pixel row is `y0`. */
  method PaintRow(b: Bitmap, img: array2<int>, size: nat, cell: nat, y: nat, ghost y0: nat)
    requires |b| > 0 && y < Rows(b) && y0 == y * cell && y0 + cell <= size
    requires cell == 0 || Cols(b) * cell <= size
    requires PaintedUpTo(img, b, cell, size, y0, cell, 0)
    modifies img
    ensures PaintedUpTo(img, b, cell, size, y0 + cell, cell, 0)
  {
    var x := 0;
    ghost var x0 := 0;
    while x < Cols(b)
      invariant 0 <= x <= Cols(b) && x0 == x * cell
      invariant PaintedUpTo(img, b, cell, size, y0, cell, x0)
    {
      MulMono(x + 1, Cols(b), cell);
      PaintCell(b, img, size, cell, x, y, x0, y0);
      x := x + 1;
      x0 := x0 + cell;
    }
    RowPainted(img, b, cell, size, y0);
  }

  /** Paints the block of cell `(x, y)`, whose top-left pixel is `(x0, y0)`. */
  method PaintCell(b: Bitmap, img: array2<int>, size: nat, cell: nat, x: nat, y: nat, ghost x0: nat, ghost y0: nat)
    requires x < Cols(b) && y < Rows(b)
    requires x0 == x * cell && y0 == y * cell && x0 + cell <= size && y0 + cell <= size
    requires PaintedUpTo(img, b, cell, size, y0, cell, x0)
    modifies img
    ensures PaintedUpTo(img, b, cell, size, y0, cell, x0 + cell)
  {
    var colour := Colour(b[y][x]);
    var dy := 0;
    while dy < cell
      invariant 0 <= dy <= cell
      invariant img.Length0 == size && img.Length1 == size
      invariant forall px, py :: 0 <= px < size && 0 <= py < size ==>
                  img[px, py] == (if py < y0 || (py < y0 + cell && px < x0) ||
                                     (y0 <= py < y0 + dy && x0 <= px < x0 + cell)
                                  then Expected(b, cell, px, py) else 255)
    {
      var dx := 0;
      while dx < cell
        invariant 0 <= dx <= cell
        invariant forall px, py :: 0 <= px < size && 0 <= py < size ==>
                    img[px, py] == (if py < y0 || (py < y0 + cell && px < x0) ||
                                       (y0 <= py < y0 + dy && x0 <= px < x0 + cell) ||
                                       (py == y0 + dy && x0 <= px < x0 + dx)
                                    then Expected(b, cell, px, py) else 255)
      {
        CellPixels(b, cell, x, y, dx, dy);
        img[x * cell + dx, y * cell + dy] := colour;
        dx := dx + 1;
      }
      dy := dy + 1;
    }
  }

  /** The pixels of cell `(x, y)`'s block, addressed as the painting loop
      addresses them, all have that cell's colour. */
  lemma CellPixels(b: Bitmap, cell: nat, x: nat, y: nat, dx: nat, dy: nat)
    requires cell > 0 && x < Cols(b) && y < Rows(b) && dx < cell && dy < cell
    ensures Expected(b, cell, x * cell + dx, y * cell + dy) == Colour(b[y][x])
  {
    MulMono(x + 1, Cols(b), cell);
    MulMono(y + 1, Rows(b), cell);
    assert (x + 1) * cell == x * cell + cell;
    assert (y + 1) * cell == y * cell + cell;
    DivCell(x * cell + dx, x, cell, dx);
    DivCell(y * cell + dy, y, cell, dy);
  }

  /** A square pattern always fits: only a pattern wider than it is tall can
      run past the image's right edge. */
  lemma SquareFits(b: Bitmap, size: nat)
    requires |b| > 0 && Cols(b) <= Rows(b)
    ensures Cell(b, size) == 0 || Cols(b) * Cell(b, size) <= size
  {
    MulMono(Cols(b), Rows(b), Cell(b, size));
    BlocksFit(size, Rows(b));
  }

  /** `generate_tag(family, tag_id, size)`: the validated pattern painted on
      a `size × size` image, or the exception raised on the way. The block
      side is computed before the image is created, so a pattern without
      rows fails before a negative size is noticed. */
  method Generate(family: string, tagId: int, size: int, load: string -> seq<Bitmap>)
    returns (r: Result<array2<int>, Error>)
    ensures Validate(family, tagId, load).Err? ==> r == Err(Validate(family, tagId, load).error)
    ensures Validate(family, tagId, load) == Ok([]) ==> r == Err(ZeroDivision)
    ensures (Validate(family, tagId, load).Ok? && |Validate(family, tagId, load).value| > 0 && size < 0)
            ==> r == Err(BadSize(size))
    ensures r.Ok? <==>
              (Validate(family, tagId, load).Ok? && |Validate(family, tagId, load).value| > 0 && size >= 0 &&
               var b := Validate(family, tagId, load).value;
               Cell(b, size) == 0 || Cols(b) * Cell(b, size) <= size)
    ensures r.Ok? ==> r.value.Length0 == size && r.value.Length1 == size
    ensures r.Ok? ==>
              var b := Validate(family, tagId, load).value;
              forall px, py :: 0 <= px < size && 0 <= py < size ==>
                r.value[px, py] == Expected(b, Cell(b, size), px, py)
  {
    var v := Validate(family, tagId, load);
    if v.Err? {
      return Err(v.error);
    }
    var b := v.value;
    if |b| == 0 {
      return Err(ZeroDivision);
    }
    if size < 0 {
      return Err(BadSize(size));
    }
    var ok, img := Rasterise(b, size);
    if !ok {
      return Err(IndexError);
    }
    return Ok(img);
  }
}

=== FILE: text.dfy ===
/** String functions with the semantics of the Python `str` methods the
    system relies on: `strip`, `split()`, `split(sep)`, `join`, `upper`,
    `lower`, `startswith`, `in`, `replace` and `int(...)`. Whitespace and case
    mapping are those of the ASCII range. */
module Text {
  import opened Wrappers

  // ---------------------------------------------------------------------
  // Characters
  // ---------------------------------------------------------------------

  /** `str.isspace` on the ASCII range: tab to carriage return, space, and
      the separator controls 0x1C-0x1F. Python's other whitespace characters
      (0x85, 0xA0 and the Unicode spaces and separators) are not whitespace
      here. */
  predicate IsSpace(c: char) {
    c == ' ' || ('\t' <= c <= '\r') || ('\U{001C}' <= c <= '\U{001F}')
  }

  predicate NoSpace(s: string) {
    forall i :: 0 <= i < |s| ==> !IsSpace(s[i])
  }

  predicate IsDigit(c: char) {
    '0' <= c <= '9'
  }

  predicate AllDigits(s: string) {
    forall i :: 0 <= i < |s| ==> IsDigit(s[i])
  }

  /** ASCII upper-casing of one character: other letters are unchanged. */
  function UpperChar(c: char): char {
    if 'a' <= c <= 'z' then (c as int - 32) as char else c
  }

  /** ASCII lower-casing of one character. */
  function LowerChar(c: char): char {
    if 'A' <= c <= 'Z' then (c as int + 32) as char else c
  }

  /** `s.upper()` on ASCII letters: maps each to upper case and keeps the
      length. */
  function Upper(s: string): (r: string)
    ensures |r| == |s|
    ensures forall i :: 0 <= i < |s| ==> r[i] == UpperChar(s[i])
  {
    seq(|s|, i requires 0 <= i < |s| => UpperChar(s[i]))
  }

  /** No ASCII lower-case letter. */
  predicate NoLower(s: string) {
    forall i :: 0 <= i < |s| ==> !('a' <= s[i] <= 'z')
  }

  lemma UpperNoLower(s: string)
    ensures NoLower(Upper(s))
  {
    forall i | 0 <= i < |s|
      ensures !('a' <= Upper(s)[i] <= 'z')
    {
      assert Upper(s)[i] == UpperChar(s[i]);
    }
  }

  lemma UpperOfNoLower(s: string)
    requires NoLower(s)
    ensures Upper(s) == s
  {
    assert forall i :: 0 <= i < |s| ==> UpperChar(s[i]) == s[i];
  }

  /** `s.lower()` on ASCII letters. */
  function Lower(s: string): (r: string)
    ensures |r| == |s|
    ensures forall i :: 0 <= i < |s| ==> r[i] == LowerChar(s[i])
  {
    seq(|s|, i requires 0 <= i < |s| => LowerChar(s[i]))
  }

  // ---------------------------------------------------------------------
  // strip
  // ---------------------------------------------------------------------

  /** Drops leading whitespace: the result is a suffix of `s`, and everything
      dropped is whitespace. */
  function StripLeft(s: string): (r: string)
    ensures |r| <= |s| && r == s[|s| - |r|..]
    ensures |r| > 0 ==> !IsSpace(r[0])
    ensures forall i :: 0 <= i < |s| - |r| ==> IsSpace(s[i])
    decreases |s|
  {
    if |s| > 0 && IsSpace(s[0]) then StripLeft(s[1..]) else s
  }

  /** Drops trailing whitespace: the result is a prefix of `s`, and everything
      dropped is whitespace. */
  function StripRight(s: string): (r: string)
    ensures |r| <= |s| && r == s[..|r|]
    ensures |r| > 0 ==> !IsSpace(r[|r| - 1])
    ensures forall i :: |r| <= i < |s| ==> IsSpace(s[i])
    decreases |s|
  {
    if |s| > 0 && IsSpace(s[|s| - 1]) then StripRight(s[..|s| - 1]) else s
  }

  /** `s.strip()`. */
  function Strip(s: string): string {
    StripRight(StripLeft(s))
  }

  /** A stripped string neither starts nor ends with whitespace. */
  lemma StripTrimmed(s: string)
    ensures var r := Strip(s); |r| == 0 || (!IsSpace(r[0]) && !IsSpace(r[|r| - 1]))
  {
    var l := StripLeft(s);
    var r := StripRight(l);
    if |r| > 0 {
      assert r[0] == l[0];
    }
  }

  /** Upper-casing keeps whitespace where it is and is undone by lower-casing. */
  lemma UpperShape(s: string)
    ensures Lower(Upper(s)) == Lower(s)
    ensures forall i :: 0 <= i < |s| ==> (IsSpace(Upper(s)[i]) <==> IsSpace(s[i]))
  {
    assert forall i :: 0 <= i < |s| ==> LowerChar(UpperChar(s[i])) == LowerChar(s[i]);
  }

  /** A string that neither starts nor ends with whitespace is its own strip. */
  lemma StripUnchanged(s: string)
    requires |s| == 0 || (!IsSpace(s[0]) && !IsSpace(s[|s| - 1]))
    ensures Strip(s) == s
  {
  }

  /** `s.strip()` is empty exactly when `s` is all whitespace. */
  lemma StripEmptyIff(s: string)
    ensures Strip(s) == "" <==> forall i :: 0 <= i < |s| ==> IsSpace(s[i])
  {
    var l := StripLeft(s);
    if Strip(s) == "" {
      assert |l| == 0;
    } else {
      assert l[0] == s[|s| - |l|];
    }
  }

  /** Whitespace around a string without surrounding whitespace is exactly
      what `strip` removes. */
  lemma {:induction false} StripPadded(a: string, x: string, b: string)
    requires forall i :: 0 <= i < |a| ==> IsSpace(a[i])
    requires forall i :: 0 <= i < |b| ==> IsSpace(b[i])
    requires |x| > 0 && !IsSpace(x[0]) && !IsSpace(x[|x| - 1])
    ensures Strip(a + x + b) == x
  {
    StripLeftPadded(a, x + b);
    assert a + x + b == a + (x + b);
    StripRightPadded(x, b);
  }

  lemma {:induction false} StripLeftPadded(a: string, t: string)
    requires forall i :: 0 <= i < |a| ==> IsSpace(a[i])
    requires |t| > 0 && !IsSpace(t[0])
    ensures StripLeft(a + t) == t
    decreases |a|
  {
    if |a| > 0 {
      assert (a + t)[1..] == a[1..] + t;
      StripLeftPadded(a[1..], t);
    } else {
      assert a + t == t;
    }
  }

  lemma {:induction false} StripRightPadded(x: string, b: string)
    requires forall i :: 0 <= i < |b| ==> IsSpace(b[i])
    requires |x| > 0 && !IsSpace(x[|x| - 1])
    ensures StripRight(x + b) == x
    decreases |b|
  {
    if |b| > 0 {
      assert (x + b)[..|x + b| - 1] == x + b[..|b| - 1];
      StripRightPadded(x, b[..|b| - 1]);
    } else {
      assert x + b == x;
    }
  }

  // ---------------------------------------------------------------------
  // split(sep) and sep.join
  // ---------------------------------------------------------------------

  /** `s.split(sep)` for a one-character separator: at least one field, and no
      field contains the separator. */
  function SplitOn(s: string, sep: char): (parts: seq<string>)
    ensures |parts| >= 1
    ensures forall i :: 0 <= i < |parts| ==> sep !in parts[i]
    decreases |s|
  {
    if |s| == 0 then [""]
    else
      var rest := SplitOn(s[1..], sep);
      if s[0] == sep then [""] + rest
      else [[s[0]] + rest[0]] + rest[1..]
  }

  /** `sep.join(parts)`. */
  function JoinWith(parts: seq<string>, sep: char): string
    decreases |parts|
  {
    if |parts| == 0 then ""
    else if |parts| == 1 then parts[0]
    else parts[0] + [sep] + JoinWith(parts[1..], sep)
  }

  /** Number of occurrences of `c` in `s`. */
  function CountChar(s: string, c: char): nat
    decreases |s|
  {
    if |s| == 0 then 0 else (if s[0] == c then 1 else 0) + CountChar(s[1..], c)
  }

  /** Joining the fields of a split gives the string back. */
  lemma {:induction false} JoinSplit(s: string, sep: char)
    ensures JoinWith(SplitOn(s, sep), sep) == s
    decreases |s|
  {
    if |s| > 0 {
      var rest := SplitOn(s[1..], sep);
      JoinSplit(s[1..], sep);
      if s[0] == sep {
        assert JoinWith([""] + rest, sep) == "" + [sep] + JoinWith(rest, sep);
        assert s == [sep] + s[1..];
      } else if |rest| == 1 {
        assert s == [s[0]] + s[1..];
      } else {
        var parts := [[s[0]] + rest[0]] + rest[1..];
        assert parts[1..] == rest[1..];
        assert JoinWith(rest, sep) == rest[0] + [sep] + JoinWith(rest[1..], sep);
        assert s == [s[0]] + s[1..];
      }
    }
  }

  /** A string free of the separator is a single field. */
  lemma {:induction false} SplitSingle(p: string, sep: char)
    requires sep !in p
    ensures SplitOn(p, sep) == [p]
    decreases |p|
  {
    if |p| > 0 {
      SplitSingle(p[1..], sep);
      assert [p[0]] + p[1..] == p;
    }
  }

  /** Splitting `p + sep + t`, with `p` free of the separator, yields `p` first. */
  lemma {:induction false} SplitCons(p: string, t: string, sep: char)
    requires sep !in p
    ensures SplitOn(p + [sep] + t, sep) == [p] + SplitOn(t, sep)
    decreases |p|
  {
    var s := p + [sep] + t;
    if |p| == 0 {
      assert s[1..] == t;
    } else {
      assert s[1..] == p[1..] + [sep] + t;
      SplitCons(p[1..], t, sep);
      assert [p[0]] + p[1..] == p;
    }
  }

  /** Splitting the join of separator-free fields gives the fields back. */
  lemma {:induction false} SplitJoin(parts: seq<string>, sep: char)
    requires |parts| >= 1
    requires forall i :: 0 <= i < |parts| ==> sep !in parts[i]
    ensures SplitOn(JoinWith(parts, sep), sep) == parts
    decreases |parts|
  {
    if |parts| == 1 {
      SplitSingle(parts[0], sep);
    } else {
      SplitJoin(parts[1..], sep);
      SplitCons(parts[0], JoinWith(parts[1..], sep), sep);
      assert [parts[0]] + parts[1..] == parts;
    }
  }

  /** `s.split(sep)` has one field more than `s` has separators. */
  lemma {:induction false} SplitCount(s: string, sep: char)
    ensures |SplitOn(s, sep)| == CountChar(s, sep) + 1
    decreases |s|
  {
    if |s| > 0 {
      SplitCount(s[1..], sep);
    }
  }

  /** Joining whitespace-free fields with a non-space separator gives a
      whitespace-free string. */
  lemma {:induction false} JoinNoSpace(parts: seq<string>, sep: char)
    requires !IsSpace(sep)
    requires forall i :: 0 <= i < |parts| ==> NoSpace(parts[i])
    ensures NoSpace(JoinWith(parts, sep))
    decreases |parts|
  {
    if |parts| > 1 {
      JoinNoSpace(parts[1..], sep);
      var t := JoinWith(parts[1..], sep);
      assert JoinWith(parts, sep) == parts[0] + [sep] + t;
    }
  }

  /** A line's terminating newline is stripped, and nothing else. */
  lemma StripNewline(x: string)
    requires |x| > 0 && NoSpace(x)
    ensures Strip(x + "\n") == x
  {
    var l := x + "\n";
    assert StripLeft(l) == l;
    assert l[..|l| - 1] == x;
    assert StripRight(x) == x;
  }

  /** A joined string holds a character other than the separator only if
      one of its parts does. */
  lemma {:induction false} JoinWithoutChar(parts: seq<string>, sep: char, c: char)
    requires c != sep
    requires forall i :: 0 <= i < |parts| ==> c !in parts[i]
    ensures c !in JoinWith(parts, sep)
    decreases |parts|
  {
    if |parts| > 1 {
      JoinWithoutChar(parts[1..], sep, c);
    }
  }

  // ---------------------------------------------------------------------
  // split() on whitespace runs
  // ---------------------------------------------------------------------

  /** Length of the leading run of non-whitespace characters. */
  function WordLen(s: string): (n: nat)
    ensures n <= |s|
    ensures forall i :: 0 <= i < n ==> !IsSpace(s[i])
    ensures n < |s| ==> IsSpace(s[n])
    decreases |s|
  {
    if |s| == 0 || IsSpace(s[0]) then 0 else 1 + WordLen(s[1..])
  }

  /** `s.split()`: the maximal runs of non-whitespace, in order. */
  function SplitWs(s: string): (words: seq<string>)
    ensures forall i :: 0 <= i < |words| ==> |words[i]| > 0 && NoSpace(words[i])
    decreases |s|
  {
    if |s| == 0 then []
    else if IsSpace(s[0]) then SplitWs(s[1..])
    else
      var n := WordLen(s);
      [s[..n]] + SplitWs(s[n..])
  }

  lemma {:induction false} WordLenOfWord(w: string, t: string)
    requires NoSpace(w)
    requires |t| == 0 || IsSpace(t[0])
    ensures WordLen(w + t) == |w|
    decreases |w|
  {
    if |w| > 0 {
      assert (w + t)[1..] == w[1..] + t;
      WordLenOfWord(w[1..], t);
    } else {
      assert w + t == t;
    }
  }

  lemma {:induction false} SplitWsWord(w: string, t: string)
    requires |w| > 0 && NoSpace(w)
    requires |t| == 0 || IsSpace(t[0])
    ensures SplitWs(w + t) == [w] + SplitWs(t)
  {
    WordLenOfWord(w, t);
    assert (w + t)[..|w|] == w;
    assert (w + t)[|w|..] == t;
  }

  /** Splitting words joined by single spaces gives the words back. */
  lemma {:induction false} SplitWsJoin(words: seq<string>)
    requires forall i :: 0 <= i < |words| ==> |words[i]| > 0 && NoSpace(words[i])
    ensures SplitWs(JoinWith(words, ' ')) == words
    decreases |words|
  {
    if |words| == 1 {
      SplitWsWord(words[0], "");
      assert words[0] + "" == words[0];
    } else if |words| > 1 {
      var t := JoinWith(words[1..], ' ');
      SplitWsJoin(words[1..]);
      assert words[0] + [' '] + t == words[0] + ([' '] + t);
      SplitWsWord(words[0], [' '] + t);
      assert ([' '] + t)[1..] == t;
      assert [words[0]] + words[1..] == words;
    }
  }

  // ---------------------------------------------------------------------
  // startswith, in, replace
  // ---------------------------------------------------------------------

  /** `s.startswith(p)`. */
  predicate StartsWith(s: string, p: string) {
    |p| <= |s| && s[..|p|] == p
  }

  /** A string that differs from `p` at position `i` does not start with `p`. */
  lemma NotStartsWith(s: string, p: string, i: nat)
    requires i < |s| && i < |p| && s[i] != p[i]
    ensures !StartsWith(s, p)
  {
  }

  /** `sub in s`. */
  predicate Contains(s: string, sub: string)
    decreases |s|
  {
    StartsWith(s, sub) || (|s| > 0 && Contains(s[1..], sub))
  }

  /** `s.replace(pat, rep)`: every non-overlapping occurrence of `pat`, scanning
      left to right, becomes `rep`. */
  function ReplaceAll(s: string, pat: string, rep: string): string
    requires |pat| > 0
    decreases |s|
  {
    if |s| == 0 then ""
    else if StartsWith(s, pat) then rep + ReplaceAll(s[|pat|..], pat, rep)
    else [s[0]] + ReplaceAll(s[1..], pat, rep)
  }

  /** Replacing a substring that does not occur changes nothing. */
  lemma {:induction false} ReplaceAbsent(s: string, pat: string, rep: string)
    requires |pat| > 0
    requires !Contains(s, pat)
    ensures ReplaceAll(s, pat, rep) == s
    decreases |s|
  {
    if |s| > 0 {
      ReplaceAbsent(s[1..], pat, rep);
      assert [s[0]] + s[1..] == s;
    }
  }

  /** A leading `pat` followed by text free of it becomes `rep` followed by that text. */
  lemma ReplaceLeading(pat: string, t: string, rep: string)
    requires |pat| > 0 && !Contains(t, pat)
    ensures ReplaceAll(pat + t, pat, rep) == rep + t
  {
    var s := pat + t;
    assert s[..|pat|] == pat && s[|pat|..] == t;
    ReplaceAbsent(t, pat, rep);
  }

  /** When `pat` occurs, the replacement occurs in the result. */
  lemma {:induction false} ReplacePresent(s: string, pat: string, rep: string)
    requires |pat| > 0
    requires Contains(s, pat)
    ensures Contains(ReplaceAll(s, pat, rep), rep)
    decreases |s|
  {
    var r := ReplaceAll(s, pat, rep);
    if StartsWith(s, pat) {
      assert r[..|rep|] == rep;
      assert StartsWith(r, rep);
    } else {
      ReplacePresent(s[1..], pat, rep);
      assert r[1..] == ReplaceAll(s[1..], pat, rep);
      ContainsTail(r, rep);
    }
  }

  lemma ContainsTail(s: string, sub: string)
    requires |s| > 0 && Contains(s[1..], sub)
    ensures Contains(s, sub)
  {
  }

  /** A substring of `s` holding a character `s` lacks cannot occur in `s`. */
  lemma {:induction false} NoChar(s: string, t: string, c: char)
    requires c in t && c !in s
    ensures !Contains(s, t)
    decreases |s|
  {
    if |s| > 0 {
      NoChar(s[1..], t, c);
    }
  }

  /** Replacement with strings free of `c` keeps `c` out of the result. */
  lemma {:induction false} ReplaceWithoutChar(s: string, pat: string, rep: string, c: char)
    requires |pat| > 0
    requires c !in s && c !in rep
    ensures c !in ReplaceAll(s, pat, rep)
    decreases |s|
  {
    if |s| > 0 {
      if StartsWith(s, pat) {
        ReplaceWithoutChar(s[|pat|..], pat, rep, c);
      } else {
        ReplaceWithoutChar(s[1..], pat, rep, c);
      }
    }
  }

  /** `pat` and `t` cannot overlap: `pat` holds a character `w` that `t`
      lacks, so `pat` never lies inside `t`; the last character of `t` is not
      in `pat` before its end, so `t` cannot end inside `pat`; and the first
      character of `t` is not in `pat` after its start, so `t` cannot begin
      inside `pat`. */
  predicate Apart(t: string, pat: string, w: char) {
    |t| > 0 && |pat| > 0 && w in pat && w !in t &&
    t[|t| - 1] !in pat[..|pat| - 1] && t[0] !in pat[1..]
  }

  /** `pat` does not begin where a suffix `t[j..]` of `t` begins. */
  lemma NoPatAt(s: string, pat: string, t: string, w: char, j: nat)
    requires Apart(t, pat, w)
    requires j < |t| && StartsWith(s, t[j..])
    ensures !StartsWith(s, pat)
  {
    if |pat| <= |s| {
      if j + |pat| <= |t| {
        var i :| 0 <= i < |pat| && pat[i] == w;
        assert s[i] == t[j + i];
        assert t[j + i] in t;
        NotStartsWith(s, pat, i);
      } else {
        var k := |t| - 1 - j;
        assert s[k] == t[|t| - 1];
        assert pat[k] == pat[..|pat| - 1][k];
        NotStartsWith(s, pat, k);
      }
    }
  }

  /** A replacement that cannot overlap `t` keeps a leading `t[j..]`. */
  lemma {:induction false} ReplaceKeepsPrefix(s: string, pat: string, rep: string, t: string, w: char, j: nat)
    requires Apart(t, pat, w)
    requires j <= |t| && StartsWith(s, t[j..])
    ensures StartsWith(ReplaceAll(s, pat, rep), t[j..])
    decreases |t| - j
  {
    if j < |t| {
      NoPatAt(s, pat, t, w, j);
      ReplaceKeepsPrefix(s[1..], pat, rep, t, w, j + 1);
      assert t[j..][1..] == t[j + 1..];
    }
  }

  /** When `t` occurs in `s[k..]` but not at any of the positions `k` up to
      `m`, it occurs in `s[m..]`. */
  lemma {:induction false} ContainsSkip(s: string, t: string, k: nat, m: nat)
    requires k <= m <= |s| && Contains(s[k..], t)
    requires forall i :: k <= i < m ==> !StartsWith(s[i..], t)
    ensures Contains(s[m..], t)
    decreases m - k
  {
    if k < m {
      assert s[k..][1..] == s[k + 1..];
      ContainsSkip(s, t, k + 1, m);
    }
  }

  /** `t` in `x` is `t` in `a + x`. */
  lemma {:induction false} ContainsAfter(a: string, x: string, t: string)
    requires Contains(x, t)
    ensures Contains(a + x, t)
    decreases |a|
  {
    if |a| > 0 {
      assert (a + x)[1..] == a[1..] + x;
      ContainsAfter(a[1..], x, t);
    } else {
      assert a + x == x;
    }
  }

  /** A replacement that cannot overlap `t` keeps every occurrence of `t`. */
  lemma {:induction false} ReplaceKeeps(s: string, pat: string, rep: string, t: string, w: char)
    requires Apart(t, pat, w) && Contains(s, t)
    ensures Contains(ReplaceAll(s, pat, rep), t)
    decreases |s|
  {
    if StartsWith(s, t) {
      ReplaceKeepsPrefix(s, pat, rep, t, w, 0);
      assert t[0..] == t;
    } else if StartsWith(s, pat) {
      forall i | 1 <= i < |pat|
        ensures !StartsWith(s[i..], t)
      {
        assert s[i] == pat[1..][i - 1];
        assert s[i..][0] != t[0];
      }
      assert s[0..][1..] == s[1..];
      ContainsSkip(s, t, 1, |pat|);
      ReplaceKeeps(s[|pat|..], pat, rep, t, w);
      ContainsAfter(rep, ReplaceAll(s[|pat|..], pat, rep), t);
    } else {
      ReplaceKeeps(s[1..], pat, rep, t, w);
      ContainsAfter([s[0]], ReplaceAll(s[1..], pat, rep), t);
    }
  }

  /** A string without `t` has no `t` in any of its suffixes. */
  lemma {:induction false} NotContainsFrom(s: string, t: string, k: nat)
    requires k <= |s| && !Contains(s, t)
    ensures !Contains(s[k..], t)
    decreases k
  {
    if k > 0 {
      assert s[1..][k - 1..] == s[k..];
      NotContainsFrom(s[1..], t, k - 1);
    }
  }

  /** A replacement whose first character `p` lacks cannot make `p` a
      prefix: the first `|p|` characters of the result are copied ones. */
  lemma {:induction false} PrefixAbsent(u: string, pat: string, rep: string, p: string)
    requires |pat| > 0 && |rep| > 0 && |p| > 0 && rep[0] !in p
    requires !StartsWith(u, p)
    ensures !StartsWith(ReplaceAll(u, pat, rep), p)
    decreases |u|
  {
    if |u| > 0 {
      if StartsWith(u, pat) {
        var y := rep + ReplaceAll(u[|pat|..], pat, rep);
        assert ReplaceAll(u, pat, rep) == y;
        assert y[0] == rep[0];
        assert p[0] in p;
        NotStartsWith(y, p, 0);
      } else {
        var x := ReplaceAll(u[1..], pat, rep);
        var y := [u[0]] + x;
        assert ReplaceAll(u, pat, rep) == y;
        assert y[0] == u[0];
        if u[0] != p[0] {
          NotStartsWith(y, p, 0);
        } else if |p| > 1 {
          assert p == [p[0]] + p[1..];
          if |p| <= |u| {
            assert u[..|p|] == [u[0]] + u[1..][..|p| - 1];
          }
          PrefixAbsent(u[1..], pat, rep, p[1..]);
          if |p| <= |y| {
            assert y[..|p|] == [u[0]] + x[..|p| - 1];
          }
        }
      }
    }
  }

  /** `rep` followed by text without `t` holds no `t` when `t` cannot
      overlap `rep`. */
  lemma {:induction false} NoneAcross(rep: string, i: nat, x: string, t: string, w: char)
    requires Apart(rep, t, w) && i <= |rep| && !Contains(x, t)
    ensures !Contains(rep[i..] + x, t)
    decreases |rep| - i
  {
    if i == |rep| {
      assert rep[i..] + x == x;
    } else {
      NoneAcross(rep, i + 1, x, t, w);
      var y := rep[i..] + x;
      assert y[1..] == rep[i + 1..] + x;
      if |t| <= |rep| - i {
        var m :| 0 <= m < |t| && t[m] == w;
        assert y[m] == rep[i + m];
        assert rep[i + m] in rep;
        NotStartsWith(y, t, m);
      } else {
        var k := |rep| - 1 - i;
        assert y[k] == rep[|rep| - 1];
        assert t[k] == t[..|t| - 1][k];
        NotStartsWith(y, t, k);
      }
    }
  }

  /** A replacement that cannot overlap `t` creates no new `t`. */
  lemma {:induction false} ReplaceAddsNone(s: string, pat: string, rep: string, t: string, w: char)
    requires |pat| > 0 && Apart(rep, t, w) && !Contains(s, t)
    ensures !Contains(ReplaceAll(s, pat, rep), t)
    decreases |s|
  {
    if |s| > 0 {
      if StartsWith(s, pat) {
        NotContainsFrom(s, t, |pat|);
        ReplaceAddsNone(s[|pat|..], pat, rep, t, w);
        NoneAcross(rep, 0, ReplaceAll(s[|pat|..], pat, rep), t, w);
        assert rep[0..] == rep;
      } else {
        ReplaceAddsNone(s[1..], pat, rep, t, w);
        var x := ReplaceAll(s[1..], pat, rep);
        assert ReplaceAll(s, pat, rep) == [s[0]] + x;
        if s[0] == t[0] && |t| > 1 {
          assert t == [t[0]] + t[1..];
          if |t| <= |s| {
            assert s[..|t|] == [s[0]] + s[1..][..|t| - 1];
          }
          PrefixAbsent(s[1..], pat, rep, t[1..]);
        }
        assert ([s[0]] + x)[1..] == x;
      }
    }
  }

  /** `s` occurs in `a + s + b`. */
  lemma {:induction false} ContainsMiddle(a: string, s: string, b: string)
    ensures Contains(a + s + b, s)
    decreases |a|
  {
    if |a| == 0 {
      assert a + s + b == s + b;
      assert (s + b)[..|s|] == s;
    } else {
      assert (a + s + b)[1..] == a[1..] + s + b;
      ContainsMiddle(a[1..], s, b);
    }
  }

  // ---------------------------------------------------------------------
  // Decimal integers
  // ---------------------------------------------------------------------

  function DigitChar(d: nat): (c: char)
    requires d < 10
    ensures IsDigit(c)
  {
    ('0' as int + d) as char
  }

  function DigitValue(c: char): nat
    requires IsDigit(c)
  {
    c as int - '0' as int
  }

  /** The number the ASCII digits of `s` denote. */
  function DigitsValue(s: string): nat
    requires AllDigits(s)
    decreases |s|
  {
    if |s| == 0 then 0 else DigitsValue(s[..|s| - 1]) * 10 + DigitValue(s[|s| - 1])
  }

  /** `str(n)` for a natural number. */
  function NatToString(n: nat): (s: string)
    ensures |s| > 0 && AllDigits(s)
    decreases n
  {
    if n < 10 then [DigitChar(n)] else NatToString(n / 10) + [DigitChar(n % 10)]
  }

  /** `str(i)` for an integer. */
  function IntToString(i: int): string {
    if i < 0 then "-" + NatToString(-i) else NatToString(i)
  }

  /** `int(s)`: surrounding whitespace, an optional sign and at least one ASCII
      digit; anything else raises, which is `None` here. */
  function ParseInt(s: string): (r: Option<int>)
    ensures r.Some? ==> |Strip(s)| > 0
  {
    var t := Strip(s);
    if |t| > 0 && (t[0] == '-' || t[0] == '+') then
      if |t| > 1 && AllDigits(t[1..]) then
        Some(if t[0] == '-' then -(DigitsValue(t[1..]) as int) else DigitsValue(t[1..]))
      else None
    else if |t| > 0 && AllDigits(t) then Some(DigitsValue(t))
    else None
  }

  lemma {:induction false} DigitsRoundTrip(n: nat)
    ensures DigitsValue(NatToString(n)) == n
    decreases n
  {
    if n >= 10 {
      DigitsRoundTrip(n / 10);
      var s := NatToString(n);
      assert s[..|s| - 1] == NatToString(n / 10);
    }
  }

  /** `int(str(i)) == i`. */
  lemma ParseIntRoundTrip(i: int)
    ensures ParseInt(IntToString(i)) == Some(i)
  {
    var n: nat := if i < 0 then -i else i;
    var s := IntToString(i);
    var d := NatToString(n);
    DigitsRoundTrip(n);
    assert IsDigit(d[0]) && IsDigit(d[|d| - 1]);
    assert Strip(s) == s by {
      assert s[|s| - 1] == d[|d| - 1];
      StripUnchanged(s);
    }
    if i < 0 {
      assert s[0] == '-' && s[1..] == d;
    } else {
      assert s == d && s[0] != '-' && s[0] != '+';
    }
  }

  /** `str(i)` is one whitespace-free word. */
  lemma IntToStringIsWord(i: int)
    ensures |IntToString(i)| > 0 && NoSpace(IntToString(i))
  {
    var d := NatToString(if i < 0 then -i else i);
    assert forall j :: 0 <= j < |d| ==> IsDigit(d[j]);
  }
}

=== FILE: wrappers.dfy ===
/** Failure-carrying result types shared by every module of the model. */
module Wrappers {

  /** Python's optional value: `None` or a present value. */
  datatype Option<+T> = None | Some(value: T) {

    /** Returns the present value or `default`. */
    function GetOr(default: T): T {
      match this
      case Some(v) => v
      case None => default
    }
  }

  /** The outcome of an operation that may raise: a value, or the error it raised. */
  datatype Result<+R, +E> = Ok(value: R) | Err(error: E)
}
